=== FILE: README.md ===
# Ricardo, modelled in Dafny

Ricardo is a small real-time graphics workspace. It has four parts:

- **gavle** is a thin safe layer over OpenGL (ES) and WebGL. It probes the context for its version and limits. A `Device` creates shaders, buffers, textures, framebuffers, pipelines and uniform groups. It refuses to create pipelines, framebuffers and textures while a render pass holds the device. Misuse panics, while failures the driver reports come back as `Err`.
- **projects/one** is a snow scene. An entity system keeps one bundle of particles per class. The scene spawns a row of 24 snowflakes every quarter second and culls the flakes that fall off screen. A renderer packs the flakes and five mountains into uniform blocks and draws them instanced.
- **support** holds a 17-float vertex with its buffer layout, and a mesh loader. The loader turns an OBJ model into deduplicated vertices and `u32` indices, with a frame per vertex.
- **exercises** are small example programs:
  - one cycles topologies once per second;
  - two/d draws a circle that moves with the keyboard;
  - three/a builds a sphere of quads;
  - three/b builds a cylinder out of two fans and a woven band.

Each source file becomes one Dafny module:

| module | source |
|---|---|
| `Outcomes` | shared result types and integer widths |
| `Info` | `gavle/src/info.rs` |
| `Device` | `gavle/src/lib.rs` |
| `Binding` | `gavle/src/binding.rs` |
| `Resources` | the descriptor types the device uses |
| `Entity`, `Scene`, `Render` | `projects/one/src/entity.rs`, `scene.rs`, `render.rs` |
| `SupportVertex`, `Mesh` | `support/src/support/vertex.rs`, `mesh.rs` |
| `ExerciseOne`, `ExerciseTwoD`, `ExerciseThreeA`, `ExerciseThreeB` | the exercises |
| `Fans` | the triangle fan that two/d and three/b share |

How the model stands in for the program:

- **Panics and errors.** An operation that can panic returns `Checked<T>` (`Pass`/`Abort`) or `Outcome<T, E>` (`Ok`/`Err`/`Panic`). `Err` is a recoverable error and `Panic` a panic, so every contract separates the two.
- **GL.** Every GL call whose answer the code depends on is a parameter:
  - a `GlCreation`, which creates an object or fails;
  - a `Verdict`, which accepts a compile or link or rejects it with a log;
  - a `GlAnswer` for `glGetIntegerv`.
- **Floats.** An `f32` is its bit pattern (`F32(bits)`) wherever it is only stored or copied. Where the code does float arithmetic, that arithmetic is a function parameter.
- **Integer widths.** `u16`, `u32`, `i32` and `usize` are explicit bounds. Debug-build overflow panics and `as` truncations are written out.

## Model

| member | source | states |
|---|---|---|
| Outcomes.Unwrap | gavle/src/lib.rs:97-98 | `Result::unwrap` passes exactly on `Ok` and yields its value; any error becomes a panic |
| Outcomes.U32FromI32 | gavle/src/info.rs:153-196 | `u32::try_from` on an `i32` succeeds exactly for non-negative values and preserves them |
| Outcomes.Le32RoundTrip | support/src/support/vertex.rs:8-21 | the little-endian bytes of a 32-bit word decode back to the word |
| Outcomes.F32sBytesAt | support/src/support/vertex.rs:8-21 | float `i` of a `repr(C)` float array occupies bytes `4i .. 4i+4` of its byte image |
| Outcomes.Le16 | projects/one/src/render.rs:449-500 | the two bytes a `u16` index is uploaded as are its low byte then its high byte: read back little-endian they give the index again |
| Resources.PackedDisjoint | support/src/support/vertex.rs:24-64 | in a packed layout two distinct attributes never share a byte |
| Resources.PackedInside | support/src/support/vertex.rs:24-64 | in a packed layout every attribute ends within the array stride |
| Resources.PackedStride | support/src/support/vertex.rs:24-64 | a packed layout's stride is the total size of its attributes |
| Info.TrimStart | gavle/src/info.rs:274-303 | strips exactly the leading whitespace, leaving a suffix that starts with a non-space |
| Info.TrimEnd | gavle/src/info.rs:253-259 | strips exactly the trailing whitespace, leaving a prefix that ends with a non-space |
| Info.Trim | gavle/src/info.rs:253-259 | the trimmed vendor string is the part of the input that starts after its leading whitespace and is followed by nothing but whitespace, and it neither starts nor ends with whitespace |
| Info.DecimalRoundTrip | gavle/src/info.rs:367-370 | a number's decimal digits read back as the number |
| Info.ParseU32 | gavle/src/info.rs:367-370 | `u32::from_str_radix(_, 10)` only accepts a digit or `+` first and digits after it, ending in a digit, and only values below 2^32 |
| Info.ParseU32RejectsNonDigit | gavle/src/info.rs:367-370 | any character other than a digit is rejected, except a leading `+` |
| Info.ParseU32RoundTrip | gavle/src/info.rs:367-370 | every `u32` reads back from its decimal form, with or without a leading `+` |
| Info.ParseU32RejectsWide | gavle/src/info.rs:367-370 | decimal forms of values of 2^32 and above are rejected |
| Info.SignatureIsDisplayName | gavle/src/info.rs:274-316 | the prefix the parser strips for ES and WebGL is the profile's display name followed by one space |
| Info.ParseProfile | gavle/src/info.rs:274-303 | never panics; on success the trimmed input is the profile's signature followed by the rest, a core version starts with a digit, and the error carries the trimmed input |
| Info.ParseProfileSignature | gavle/src/info.rs:274-303 | a signature followed by a digit-led rest parses back to that profile and rest |
| Info.ParseProfileCore | gavle/src/info.rs:446-451 | a string that starts with a digit is a core profile and keeps the whole string |
| Info.ParseProfileEs | gavle/src/info.rs:446-451 | `OpenGL ES ` selects the ES profile and strips exactly the signature |
| Info.ParseProfileWeb | gavle/src/info.rs:446-451 | `WebGL ` selects the WebGL profile and strips exactly the signature |
| Info.ParseProfileRejects | gavle/src/info.rs:274-303 | a string that starts with neither a digit nor a known signature letter is rejected |
| Info.FindDot | gavle/src/info.rs:330-331 | `split_once('.')` splits at the first dot, or reports none |
| Info.SplitRelease | gavle/src/info.rs:329-365 | a release splits exactly when it has a dot; the minor part is all digits; the rest is a suffix that does not start with a revision character |
| Info.ParseRelease | gavle/src/info.rs:329-373 | never panics; without a dot it fails; on success both numbers are `u32`s and the rest is the unparsed suffix; a failure carries the input |
| Info.ParseReleaseRoundTrip | gavle/src/info.rs:329-373 | `major.minor` followed by any revision and a non-revision tail parses back to the release and the tail |
| Info.ParseReleaseNeedsDot | gavle/src/info.rs:330-331 | a string without a dot is not a release |
| Info.ParseReleaseRejectsMajor | gavle/src/info.rs:367-368 | a major part that `u32::from_str_radix` rejects (empty, not all digits, 2^32 or more) fails the release with the input as error |
| Info.ParseReleaseRejectsMinor | gavle/src/info.rs:367-369 | a minor part of 2^32 or more fails the release with the input as error |
| Info.ParseReleaseNeedsMinor | gavle/src/info.rs:333-344 | a dot not followed by a digit is not a release |
| Info.CmpNat | gavle/src/info.rs:385-393 | the numeric comparison is `Less`/`Equal` exactly when the numbers are ordered or equal |
| Info.ReleaseCmp | gavle/src/info.rs:385-393 | releases compare lexicographically on (major, minor), and compare equal exactly when they are equal |
| Info.PartialCmpAgrees | gavle/src/info.rs:375-383 | `partial_cmp` always agrees with `cmp` |
| Info.CmpAntisymmetric | gavle/src/info.rs:385-393 | `a < b` exactly when `b > a` |
| Info.ReleaseTotalOrder | gavle/src/info.rs:375-393 | `<=` on releases is reflexive, antisymmetric, transitive and total |
| Info.ParseVersion | gavle/src/info.rs:253-259 | never panics; on success the vendor string is trimmed and both release numbers are `u32`s |
| Info.ParseVersionRoundTrip | gavle/src/info.rs:253-373 | every version string made of a profile, a release, a revision and a trimmed vendor parses back to that version |
| Info.ParseVersionExampleNvidia | gavle/src/info.rs:464-485 | `4.6 NVIDIA 457.51` is core 4.6 with vendor `NVIDIA 457.51` |
| Info.ParseVersionExampleRevision | gavle/src/info.rs:455-460 | a `.0` revision after the minor number is skipped |
| Info.ParseVersionExampleEs | gavle/src/info.rs:464-485 | `OpenGL ES 3.0` is ES 3.0 with no vendor text |
| Info.ParseVersionExampleWeb | gavle/src/info.rs:464-485 | `WebGL 2.0` is WebGL 2.0 with no vendor text |
| Info.CheckedGet | gavle/src/info.rs:7-21 | a query answers its value, reports an unknown enum as absent, and panics on any other GL error |
| Info.RequiredLimit | gavle/src/info.rs:177-218 | a required limit is accepted exactly when present and non-negative; an unknown parameter and a negative value give the two distinct errors; other GL errors panic |
| Info.OptionalLimit | gavle/src/info.rs:153-196 | an optional limit is absent on an unknown enum, present when non-negative, an error when negative, and a panic on other GL errors |
| Info.CollectLimits | gavle/src/info.rs:152-238 | collection succeeds exactly when every required query answers a non-negative value and every optional one is non-negative or unknown; the limits are the answers; a failure names an offending parameter |
| Info.CheckDedicated | gavle/src/info.rs:61-78 | the dedicated MAJOR/MINOR queries must both be absent or both agree with the parsed release; otherwise the release is invalid |
| Info.Collect | gavle/src/info.rs:45-102 | on success the version parses from the string, agrees with the dedicated MAJOR/MINOR queries, meets the profile's minimum release, buffer mapping is offered exactly outside WebGL, and the limits are collected; an unparsable version string is reported as such; a context whose version agrees with the dedicated queries is decided by the release gate and the limits alone |
| Info.Precheck | gavle/src/info.rs:46-78 | the checks before the release gate pass exactly when both dedicated queries answer without a GL error, the version string parses and the two releases agree (or the queries are unsupported); they never report an unsupported release |
| Info.Admit | gavle/src/info.rs:80-101 | a known version is rejected as unsupported exactly when its release is below its profile's minimum, naming the profile and release; it is admitted exactly when the release is at least the minimum and the limits are collected |
| Info.CollectMinimumRelease | gavle/src/info.rs:80-89 | for a context whose version string agrees with the dedicated queries, `collect` reports an unsupported release exactly when the release is below 4.3, 3.0 or 2.0 for its profile, and succeeds exactly when it is not and the limits are collected; no other context is reported as an unsupported release |
| Info.CollectRejectsEs29 | gavle/src/info.rs:80-89 | an OpenGL ES 2.9 context is rejected as an unsupported ES 2.9 release |
| Info.CollectAcceptsEs30 | gavle/src/info.rs:80-101 | an OpenGL ES 3.0 context, exactly the minimum, is accepted |
| Device.NewDevice | gavle/src/lib.rs:162-172 | a device exists exactly when probing succeeds, holds the probed information, and starts unlocked |
| Device.CreateBufferWithData | gavle/src/lib.rs:75-121 | panics exactly when the data length differs from the declared size, fails exactly when GL cannot create the buffer, and otherwise yields a buffer of the declared size |
| Device.CreateBuffer | gavle/src/lib.rs:131-140 | an uninitialised buffer never panics and exists exactly when GL creates it |
| Device.CreateUniformBindGroup | gavle/src/lib.rs:180-243 | the group is created exactly when no entry offends the limits; on a panic the first offending entry is named; on success the entries are kept in order |
| Device.BytesPerPixel | gavle/src/lib.rs:535-539 | a pixel takes 16 bytes exactly for the four-float format, and 4 bytes for the 8-bit color and the depth-stencil formats |
| Device.MulU32 | gavle/src/lib.rs:541-544 | a debug-build `u32` product passes exactly when it fits in 32 bits |
| Device.RequiredDataLengthAsWritten | gavle/src/lib.rs:541-546 | when the `u32` product of the initial-data length does not overflow, it is the true byte count |
| Device.AsWrittenAgreesBelow4GiB | gavle/src/lib.rs:541-546 | for non-empty extents below 4 GiB the product as written is the true byte count |
| Device.AsWrittenOverflows | gavle/src/lib.rs:541-546 | a legal 16384×16384 RGBA32F texture needs exactly 2^32 bytes, so the product as written overflows |
| Device.CreateTexture | gavle/src/lib.rs:424-658 | panics while locked or when asked for mipmaps; fails exactly on a GL creation failure; on success the texture is within limits and any initial data is long enough; an unsatisfied limit or short data panics |
| Device.InvalidBoundsUnreachable | gavle/src/lib.rs:556-633 | on a device with probed limits, the `i32` conversion error of texture creation never fires |
| Device.DefaultFramebufferOf | gavle/src/lib.rs:247-257 | the default framebuffer carries exactly the requested load operations |
| Device.AttachTexture | gavle/src/lib.rs:308-336 | a texture attaches exactly when it is two-dimensional (or an array) and within the attachment extent |
| Device.AttachColors | gavle/src/lib.rs:338-350 | attaching the colors from slot `i` on succeeds exactly when there are no more colors than the limit and each one is attachable |
| Device.ColorsAllowedIff | gavle/src/lib.rs:338-350 | attaching all colors succeeds exactly when there are no more than the limit and each is attachable |
| Device.CreateFramebuffer | gavle/src/lib.rs:264-397 | panics while locked; fails exactly on a GL failure; succeeds exactly when the attachments are allowed and the result is complete; missing attachments get the default load operations |
| Device.CreateShader | gavle/src/lib.rs:36-65 | never panics; a shader exists exactly when GL creates it and it compiles, and each failure carries its cause |
| Device.CreateRenderPipeline | gavle/src/lib.rs:669-727 | panics exactly while locked; otherwise succeeds exactly when the program is created and links, and keeps the descriptor's shaders and layout |
| Device.StartRenderPass | gavle/src/lib.rs:401-420 | a pass starts exactly when the device is unlocked, locks it, and starts with no state set |
| Device.EndRenderPass | gavle/src/lib.rs:401-420 | ending a pass unlocks the device and keeps its information |
| Device.PassExcludesLockers | gavle/src/lib.rs:269-674 | while a pass is open, pipelines, framebuffers, textures and a second pass panic; buffers and shaders behave as before; ending the pass allows a new one |
| Device.GroupIgnoresLock | gavle/src/lib.rs:180-243 | creating a uniform group gives the same result whether or not a pass is open |
| Binding.GroupWriteLock | gavle/src/binding.rs:16-23 | a uniform group can never be write-locked or write-released: both calls panic |
| Binding.GroupAcquireRead | gavle/src/binding.rs:24-33 | read-locking a group read-locks each member's resource, in order |
| Binding.GroupReleaseRead | gavle/src/binding.rs:34-43 | read-releasing a group read-releases each member's resource, in order |
| Binding.FanOutAt | gavle/src/binding.rs:24-43 | lock call `i` goes to the resource of entry `i` |
| Binding.FanOutCounts | gavle/src/binding.rs:24-43 | a resource listed `k` times is acquired `k` times and released `k` times |
| Binding.NextTexture | gavle/src/binding.rs:84-89 | hands out the current texture unit and advances it by one; passes exactly while the counter fits in `u32` |
| Binding.NextUbo | gavle/src/binding.rs:93-98 | hands out the current uniform-block binding and advances it by one; passes exactly while the counter fits in `u32` |
| Binding.TextureRunCounts | gavle/src/binding.rs:75-89 | `n` texture allocations from a fresh counter hand out `0 .. n` in order |
| Binding.BindEntry | gavle/src/binding.rs:122-186 | an inactive entry is skipped; an active faulty entry panics; an active entry binds its own resource at the next slot of its kind, aimed at the program's block index or uniform location for the entry's name |
| Binding.Bind | gavle/src/binding.rs:50-63 | on success the calls match the active entries one to one, in order, each at the program's block index or uniform location for its name, with slots dense from 0 for each kind; a group without faulty entries always binds |
| Binding.DenseAppend | gavle/src/binding.rs:122-186 | appending a call at the next free slot of its kind keeps slots dense |
| Entity.Kill | projects/one/src/entity.rs:144-147 | killing clears the flag and keeps the payload |
| Entity.Revive | projects/one/src/entity.rs:149-152 | reviving sets the flag and keeps the payload |
| Entity.KillReviveRoundTrip | projects/one/src/entity.rs:144-156 | kill and revive only move the flag; `alive` reports it; each undoes the other |
| Entity.NewEntities | projects/one/src/entity.rs:10 | a new entity system has no classes and no entities |
| Entity.Register | projects/one/src/entity.rs:20-32 | registering appends one empty class with the given procedure, returns its index, and leaves the others alone |
| Entity.SpawnEntities | projects/one/src/entity.rs:41-61 | appends to one class only, leaving the other classes alone; panics on an unknown class or a `usize` overflow |
| Entity.Spawn | projects/one/src/entity.rs:41-49 | appends `particles` live copies of the value to the class and grows the total by that much |
| Entity.SpawnWith | projects/one/src/entity.rs:53-61 | appends `particles` live entities made by the generator, in call order |
| Entity.Classes | projects/one/src/entity.rs:64-68 | one class handle per registered class, numbered in order |
| Entity.ClassesAreSpawnable | projects/one/src/entity.rs:41-68 | every handle `classes` yields can be spawned into |
| Entity.Payloads | projects/one/src/entity.rs:115-120 | `entities` yields one payload per entity of every class |
| Entity.PayloadsAt | projects/one/src/entity.rs:115-120 | `entities` yields entity `k` of class `c` right after all entities of the earlier classes and the first `k` of its own, so `len` counts and places every payload |
| Entity.LenUpdate | projects/one/src/entity.rs:71-75 | replacing one class changes `len` by that class's change in size alone |
| Entity.Survivors | projects/one/src/entity.rs:78-112 | the survivors of a class are all alive |
| Entity.ScanDownAsWrittenHangs | projects/one/src/entity.rs:89-101 | on a class whose entities are all dead, the backward scan as written never stops |
| Entity.OneDeadEntityHangs | projects/one/src/entity.rs:89-101 | one dead entity is enough to make the cleanup loop as written spin forever |
| Entity.ScanDown | projects/one/src/entity.rs:97-101 | the corrected backward scan stops at the last live entity at or below `j`, or at 0 |
| Entity.ScanDownAgrees | projects/one/src/entity.rs:97-101 | whenever a live entity lies below, the scan as written and the corrected one stop at the same place |
| Entity.Compact | projects/one/src/entity.rs:88-110 | cleanup keeps exactly the live entities, as a multiset |
| Entity.AliveSurvive | projects/one/src/entity.rs:88-110 | a class with no dead entity is untouched by cleanup |
| Entity.SurvivorCount | projects/one/src/entity.rs:88-110 | a live entity survives as often as it occurs, a dead one never |
| Entity.SurvivorsOfPermutation | projects/one/src/entity.rs:88-110 | reordering a class does not change which entities survive |
| Entity.Simulate | projects/one/src/entity.rs:78-112 | with the corrected cleanup (see Findings), every class keeps its procedure and afterwards holds exactly the live entities its procedure left, as a multiset |
| Outcomes.F32LessStrict | projects/one/src/scene.rs:74 | the `f32` comparison that culls flakes is irreflexive and asymmetric, and false on NaN |
| Scene.StepFlake | projects/one/src/scene.rs:69-85 | a flake below the view is killed and left in place; any other flake drifts and stays alive as it was |
| Scene.FlakeProcedure | projects/one/src/scene.rs:69-85 | the class procedure steps every flake independently |
| Scene.FlakeProcedureCulls | projects/one/src/scene.rs:69-85 | after a step the live flakes are exactly those that were alive and on screen |
| Scene.NewFlakeSurvives | projects/one/src/scene.rs:50-53 | a flake born at the top of the view is not culled in its first step |
| Scene.NewFlake | projects/one/src/scene.rs:50-53 | a new flake is born at height 1.2, motionless |
| Scene.NewSnowflakes | projects/one/src/scene.rs:87-92 | the snow starts with one registered class, no flakes and a zero timer |
| Scene.RowsDue | projects/one/src/scene.rs:42-57 | the number of rows due is the number of whole periods the timer can lose while staying above one period |
| Scene.Rows | projects/one/src/scene.rs:45-54 | `k` rows hold `24k` live flakes, each row restarting at the first abscissa |
| Scene.SpawnRows | projects/one/src/scene.rs:42-57 | the spawn loop adds one row per period due to the snow class only, leaves under one period on the timer, and panics exactly as `spawn_with` does |
| Scene.Update | projects/one/src/scene.rs:39-58 | the flakes are stepped and culled, then the timer advances and the due rows are appended after the survivors; every other class is left as stepped, and with no row due nothing changes |
| Scene.RowGenerator | projects/one/src/scene.rs:48-53 | call `i` of the row generator makes the flake at the `i`-th abscissa |
| SupportVertex.NewUncheckedWithColor | support/src/support/vertex.rs:192-238 | each accessor returns the argument given for its field |
| SupportVertex.NewUnchecked | support/src/support/vertex.rs:131-146 | each accessor returns its argument, and the color is black |
| SupportVertex.Bytes | support/src/support/vertex.rs:8-21 | a vertex is 68 bytes in memory |
| SupportVertex.LayoutPacked | support/src/support/vertex.rs:24-64 | the layout is packed and its stride is the vertex size |
| SupportVertex.LayoutMatchesFields | support/src/support/vertex.rs:8-64 | attribute `k` spans exactly the bytes of field `k` |
| Mesh.Rank | support/src/support/mesh.rs:19-24 | a float's rank in the total order of `OrderedFloat` fits in one digit |
| Mesh.RankOrder | support/src/support/mesh.rs:19-24 | on two numbers, a lower rank means exactly a smaller `f32`, and equal ranks mean neither is smaller |
| Mesh.RankNaN | support/src/support/mesh.rs:19-24 | a float takes the top rank exactly when it is a NaN, so all NaNs are equal and above every number, as `OrderedFloat` orders them |
| Mesh.RankZeros | support/src/support/mesh.rs:19-24 | `-0.0` and `0.0` rank equally |
| Mesh.Digits | support/src/support/mesh.rs:20-44 | a vertex key is the nine ranks of its position, normal and texture components |
| Mesh.EncodeOrder | support/src/support/mesh.rs:20-44 | encoding digit strings as numbers preserves their lexicographic order and their equality |
| Mesh.KeyOrder | support/src/support/mesh.rs:20-44 | vertex keys compare as the derived `Ord` of the key struct does, and are equal exactly for equal components |
| Mesh.Insert | support/src/support/mesh.rs:152-161 | a map entry insertion keeps the keys sorted and distinct, adds the key, and leaves the map alone when the key is present |
| Mesh.BinarySearch | support/src/support/mesh.rs:179-184 | finds the position of a key when the table holds it, and reports absence exactly otherwise |
| Mesh.IndexOf | support/src/support/mesh.rs:179-184 | a key the table holds sits at exactly one position |
| Mesh.Rejection | support/src/support/mesh.rs:73-139 | an out-of-range corner panics; a null normal and a degenerate triangle give their errors, the latter naming the face's three corners |
| Mesh.CollectFaces | support/src/support/mesh.rs:65-162 | the face loop either accepts every face and collects every corner into a sorted table, or stops at the first rejected face with its error |
| Mesh.InsertTriangle | support/src/support/mesh.rs:152-161 | inserting a face's three corners extends the collected table by that face |
| Mesh.Record | support/src/support/mesh.rs:152-161 | inserting the vertex index entry `n` names keeps the table sorted and makes it hold exactly the corners of the first `n + 1` entries |
| Mesh.FirstRejected | support/src/support/mesh.rs:65-139 | the faces before the returned one are all accepted and the returned one, if any, is rejected |
| Mesh.CollectCorners | support/src/support/mesh.rs:65-162 | the table collects the corners of every face up to the first one naming a missing vertex |
| Mesh.IndexCorners | support/src/support/mesh.rs:173-192 | every corner becomes the table position of its key, or the conversion to `u32` fails, exactly when some position is too large |
| Mesh.BuildVertices | support/src/support/mesh.rs:195-281 | one vertex per table entry, with the entry's position and texture and the computed frame; panics exactly when some frame has a zero-length vector |
| Mesh.FromObj | support/src/support/mesh.rs:15-192 | on success the indices name, corner by corner, the table entry of each face's corner; every face was accepted; otherwise the first rejected face's error is returned; when every face is accepted the only possible error is a table past `u32`, and with a table that fits and a frame for every key the mesh is built |
| Render.ClippedCount | projects/one/src/render.rs:365-389 | the capacity is the requested one, cut down to as many items as fit in one uniform block |
| Render.WithCapacity | projects/one/src/render.rs:365-389 | a vector exists exactly for a non-empty item type and a created buffer; it is empty and its capacity fits the block |
| Render.WriteItems | projects/one/src/render.rs:403-431 | the first `k` items are written from the generator and the rest of the buffer is kept; passes exactly when the generator has `k` items |
| Render.ItemsAt | projects/one/src/render.rs:403-431 | item `i` of the written buffer is the generator's item `i` |
| Render.ResizeWith | projects/one/src/render.rs:403-431 | the length becomes the requested one capped at capacity; those items are rewritten and the rest is kept |
| Render.WithItems | projects/one/src/render.rs:391-400 | a full vector holds the generator's items up to capacity, and all requested items when they fit |
| Render.InstanceBytes | projects/one/src/render.rs:210-219 | an instance is position, padding, scaling and padding, in 32 bytes |
| Render.MountainGenerator | projects/one/src/render.rs:298-316 | the five mountains are unscaled instances at their fixed positions |
| Render.GroupOffendsOnlyByCount | gavle/src/lib.rs:204-235 | for three small uniform buffers, the only possible offence is the count of block bindings |
| Render.NewUniforms | projects/one/src/render.rs:292-351 | the uniforms exist exactly when their buffers are created and three block bindings are allowed; mountains are pre-filled, snowflakes empty, and the group binds the three blocks by name |
| Render.FlakeInstance | projects/one/src/render.rs:20-45 | a snowflake instance is one 32-byte instance |
| Render.UpdateUniforms | projects/one/src/render.rs:20-45 | the snowflake block holds one instance per flake, in order, up to capacity, with the length truncated to `u32`; the mountains stay |
| Render.Draw | projects/one/src/render.rs:47-71 | draws snowflakes then mountains, over each model's full index list, as many instances as the blocks hold; panics while locked |
| Render.DrawsStayInBounds | projects/one/src/render.rs:81-151 | both draws cover exactly their index lists, and every index names a vertex of its model |
| Render.UploadBuffer | projects/one/src/render.rs:449-500 | an upload succeeds exactly when its byte size fits in `u32` and GL creates the buffer |
| Render.UploadGeometry | projects/one/src/render.rs:449-500 | the vertex and index buffers hold exactly the vertices' and indices' bytes |
| Render.UploadNeverMismatches | projects/one/src/render.rs:449-500 | the declared sizes always match the data, so the length panic of buffer creation cannot fire |
| Fans.Fan | exercises/two/d/src/main.rs:201-207 | a fan over `n` vertices is `n - 2` triangles `(base, base+k+1, base+k+2)`, all within the fan's vertices |
| ExerciseOne.Tick | exercises/one/src/main.rs:57-63 | the clock loses whole seconds until it is at most one second, and the topology advances once per second lost, modulo the number of topologies |
| ExerciseOne.ExampleLayoutMatches | exercises/one/src/main.rs:191-225 | the example layout is packed, its stride is the vertex size, and each attribute spans its field's bytes |
| ExerciseOne.NewExamplePass | exercises/one/src/main.rs:105-159 | the pass exists exactly when every buffer, shader and per-topology pipeline is created; it has one pipeline per topology over the example layout, a 108-byte vertex buffer and an 8-byte index buffer |
| ExerciseOne.Dispatch | exercises/one/src/main.rs:162-187 | dispatching passes exactly for a known topology on an unlocked device; the pass runs the pipeline built for that topology with the pass's own index and vertex buffers, and draws one instance of indices `0 .. 5`, one past the four-index outline |
| ExerciseOne.MainLoopDispatches | exercises/one/src/main.rs:77-102 | the topology the main loop selects always has a pipeline |
| ExerciseTwoD.CircleIndices | exercises/two/d/src/main.rs:201-207 | the circle is 62 fan triangles `(0, k+1, k+2)`, all naming its 64 vertices |
| ExerciseTwoD.TriangleIndicesInRange | exercises/two/d/src/main.rs:223-228 | the triangle's four indices name its three vertices |
| ExerciseTwoD.CircleIndexData | exercises/two/d/src/main.rs:201-207 | the `u16` cast of the circle's indices keeps every value |
| ExerciseTwoD.NewVisitor | exercises/two/d/src/main.rs:208-315 | the stored index counts are the lengths of the two index lists |
| ExerciseTwoD.Visit | exercises/two/d/src/main.rs:324-404 | draws the circle then the triangle, each over its full index count; panics while locked |
| ExerciseTwoD.DrawsStayInBuffers | exercises/two/d/src/main.rs:388-402 | every index the two draws read names a vertex of its model |
| ExerciseTwoD.OnKey | exercises/two/d/src/main.rs:66-76 | a key event moves only its own axis, and other keys change nothing |
| ExerciseTwoD.RunStaysUnit | exercises/two/d/src/main.rs:30-76 | whatever the key events, each direction stays in {-1, 0, 1} |
| ExerciseTwoD.LastPress | exercises/two/d/src/main.rs:66-76 | the latest press of either key of an axis, or none |
| ExerciseTwoD.RunIsHeld | exercises/two/d/src/main.rs:30-76 | each direction is the key pressed last on its axis, or 0 once that key has been released |
| ExerciseTwoD.AxisStep | exercises/two/d/src/main.rs:66-76 | one event moves the held-key reading as the key match does |
| ExerciseTwoD.Normalise | exercises/two/d/src/main.rs:93-102 | the sign of a direction |
| ExerciseTwoD.NormaliseKeepsUnit | exercises/two/d/src/main.rs:93-102 | taking the sign never changes a direction the key handler produced |
| ExerciseThreeA.Wrap16 | exercises/three/a/src/main.rs:242-248 | an `as u16` cast keeps a value modulo 2^16 |
| ExerciseThreeA.QuadsHold | exercises/three/a/src/main.rs:241-256 | quad `q` contributes triangles `(4q, 4q+1, 4q+2)` and `(4q+1, 4q+2, 4q+3)` at positions `6q .. 6q+6` |
| ExerciseThreeA.QuadsInRange | exercises/three/a/src/main.rs:241-256 | while the vertices fit in `u16`, index `i` names a vertex of its own quad |
| ExerciseThreeA.QuadsAllInRange | exercises/three/a/src/main.rs:241-256 | while the vertices fit in `u16`, every index names a vertex |
| ExerciseThreeA.Sphere | exercises/three/a/src/main.rs:177-259 | panics exactly when `steps = 65535` makes the last `angle + 1` overflow `u16`; otherwise `(steps/2)(steps+1)` quads of four vertices each; the index count is the list length cast to `u32`; every index names a vertex when the count fits in `u16` |
| ExerciseThreeA.SphereAtSixtyFour | exercises/three/a/src/main.rs:177-259 | at 64 steps there are 2080 quads, 8320 vertices and 12480 indices, all in range |
| ExerciseThreeB.WeaveStep | exercises/three/b/src/main.rs:213-230 | rim step `t` adds one triangle up and one down, each touching both discs, with both rims wrapping around |
| ExerciseThreeB.WeaveHolds | exercises/three/b/src/main.rs:213-230 | step `t`'s triangles sit at positions `6t .. 6t+6` of the band |
| ExerciseThreeB.WeaveInRange | exercises/three/b/src/main.rs:213-230 | every band index names a vertex of the two discs |
| ExerciseThreeB.CylinderIndicesLayout | exercises/three/b/src/main.rs:182-230 | the index list is the bottom fan, the top fan, then the band, step by step, all within the two discs |
| ExerciseThreeB.CylinderPieces | exercises/three/b/src/main.rs:182-230 | the index list splits into the two fans and the band |
| ExerciseThreeB.CylinderInRange | exercises/three/b/src/main.rs:182-230 | every index names one of the `2 * steps` vertices |
| ExerciseThreeB.Cylinder | exercises/three/b/src/main.rs:177-232 | builds exactly when `2 * steps` fits in `u16`, with `2 * steps` vertices, the cylinder layout, and the index count equal to the list length |
| ExerciseThreeB.CylinderAtSixtyFour | exercises/three/b/src/main.rs:177-232 | at 64 steps the cylinder has 128 vertices and 756 indices |

## Left out

- Window, event loop, asset loading, shader sources and every draw-state call other than the draw itself (viewport, bind groups, buffer binding) are not modelled. GL calls the code depends on are parameters.
- `gavle/src/pass.rs`, `access.rs`, `buffer.rs`, `texture.rs`, `pipeline.rs` and buffer mapping are not part of this model. Only the lock flag a render pass takes and releases is kept.
- Floating-point arithmetic is a parameter:
  - flake drift;
  - the flakes' spawn abscissas;
  - the normal/tangent/bitangent frame of a mesh vertex, with its zero-length check;
  - the null-normal and degenerate-triangle tests;
  - circle, sphere and cylinder vertex positions;
  - uniform contents such as the camera matrices in `Globals`.
  Only float storage and the `f32` `<` that culls flakes are exact.
- Info.ParseProfile: a desktop version string must start with an ASCII digit `0`-`9`, where `is_numeric` (gavle/src/info.rs:293) also admits other Unicode numerals. Such a string fails the release parse in the source anyway, since `u32::from_str_radix` takes ASCII digits only, so `collect` reports the same `InvalidVersion`. Only `Profile::parse` on its own differs. The release parser's `is_ascii() && is_numeric()` is exactly ASCII `0`-`9`, and whitespace is the full Unicode White_Space set, as in `char::is_whitespace`.
- The mesh loader's `usize::try_from(u32)` cannot fail on the targets Ricardo builds for and is omitted.
- Keys: `OrderedFloat`'s total order is modelled by a concrete rank on the bit pattern, which `Mesh.RankOrder`, `Mesh.RankNaN` and `Mesh.RankZeros` tie to `f32`'s `<`. Vertices whose nine components rank equally are one key. `BTreeMap::entry` keeps the first representative, so the model keeps the first one too.
- Mesh.FromObj: the key function is `Key` over those ranks. `CollectFaces` and `IndexCorners` take any key function, to keep the proofs independent of it.
- Entity.Simulate: models the cleanup as evidently intended (`Entity.Compact`), not as written. The written loop never ends on a class whose entities are all dead (see Findings). It also runs the per-class procedures one after another. The source uses rayon, but the classes are disjoint, so the order does not matter.
- Scene durations are whole nanoseconds, and the `Duration` overflow of `spawn_timer += delta` (after 584 years) is not modelled.
- Entity.Len: the sum is unbounded, while the source's `usize` sum could overflow only past the memory a process can hold.
- Device.CreateUniformBindGroup requires a device whose limits came from probing (`Valid`), as every device built by `NewDevice` has. Its lock-independence is stated by `Device.GroupIgnoresLock`.
- Device.CreateRenderPipeline does not store the primitive topology, since nothing in the model reads it back.
- ExerciseOne.Dispatch: the source draws indices `0..5` from a four-index buffer. The draw range is recorded as written, and whether the driver tolerates it is not modelled; the viewport the pass sets is not tracked.
- ExerciseThreeA.Sphere: the vertex positions computed from `angle` and `(angle + 1) % steps` are left out (floating point); the `u16` overflow of `angle + 1` is modelled as the debug-build panic.
- ExerciseThreeB.Cylinder: an overflowing `u16` addition is modelled as the debug-build panic ("attempt to add with overflow"). A release build would wrap.
- ExerciseTwoD.OnKey: the two direction variables are `f32` in the source but only ever hold -1, 0 or 1, so they are integers here. The cursor and circle position updates are float arithmetic and are left out.
- ExerciseTwoD.OnAxis is the per-axis helper of `OnKey` and is specified through `AxisStep`.

## Findings

| source | as written | input that shows it | evidently intended | confidence | as-written member | corrected member |
|---|---|---|---|---|---|---|
| gavle/src/lib.rs:541-546 | the required initial-data length of a texture is a product of `u32`s, which overflows (a debug build panics, a release build wraps and accepts too little data) | a `D2(16384, 16384)` `Rgba32Float` texture, within common limits, needs exactly 2^32 bytes | compute the length in a width that cannot overflow and compare it with the data length | not executed | Device.AsWrittenOverflows | Device.CreateTexture |
| projects/one/src/entity.rs:89-101 | the cleanup loop scans down with `saturating_sub` while the entity under the cursor is dead, so at index 0 with a dead entity it stays there forever | a class holding one dead entity | stop the downward scan at 0 and truncate the class to its live prefix | not executed | Entity.OneDeadEntityHangs | Entity.Compact |

=== FILE: binding.dfy ===
/** Uniform bind groups: the read-lock fan-out over their entries, the slot
    allocator, and the assignment of uniform-block bindings and texture
    units when a group is bound to a linked program.

    The GL program is an oracle: which uniform blocks and texture uniforms
    are active in it, and where they live. */
module Binding {
  import opened Outcomes
  import opened Resources

  /** `OwnedUniformBind`: a group entry holds the resource itself, shared
      with the caller rather than copied. */
  datatype OwnedBind =
    | BufferBind(buffer: Buffer)
    | TextureBind(texture: Texture, far: TextureFilter, near: TextureFilter)

  /** `UniformGroup`: shader binding names paired with the bound resources. */
  datatype UniformGroup = UniformGroup(entries: seq<(string, OwnedBind)>)

  // ---------------------------------------------------------------------
  // AccessLock for UniformGroup
  // ---------------------------------------------------------------------

  /** A resource a lock call is made on. */
  datatype ResourceRef = BufferRef(buffer: Buffer) | TextureRef(texture: Texture)

  function Target(b: OwnedBind): ResourceRef {
    match b
    case BufferBind(buffer) => BufferRef(buffer)
    case TextureBind(texture, _, _) => TextureRef(texture)
  }

  /** One call into a member resource's own access lock. */
  datatype LockCall = AcquireRead(target: ResourceRef) | ReleaseRead(target: ResourceRef)

  /** `acquire_write` and `release_write`: uniforms are read-only, so
      either write-lock call panics, whatever the group holds. */
  function GroupWriteLock(g: UniformGroup, acquire: bool): (r: Checked<()>)
    ensures r.Abort?
  {
    Abort("tried to perform a write lock operation on a uniform buffer. uniforms are read-only objects")
  }

  /** The read-lock calls the group forwards to its entries, in entry
      order, one per entry. */
  function FanOut(entries: seq<(string, OwnedBind)>, acquire: bool): (calls: seq<LockCall>)
    ensures |calls| == |entries|
  {
    if |entries| == 0 then []
    else
      var target := Target(entries[0].1);
      [if acquire then AcquireRead(target) else ReleaseRead(target)] + FanOut(entries[1..], acquire)
  }

  /** `acquire_read`. */
  function GroupAcquireRead(g: UniformGroup): (calls: seq<LockCall>)
    ensures |calls| == |g.entries|
    ensures forall i :: 0 <= i < |calls| ==> calls[i] == AcquireRead(Target(g.entries[i].1))
  {
    FanOutAt(g.entries, true);
    FanOut(g.entries, true)
  }

  /** `release_read`. */
  function GroupReleaseRead(g: UniformGroup): (calls: seq<LockCall>)
    ensures |calls| == |g.entries|
    ensures forall i :: 0 <= i < |calls| ==> calls[i] == ReleaseRead(Target(g.entries[i].1))
  {
    FanOutAt(g.entries, false);
    FanOut(g.entries, false)
  }

  lemma {:induction false} FanOutAt(entries: seq<(string, OwnedBind)>, acquire: bool)
    ensures forall i :: 0 <= i < |entries| ==>
              FanOut(entries, acquire)[i]
              == (if acquire then AcquireRead(Target(entries[i].1)) else ReleaseRead(Target(entries[i].1)))
  {
    if |entries| > 0 {
      FanOutAt(entries[1..], acquire);
    }
  }

  /** Number of entries bound to the resource `t`. */
  function Uses(entries: seq<(string, OwnedBind)>, t: ResourceRef): nat {
    if |entries| == 0 then 0
    else (if Target(entries[0].1) == t then 1 else 0) + Uses(entries[1..], t)
  }

  /** A resource listed `k` times in the group is read-locked `k` times, and
      every acquisition is matched by a release of the same resource. */
  lemma {:induction false} FanOutCounts(entries: seq<(string, OwnedBind)>, t: ResourceRef)
    ensures multiset(FanOut(entries, true))[AcquireRead(t)] == Uses(entries, t)
    ensures multiset(FanOut(entries, false))[ReleaseRead(t)] == Uses(entries, t)
  {
    if |entries| > 0 {
      FanOutCounts(entries[1..], t);
      var target := Target(entries[0].1);
      assert FanOut(entries, true) == [AcquireRead(target)] + FanOut(entries[1..], true);
      assert FanOut(entries, false) == [ReleaseRead(target)] + FanOut(entries[1..], false);
    }
  }

  // ---------------------------------------------------------------------
  // Allocator
  // ---------------------------------------------------------------------

  /** The two bump counters; `Allocator::new` starts both at zero. */
  datatype Allocator = Allocator(texture: nat, ubo: nat)

  const FRESH: Allocator := Allocator(0, 0)

  /** `next_texture`: hands out the current texture counter and bumps it,
      panicking once the counter cannot grow within a `u32`. */
  function NextTexture(a: Allocator): (r: Checked<(nat, Allocator)>)
    requires IsU32(a.texture)
    ensures r.Pass? <==> a.texture + 1 < U32_LIMIT
    ensures r.Pass? ==> r.value.0 == a.texture && r.value.1 == Allocator(a.texture + 1, a.ubo)
  {
    if a.texture + 1 < U32_LIMIT then Pass((a.texture, a.(texture := a.texture + 1)))
    else Abort("tried to allocate more textures than there are 32 bit unsigned integer values")
  }

  /** `next_ubo_binding`: the same over the uniform-block counter. */
  function NextUbo(a: Allocator): (r: Checked<(nat, Allocator)>)
    requires IsU32(a.ubo)
    ensures r.Pass? <==> a.ubo + 1 < U32_LIMIT
    ensures r.Pass? ==> r.value.0 == a.ubo && r.value.1 == Allocator(a.texture, a.ubo + 1)
  {
    if a.ubo + 1 < U32_LIMIT then Pass((a.ubo, a.(ubo := a.ubo + 1)))
    else Abort("tried to allocate more textures than there are 32 bit unsigned integer values")
  }

  /** `n` texture allocations in a row from `a`. */
  function TextureRun(a: Allocator, n: nat): (r: Checked<(seq<nat>, Allocator)>)
    requires IsU32(a.texture)
    decreases n
  {
    if n == 0 then Pass(([], a))
    else
      var (slot, a1) :- NextTexture(a);
      var (rest, a2) :- TextureRun(a1, n - 1);
      Pass(([slot] + rest, a2))
  }

  /** From a fresh allocator, `n` texture allocations return 0, 1, …, n-1
      and leave the UBO counter untouched. */
  lemma {:induction false} TextureRunCounts(a: Allocator, n: nat)
    requires IsU32(a.texture) && a.texture + n < U32_LIMIT
    ensures TextureRun(a, n).Pass?
    ensures var (slots, a2) := TextureRun(a, n).value;
            && |slots| == n
            && (forall i :: 0 <= i < n ==> slots[i] == a.texture + i)
            && a2 == Allocator(a.texture + n, a.ubo)
    decreases n
  {
    if n > 0 {
      TextureRunCounts(Allocator(a.texture + 1, a.ubo), n - 1);
    }
  }

  // ---------------------------------------------------------------------
  // Binding a group to a program
  // ---------------------------------------------------------------------

  /** The linked program, as far as binding asks about it: the index of
      each active uniform block, the names of the active uniforms, and the
      location of each uniform. */
  datatype Program = Program(
    blockIndex: string -> Option<nat>,
    uniforms: set<string>,
    location: string -> Option<nat>)

  /** The GL state one bound entry sets up: a uniform block attached to a
      binding point and the buffer's range `[0, len)` bound there, or a
      texture unit holding the texture and the sampler uniform pointing at
      that unit. */
  datatype BindCall =
    | BlockBinding(blockIndex: nat, slot: nat, buffer: Buffer, rangeLen: nat)
    | TextureUnit(location: nat, slot: nat, texture: Texture, far: TextureFilter, near: TextureFilter)

  /** Whether the program uses the entry at all; inactive entries are
      skipped without allocating. */
  predicate Active(p: Program, name: string, b: OwnedBind) {
    match b
    case BufferBind(_) => p.blockIndex(name).Some?
    case TextureBind(_, _, _) => name in p.uniforms
  }

  /** An active entry the binding code rejects: a buffer whose length does
      not fit in an `i32`, or a texture uniform with no location. */
  predicate Faulty(p: Program, name: string, b: OwnedBind) {
    match b
    case BufferBind(buffer) => buffer.len > I32_MAX
    case TextureBind(_, _, _) => p.location(name).None?
  }

  /** `OwnedUniformBind::bind` for one entry. */
  function BindEntry(p: Program, name: string, b: OwnedBind, a: Allocator)
    : (r: Checked<(Option<BindCall>, Allocator)>)
    requires IsU32(a.texture) && IsU32(a.ubo)
    ensures !Active(p, name, b) ==> r == Pass((None, a))
    ensures r.Pass? && Active(p, name, b) ==> r.value.0.Some?
    ensures Active(p, name, b) && Faulty(p, name, b) ==> r.Abort?
    ensures r.Pass? && r.value.0.Some? ==>
              var c := r.value.0.value;
              && Matches(p, c, (name, b))
              && c.slot == (if IsBlock(c) then a.ubo else a.texture)
              && r.value.1 == (if IsBlock(c) then a.(ubo := a.ubo + 1) else a.(texture := a.texture + 1))
              && IsU32(r.value.1.ubo) && IsU32(r.value.1.texture)
  {
    match b
    case BufferBind(buffer) =>
      (match p.blockIndex(name)
       case None => Pass((None, a))
       case Some(index) =>
         var (slot, a1) :- NextUbo(a);
         if buffer.len > I32_MAX then Abort("buffer is too big for shader use")
         else Pass((Some(BlockBinding(index, slot, buffer, buffer.len)), a1)))
    case TextureBind(texture, far, near) =>
      if name !in p.uniforms then Pass((None, a))
      else match p.location(name)
        case None => Abort("expected a uniform, found none")
        case Some(location) =>
          var (slot, a1) :- NextTexture(a);
          if slot > I32_MAX then Abort("texture slot does not fit in an i32")
          else Pass((Some(TextureUnit(location, slot, texture, far, near)), a1))
  }

  /** The active entries, in order. */
  function ActiveEntries(p: Program, entries: seq<(string, OwnedBind)>): (r: seq<(string, OwnedBind)>)
    ensures |r| <= |entries|
  {
    if |entries| == 0 then []
    else
      var rest := ActiveEntries(p, entries[..|entries| - 1]);
      var e := Last(entries);
      if Active(p, e.0, e.1) then rest + [e] else rest
  }

  predicate IsBlock(c: BindCall) {
    c.BlockBinding?
  }

  /** Number of uniform-block bindings among `calls`. */
  function Blocks(calls: seq<BindCall>): (n: nat)
    ensures n <= |calls|
  {
    if |calls| == 0 then 0 else Blocks(calls[..|calls| - 1]) + (if IsBlock(Last(calls)) then 1 else 0)
  }

  /** Slots are handed out densely: each uniform block gets the number of
      blocks bound before it, each texture the number of textures bound
      before it. */
  predicate Dense(calls: seq<BindCall>) {
    forall j :: 0 <= j < |calls| ==>
      calls[j].slot == (if IsBlock(calls[j]) then Blocks(calls[..j]) else j - Blocks(calls[..j]))
  }

  /** The call made for an active entry matches the entry: same kind, same
      resource, and aimed at the program's own block index or uniform
      location for the entry's name. */
  predicate Matches(p: Program, c: BindCall, e: (string, OwnedBind)) {
    match e.1
    case BufferBind(buffer) =>
      && c.BlockBinding? && c.buffer == buffer && c.rangeLen == buffer.len
      && p.blockIndex(e.0) == Some(c.blockIndex)
    case TextureBind(texture, far, near) =>
      && c.TextureUnit? && c.texture == texture && c.far == far && c.near == near
      && p.location(e.0) == Some(c.location)
  }

  /** `UniformGroup::bind`: a fresh allocator, then every entry in order.
      On success the calls correspond one to one, in order, to the active
      entries, and slots start at 0 for both kinds and have no gaps. A
      faulty active entry makes the whole bind panic. */
  method Bind(g: UniformGroup, p: Program) returns (r: Checked<seq<BindCall>>)
    ensures r.Pass? ==> |r.value| == |ActiveEntries(p, g.entries)|
    ensures r.Pass? ==> forall j :: 0 <= j < |r.value| ==> Matches(p, r.value[j], ActiveEntries(p, g.entries)[j])
    ensures r.Pass? ==> Dense(r.value)
    ensures r.Pass? ==> forall i :: 0 <= i < |g.entries| && Active(p, g.entries[i].0, g.entries[i].1)
                          ==> !Faulty(p, g.entries[i].0, g.entries[i].1)
    ensures |g.entries| <= I32_MAX
            && (forall i :: 0 <= i < |g.entries| && Active(p, g.entries[i].0, g.entries[i].1)
                  ==> !Faulty(p, g.entries[i].0, g.entries[i].1))
            ==> r.Pass?
  {
    var a := FRESH;
    var calls: seq<BindCall> := [];
    var i := 0;
    while i < |g.entries|
      invariant 0 <= i <= |g.entries|
      invariant |calls| == |ActiveEntries(p, g.entries[..i])|
      invariant forall j :: 0 <= j < |calls| ==> Matches(p, calls[j], ActiveEntries(p, g.entries[..i])[j])
      invariant Dense(calls)
      invariant a.ubo == Blocks(calls) && a.texture == |calls| - Blocks(calls)
      invariant IsU32(a.ubo) && IsU32(a.texture)
      invariant forall k :: 0 <= k < i && Active(p, g.entries[k].0, g.entries[k].1)
                  ==> !Faulty(p, g.entries[k].0, g.entries[k].1)
    {
      var (name, b) := g.entries[i];
      assert g.entries[..i + 1][..i] == g.entries[..i];
      assert Last(g.entries[..i + 1]) == g.entries[i];
      var step := BindEntry(p, name, b, a);
      if step.Abort? {
        return Abort(step.reason);
      }
      var (call, a1) := step.value;
      if call.Some? {
        assert Active(p, name, b);
        assert ActiveEntries(p, g.entries[..i + 1]) == ActiveEntries(p, g.entries[..i]) + [(name, b)];
        DenseAppend(calls, call.value);
        calls := calls + [call.value];
      }
      a := a1;
      i := i + 1;
    }
    assert g.entries[..i] == g.entries;
    return Pass(calls);
  }

  lemma DenseAppend(calls: seq<BindCall>, c: BindCall)
    requires Dense(calls)
    requires c.slot == (if IsBlock(c) then Blocks(calls) else |calls| - Blocks(calls))
    ensures Dense(calls + [c])
  {
    var s := calls + [c];
    assert s[..|calls|] == calls;
    forall j | 0 <= j < |calls|
      ensures s[..j] == calls[..j]
    {
    }
  }
}

=== FILE: device.dfy ===
/** The device: creation of buffers, uniform bind groups, textures,
    framebuffers, shaders and render pipelines, with the validation each
    performs against the context's limits, and the device-wide pipeline
    lock that render passes hold for their whole lifetime.

    Every GL call is an oracle parameter: whether `glCreate*` returns a
    name, whether compilation and linking succeed, what the framebuffer
    completeness check says. */
module Device {
  import opened Outcomes
  import opened Info
  import opened Resources
  import opened Binding

  /** The device: what the prober collected, and whether the exclusive
      pipeline lock is currently held by a render pass. */
  datatype Device = Device(information: Information, locked: bool)

  /** The limits of a device built from a context always came out of
      `i32` queries. */
  predicate Valid(dev: Device) {
    FromI32(dev.information.limits)
  }

  function LimitsOf(dev: Device): Limits {
    dev.information.limits
  }

  /** `Device::new_from_context`: probe the context, start unlocked. */
  function NewDevice(ctx: Context): (r: Outcome<Device, UnsupportedContext>)
    ensures r.Ok? <==> Collect(ctx).Ok?
    ensures r.Ok? ==> Valid(r.value) && !r.value.locked && r.value.information == Collect(ctx).value
    ensures !r.Ok? ==> r == Collect(ctx).PropagateFailure()
  {
    var information :- Collect(ctx);
    Ok(Device(information, false))
  }

  // ---------------------------------------------------------------------
  // Buffers
  // ---------------------------------------------------------------------

  datatype BufferError = CreationFailed(what: string)

  /** `create_*_buffer_with_data`: the data's length must fit in a `u32`
      and equal the descriptor's size; the buffer records that size. */
  function CreateBufferWithData(dev: Device, desc: BufferDescriptor, data: seq<bv8>, gl: GlCreation)
    : (r: Outcome<Buffer, BufferError>)
    requires IsU32(desc.size)
    ensures r.Panic? <==> |data| != desc.size
    ensures r.Err? <==> |data| == desc.size && gl.Failed?
    ensures r.Ok? ==> r.value.len == desc.size == |data| && r.value.name == gl.name
  {
    if |data| >= U32_LIMIT then
      Panic("the length of the initialization buffer does not fit in a u32 value")
    else if |data| != desc.size then
      Panic("the desired length of the buffer and the size of the initialization buffer must be the same")
    else match gl
      case Failed(what) => Err(CreationFailed(what))
      case Created(name) => Ok(Buffer(name, |data|))
  }

  function Zeros(n: nat): (z: seq<bv8>)
    ensures |z| == n && forall i :: 0 <= i < n ==> z[i] == 0
  {
    seq(n, _ => 0)
  }

  /** `create_*_buffer`: a zero-filled buffer of exactly the descriptor's
      size, which therefore never trips the length check. */
  function CreateBuffer(dev: Device, desc: BufferDescriptor, gl: GlCreation): (r: Outcome<Buffer, BufferError>)
    requires IsU32(desc.size)
    ensures !r.Panic?
    ensures r.Ok? <==> gl.Created?
    ensures r.Ok? ==> r.value == Buffer(gl.name, desc.size)
  {
    CreateBufferWithData(dev, desc, Zeros(desc.size), gl)
  }

  // ---------------------------------------------------------------------
  // Uniform bind groups
  // ---------------------------------------------------------------------

  /** `UniformGroupEntry`: the binding name and the resource to bind. The
      descriptor borrows the resource; the group built from it holds the
      same resource. */
  datatype UniformGroupEntry = UniformGroupEntry(binding: string, kind: OwnedBind)

  function CountBuffers(entries: seq<UniformGroupEntry>): (n: nat)
    ensures n <= |entries|
  {
    if |entries| == 0 then 0
    else CountBuffers(entries[..|entries| - 1]) + (if Last(entries).kind.BufferBind? then 1 else 0)
  }

  function CountTextures(entries: seq<UniformGroupEntry>): (n: nat)
    ensures n <= |entries|
  {
    if |entries| == 0 then 0
    else CountTextures(entries[..|entries| - 1]) + (if Last(entries).kind.TextureBind? then 1 else 0)
  }

  /** Entry `i` is where group creation gives up: it is a buffer larger
      than one uniform block may be, or counting it takes the buffers or
      the textures seen so far past their limit. */
  predicate Offends(limits: Limits, entries: seq<UniformGroupEntry>, i: nat)
    requires i < |entries|
  {
    var upTo := entries[..i + 1];
    || (entries[i].kind.BufferBind? && entries[i].kind.buffer.len > limits.maxUniformBlockSize)
    || CountBuffers(upTo) > limits.maxUniformBlockBindings
    || CountTextures(upTo) > limits.maxTextures
  }

  /** `create_uniform_bind_group`: entries are checked one at a time and
      panic at the first offending one, before it is added. On success the
      group lists the descriptor's entries, in order, with their names and
      the very same resources. The lock is not taken. `added` is the
      number of entries accepted before returning. */
  method CreateUniformBindGroup(dev: Device, entries: seq<UniformGroupEntry>)
    returns (r: Checked<UniformGroup>, added: nat)
    requires Valid(dev)
    ensures r.Pass? <==> forall i :: 0 <= i < |entries| ==> !Offends(LimitsOf(dev), entries, i)
    ensures r.Abort? ==> added < |entries| && Offends(LimitsOf(dev), entries, added)
                         && forall j :: 0 <= j < added ==> !Offends(LimitsOf(dev), entries, j)
    ensures r.Pass? ==> added == |entries| == |r.value.entries|
    ensures r.Pass? ==> forall i :: 0 <= i < |entries| ==>
                          r.value.entries[i] == (entries[i].binding, entries[i].kind)
  {
    var limits := LimitsOf(dev);
    var buffers: nat := 0;
    var textures: nat := 0;
    var group: seq<(string, OwnedBind)> := [];
    var i := 0;
    while i < |entries|
      invariant 0 <= i <= |entries| && |group| == i
      invariant buffers == CountBuffers(entries[..i]) && textures == CountTextures(entries[..i])
      invariant buffers <= limits.maxUniformBlockBindings && textures <= limits.maxTextures
      invariant forall j :: 0 <= j < i ==> !Offends(limits, entries, j)
      invariant forall j :: 0 <= j < i ==> group[j] == (entries[j].binding, entries[j].kind)
    {
      var entry := entries[i];
      assert entries[..i + 1][..i] == entries[..i];
      assert Last(entries[..i + 1]) == entry;
      // Neither counter can leave the `u32` range: each stays within an
      // `i32` limit until the increment that fails the check below.
      assert buffers + 1 < U32_LIMIT && textures + 1 < U32_LIMIT;
      match entry.kind {
        case TextureBind(_, _, _) =>
          textures := textures + 1;
        case BufferBind(buffer) =>
          buffers := buffers + 1;
          if buffer.len > limits.maxUniformBlockSize {
            assert Offends(limits, entries, i);
            return Abort("tried to use a uniform buffer larger than the maximum size allowed"), i;
          }
      }
      assert buffers == CountBuffers(entries[..i + 1]) && textures == CountTextures(entries[..i + 1]);
      if buffers > limits.maxUniformBlockBindings {
        assert Offends(limits, entries, i);
        return Abort("tried to use more uniform buffer bindings than is allowed"), i;
      }
      if textures > limits.maxTextures {
        assert Offends(limits, entries, i);
        return Abort("tried to use more texture bindings than is allowed"), i;
      }
      group := group + [(entry.binding, entry.kind)];
      i := i + 1;
    }
    return Pass(UniformGroup(group)), i;
  }

  // ---------------------------------------------------------------------
  // Textures
  // ---------------------------------------------------------------------

  datatype TextureError = TextureCreationError(what: string) | InvalidBounds(what: string)

  /** The largest width, height and depth the implementation allows for a
      texture of this shape. */
  function MaxAxes(limits: Limits, e: TextureExtent): (nat, nat, nat) {
    match e
    case D1(_) => (limits.maxTextureSize, 1, 1)
    case D2(_, _) => (limits.maxTextureSize, limits.maxTextureSize, 1)
    case D2Array(_, _, _) => (limits.maxTextureSize, limits.maxTextureSize, limits.maxTextureLayers)
    case D3(_, _, _) => (limits.maxTextureSize3d, limits.maxTextureSize3d, limits.maxTextureSize3d)
  }

  predicate WithinLimits(limits: Limits, e: TextureExtent) {
    var (w, h, d) := Axes(e);
    var (mw, mh, md) := MaxAxes(limits, e);
    w <= mw && h <= mh && d <= md
  }

  /** Every axis of the descriptor is a `u32`. */
  predicate ExtentIsU32(e: TextureExtent) {
    var (w, h, d) := Axes(e);
    IsU32(w) && IsU32(h) && IsU32(d)
  }

  /** Every axis fits the `i32` the GL upload call takes. */
  predicate ExtentIsI32(e: TextureExtent) {
    var (w, h, d) := Axes(e);
    w <= I32_MAX && h <= I32_MAX && d <= I32_MAX
  }

  /** The bytes one pixel of initial data takes: four 32-bit floats for
      `Rgba32Float`, four bytes for `Rgba8Unorm`, and one 32-bit word
      (24 bits of depth, 8 of stencil) for `Depth24Stencil8`. */
  function BytesPerPixel(f: TextureFormat): (n: nat)
    ensures f.Rgba32Float? <==> n == 16
    ensures f.Rgba8Unorm? || f.Depth24Stencil8? <==> n == 4
  {
    match f
    case Rgba32Float => 4 * 4
    case Rgba8Unorm => 4 * 1
    case Depth24Stencil8 => 1 * 4
  }

  function MipLevels(m: Mipmap): nat {
    match m
    case Manual(levels) => levels
    case _ => 1
  }

  /** The least number of initialization bytes a texture needs: one pixel
      per texel of every page of every mip level. */
  function RequiredDataLength(desc: TextureDescriptor): nat {
    var (columns, rows, pages) := Axes(desc.extent);
    BytesPerPixel(desc.format) * columns * rows * MipLevels(desc.mip) * pages
  }

  /** `u32` multiplication as a debug build performs it: an overflow panics. */
  function MulU32(a: nat, b: nat): (r: Checked<nat>)
    ensures r.Pass? <==> a * b < U32_LIMIT
    ensures r.Pass? ==> r.value == a * b
  {
    if a * b < U32_LIMIT then Pass(a * b) else Abort("attempt to multiply with overflow")
  }

  /** The required length as the source computes it: a chain of `u32`
      products, row, page, bundle, then total. */
  function RequiredDataLengthAsWritten(desc: TextureDescriptor): (r: Checked<nat>)
    ensures r.Pass? ==> r.value == RequiredDataLength(desc)
  {
    var (columns, rows, pages) := Axes(desc.extent);
    var perRow :- MulU32(BytesPerPixel(desc.format), columns);
    var perPage :- MulU32(perRow, rows);
    var perBundle :- MulU32(perPage, MipLevels(desc.mip));
    MulU32(perBundle, pages)
  }

  /** The as-written computation agrees whenever the length fits in 32
      bits ... */
  lemma AsWrittenAgreesBelow4GiB(desc: TextureDescriptor)
    requires RequiredDataLength(desc) < U32_LIMIT
    requires Axes(desc.extent).0 > 0 && Axes(desc.extent).1 > 0
    requires Axes(desc.extent).2 > 0 && MipLevels(desc.mip) > 0
    ensures RequiredDataLengthAsWritten(desc) == Pass(RequiredDataLength(desc))
  {
    var (c, r, p) := Axes(desc.extent);
    var b := BytesPerPixel(desc.format);
    var m := MipLevels(desc.mip);
    MulGrows(b * c * r * m, p);
    MulGrows(b * c * r, m);
    MulGrows(b * c, r);
    MulGrows(b, c);
  }

  lemma MulGrows(a: nat, b: nat)
    requires b > 0
    ensures a <= a * b
  {
  }

  /** ... but a 16384 x 16384 RGBA32F texture, within the usual 16384
      texel limit, needs exactly 4 GiB of data, and the `u32` product
      overflows on the way. */
  lemma AsWrittenOverflows()
    ensures var desc := TextureDescriptor(D2(16384, 16384), Rgba32Float, NoMipmaps);
            && RequiredDataLength(desc) == U32_LIMIT
            && RequiredDataLengthAsWritten(desc).Abort?
  {
  }

  /** `create_texture_generic` (and so `create_texture` with no data and
      `create_texture_with_data`): take the lock, refuse mipmaps, create the
      GL texture, check every axis against the limits, check that the data
      is long enough, then check that the axes fit an `i32`. */
  function CreateTexture(dev: Device, desc: TextureDescriptor, data: Option<seq<bv8>>, gl: GlCreation)
    : (r: Outcome<Texture, TextureError>)
    requires ExtentIsU32(desc.extent)
    ensures dev.locked ==> r.Panic?
    ensures desc.mip != NoMipmaps ==> r.Panic?
    ensures r.Err? && r.error.TextureCreationError? <==>
              !dev.locked && desc.mip == NoMipmaps && gl.Failed?
    ensures r.Ok? ==> r.value == Texture(gl.name, desc.format, desc.extent)
    ensures r.Ok? ==> WithinLimits(LimitsOf(dev), desc.extent)
    ensures r.Ok? && data.Some? ==> |data.value| >= RequiredDataLength(desc)
    ensures gl.Created? && !WithinLimits(LimitsOf(dev), desc.extent) ==> r.Panic?
    ensures gl.Created? && data.Some? && |data.value| < RequiredDataLength(desc) ==> r.Panic?
    ensures (&& !dev.locked && desc.mip == NoMipmaps && gl.Created?
             && WithinLimits(LimitsOf(dev), desc.extent)
             && (data.Some? ==> |data.value| >= RequiredDataLength(desc))
             && ExtentIsI32(desc.extent))
            ==> r.Ok?
  {
    if dev.locked then Panic("already borrowed")
    else if desc.mip != NoMipmaps then Panic("mipmaps are not supported")
    else match gl
      case Failed(what) => Err(TextureCreationError(what))
      case Created(name) =>
        var (w, h, d) := Axes(desc.extent);
        var (mw, mh, md) := MaxAxes(LimitsOf(dev), desc.extent);
        if w > mw then Panic("texture width greater than the maximum")
        else if h > mh then Panic("texture height greater than the maximum")
        else if d > md then Panic("texture depth greater than the maximum")
        else if data.Some? && |data.value| < RequiredDataLength(desc) then
          Panic("initialization buffer shorter than the texture")
        else if !ExtentIsI32(desc.extent) then
          Err(InvalidBounds("the bounds must have fit in an i32"))
        else Ok(Texture(name, desc.format, desc.extent))
  }

  /** `InvalidBounds` cannot be returned: the limits are `i32` values, so
      an extent that passed the limit checks already fits an `i32`. */
  lemma InvalidBoundsUnreachable(dev: Device, desc: TextureDescriptor, data: Option<seq<bv8>>, gl: GlCreation)
    requires Valid(dev)
    requires ExtentIsU32(desc.extent)
    ensures !(CreateTexture(dev, desc, data, gl).Err? && CreateTexture(dev, desc, data, gl).error.InvalidBounds?)
  {
    if WithinLimits(LimitsOf(dev), desc.extent) {
      assert ExtentIsI32(desc.extent);
    }
  }

  // ---------------------------------------------------------------------
  // Framebuffers
  // ---------------------------------------------------------------------

  datatype ColorAttachment = ColorAttachment(attachment: Texture, loadOp: LoadOp<Color>)

  datatype DepthStencilAttachment = DepthStencilAttachment(
    attachment: Texture, depthLoadOp: LoadOp<F32>, stencilLoadOp: LoadOp<nat>)

  datatype FramebufferDescriptor = FramebufferDescriptor(
    colorAttachments: seq<ColorAttachment>, depthStencilAttachment: Option<DepthStencilAttachment>)

  datatype DefaultFramebufferDescriptor = DefaultFramebufferDescriptor(
    colorLoadOp: LoadOp<Color>, depthLoadOp: LoadOp<F32>, stencilLoadOp: LoadOp<nat>)

  /** The screen's framebuffer, owned by GL, or an off-screen one. */
  datatype Framebuffer =
    | DefaultFramebuffer(colorLoadOp: LoadOp<Color>, depthLoadOp: LoadOp<F32>, stencilLoadOp: LoadOp<nat>)
    | CustomFramebuffer(name: nat, colorLoadOp: LoadOp<Color>, depthLoadOp: LoadOp<F32>, stencilLoadOp: LoadOp<nat>)

  datatype FramebufferError = FramebufferCreationError(what: string)

  /** `default_framebuffer`: no GL call, no lock, the descriptor's load
      operations verbatim. */
  function DefaultFramebufferOf(desc: DefaultFramebufferDescriptor): (fb: Framebuffer)
    ensures fb.DefaultFramebuffer?
    ensures fb.colorLoadOp == desc.colorLoadOp && fb.depthLoadOp == desc.depthLoadOp
    ensures fb.stencilLoadOp == desc.stencilLoadOp
  {
    DefaultFramebuffer(desc.colorLoadOp, desc.depthLoadOp, desc.stencilLoadOp)
  }

  /** The attachment extent check, made only when the context reports both
      the width and the height limit. */
  predicate ExtentAllowed(limits: Limits, width: nat, height: nat) {
    limits.maxFramebufferAttachmentWidth.Some? && limits.maxFramebufferAttachmentHeight.Some? ==>
      width <= limits.maxFramebufferAttachmentWidth.value
      && height <= limits.maxFramebufferAttachmentHeight.value
  }

  /** A texture can be attached: it is two-dimensional (an array texture
      contributes its first layer) and within the attachment extent. */
  predicate Attachable(limits: Limits, t: Texture) {
    (t.extent.D2? || t.extent.D2Array?) && ExtentAllowed(limits, t.extent.width, t.extent.height)
  }

  /** `bind_texture` inside `create_framebuffer`. */
  function AttachTexture(limits: Limits, t: Texture): (r: Checked<()>)
    ensures r.Pass? <==> Attachable(limits, t)
  {
    match t.extent
    case D1(_) => Abort("cannot bind a one-dimensional or three-dimensional texture to a framebuffer")
    case D3(_, _, _) => Abort("cannot bind a one-dimensional or three-dimensional texture to a framebuffer")
    case _ =>
      var (w, h) := (t.extent.width, t.extent.height);
      match (limits.maxFramebufferAttachmentWidth, limits.maxFramebufferAttachmentHeight)
      case (Some(mw), Some(mh)) =>
        if w > mw then Abort("texture too wide for a framebuffer attachment")
        else if h > mh then Abort("texture too tall for a framebuffer attachment")
        else Pass(())
      case _ => Pass(())
  }

  /** The color attachments from position `i` on, each numbered by its
      position, which must stay below the attachment limit: they attach
      exactly when there are no more than the limit and each one is
      attachable. */
  function AttachColors(limits: Limits, colors: seq<ColorAttachment>, i: nat): (r: Checked<()>)
    requires i <= |colors|
    ensures r.Pass? <==> && (i < |colors| ==> |colors| <= limits.maxFramebufferColorAttachments)
                         && forall k :: i <= k < |colors| ==> Attachable(limits, colors[k].attachment)
    decreases |colors| - i
  {
    if i == |colors| then Pass(())
    else if i >= limits.maxFramebufferColorAttachments then
      Abort("more color attachments than the maximum number of allowed attachments")
    else
      var _ :- AttachTexture(limits, colors[i].attachment);
      AttachColors(limits, colors, i + 1)
  }

  predicate ColorsAllowed(limits: Limits, colors: seq<ColorAttachment>) {
    && |colors| <= limits.maxFramebufferColorAttachments
    && forall k :: 0 <= k < |colors| ==> Attachable(limits, colors[k].attachment)
  }

  lemma ColorsAllowedIff(limits: Limits, colors: seq<ColorAttachment>)
    ensures AttachColors(limits, colors, 0).Pass? <==> ColorsAllowed(limits, colors)
  {
  }

  predicate DepthStencilAllowed(limits: Limits, ds: Option<DepthStencilAttachment>) {
    ds.Some? ==> ds.value.attachment.format == Depth24Stencil8 && Attachable(limits, ds.value.attachment)
  }

  /** `create_framebuffer`: take the lock, create the GL framebuffer,
      attach the colors in order and the depth-stencil texture, and require
      completeness; every violation panics. Missing attachments get the
      default load operations: load the color, clear depth to +infinity,
      clear stencil to 0xff. */
  function CreateFramebuffer(dev: Device, desc: FramebufferDescriptor, gl: GlCreation, complete: bool)
    : (r: Outcome<Framebuffer, FramebufferError>)
    ensures dev.locked ==> r.Panic?
    ensures r.Err? <==> !dev.locked && gl.Failed?
    ensures r.Ok? <==> && !dev.locked && gl.Created? && complete
                       && ColorsAllowed(LimitsOf(dev), desc.colorAttachments)
                       && DepthStencilAllowed(LimitsOf(dev), desc.depthStencilAttachment)
    ensures r.Ok? ==> r.value.CustomFramebuffer? && r.value.name == gl.name
    ensures r.Ok? ==> r.value.colorLoadOp
                      == if |desc.colorAttachments| > 0 then desc.colorAttachments[0].loadOp else Load
    ensures r.Ok? ==> r.value.depthLoadOp
                      == if desc.depthStencilAttachment.Some? then desc.depthStencilAttachment.value.depthLoadOp
                         else Clear(F32_INFINITY)
    ensures r.Ok? ==> r.value.stencilLoadOp
                      == if desc.depthStencilAttachment.Some? then desc.depthStencilAttachment.value.stencilLoadOp
                         else Clear(0xff)
  {
    if dev.locked then Panic("already borrowed")
    else match gl
      case Failed(what) => Err(FramebufferCreationError(what))
      case Created(name) =>
        var limits := LimitsOf(dev);
        ColorsAllowedIff(limits, desc.colorAttachments);
        var _ :- Lift(AttachColors(limits, desc.colorAttachments, 0));
        var _ :- match desc.depthStencilAttachment
          case None => Ok(())
          case Some(ds) =>
            if ds.attachment.format != Depth24Stencil8 then
              Panic("the depth-stencil attachment is not a depth-stencil format")
            else Lift(AttachTexture(limits, ds.attachment));
        if !complete then Panic("the given attachments are framebuffer incomplete")
        else
          var colorLoadOp := if |desc.colorAttachments| > 0 then desc.colorAttachments[0].loadOp else Load;
          var depthLoadOp := match desc.depthStencilAttachment
            case Some(ds) => ds.depthLoadOp
            case None => Clear(F32_INFINITY);
          var stencilLoadOp := match desc.depthStencilAttachment
            case Some(ds) => ds.stencilLoadOp
            case None => Clear(0xff);
          Ok(CustomFramebuffer(name, colorLoadOp, depthLoadOp, stencilLoadOp))
  }

  // ---------------------------------------------------------------------
  // Shaders and pipelines
  // ---------------------------------------------------------------------

  datatype ShaderKind = VertexShader | FragmentShader

  datatype Shader = Shader(name: nat, kind: ShaderKind)

  datatype ShaderError = ShaderCreationFailed(what: string) | CompilationFailed(what: string)

  /** The compiler's verdict on a GLSL source and its info log. */
  datatype Verdict = Accepted | Rejected(log: string)

  /** `create_vertex_shader` / `create_fragment_shader`: no lock; creation
      and compilation failures are recoverable errors carrying GL's text. */
  function CreateShader(dev: Device, kind: ShaderKind, gl: GlCreation, compile: Verdict)
    : (r: Outcome<Shader, ShaderError>)
    ensures !r.Panic?
    ensures r.Ok? <==> gl.Created? && compile.Accepted?
    ensures r.Ok? ==> r.value == Shader(gl.name, kind)
    ensures gl.Failed? ==> r == Err(ShaderCreationFailed(gl.what))
    ensures gl.Created? && compile.Rejected? ==> r == Err(CompilationFailed(compile.log))
  {
    match gl
    case Failed(what) => Err(ShaderCreationFailed(what))
    case Created(name) =>
      match compile
      case Rejected(log) => Err(CompilationFailed(log))
      case Accepted => Ok(Shader(name, kind))
  }

  datatype RenderPipelineDescriptor = RenderPipelineDescriptor(
    vertexShader: Shader, vertexLayout: VertexBufferLayout, fragmentShader: Option<Shader>)

  datatype RenderPipeline = RenderPipeline(
    program: nat, vertexShader: Shader, fragmentShader: Option<Shader>, vertexLayout: VertexBufferLayout)

  datatype RenderPipelineError = ProgramCreationFailed(what: string) | ProgramLinkFailed(what: string)

  /** `create_render_pipeline`: take the lock, create the program, attach
      the shaders and link; the pipeline keeps the shaders and the layout. */
  function CreateRenderPipeline(dev: Device, desc: RenderPipelineDescriptor, gl: GlCreation, link: Verdict)
    : (r: Outcome<RenderPipeline, RenderPipelineError>)
    ensures r.Panic? <==> dev.locked
    ensures r.Ok? <==> !dev.locked && gl.Created? && link.Accepted?
    ensures r.Ok? ==> r.value == RenderPipeline(gl.name, desc.vertexShader, desc.fragmentShader, desc.vertexLayout)
    ensures !dev.locked && gl.Failed? ==> r == Err(ProgramCreationFailed(gl.what))
    ensures !dev.locked && gl.Created? && link.Rejected? ==> r == Err(ProgramLinkFailed(link.log))
  {
    if dev.locked then Panic("already borrowed")
    else match gl
      case Failed(what) => Err(ProgramCreationFailed(what))
      case Created(program) =>
        match link
        case Rejected(log) => Err(ProgramLinkFailed(log))
        case Accepted => Ok(RenderPipeline(program, desc.vertexShader, desc.fragmentShader, desc.vertexLayout))
  }

  // ---------------------------------------------------------------------
  // Render passes and the pipeline lock
  // ---------------------------------------------------------------------

  datatype RenderPassDescriptor = RenderPassDescriptor(pipeline: RenderPipeline, framebuffer: Framebuffer)

  /** The state a render pass tracks while commands are recorded. */
  datatype RenderPass = RenderPass(
    pipeline: RenderPipeline,
    framebuffer: Framebuffer,
    generalSetup: bool,
    vertex: Option<Buffer>,
    index: Option<Buffer>,
    bind: Option<UniformGroup>,
    stencilReference: nat,
    stencilSetup: bool,
    drawBuffersSetup: bool)

  /** `start_render_pass`: take the lock for the pass's lifetime and start
      from a clean slate: nothing bound, stencil reference 0, nothing set
      up. */
  function StartRenderPass(dev: Device, desc: RenderPassDescriptor): (r: Checked<(Device, RenderPass)>)
    ensures r.Pass? <==> !dev.locked
    ensures r.Pass? ==> r.value.0 == dev.(locked := true)
    ensures r.Pass? ==> var pass := r.value.1;
              && pass.pipeline == desc.pipeline && pass.framebuffer == desc.framebuffer
              && pass.vertex.None? && pass.index.None? && pass.bind.None?
              && pass.stencilReference == 0
              && !pass.generalSetup && !pass.stencilSetup && !pass.drawBuffersSetup
  {
    if dev.locked then Abort("already borrowed")
    else Pass((dev.(locked := true), RenderPass(desc.pipeline, desc.framebuffer, false, None, None, None, 0, false, false)))
  }

  /** A `draw_indexed` call recorded on a pass: the range of indices to
      draw and the number of instances. */
  datatype DrawCall = DrawIndexed(first: nat, end: nat, instances: nat)

  /** Dropping the pass releases the lock. */
  function EndRenderPass(dev: Device, pass: RenderPass): (d: Device)
    ensures !d.locked && d.information == dev.information
  {
    dev.(locked := false)
  }

  /** While a pass is open, every operation that takes the lock panics,
      while buffer, group and shader creation behave exactly as on an
      unlocked device; closing the pass makes the lock available again. */
  lemma PassExcludesLockers(
    dev: Device, pd: RenderPassDescriptor, td: TextureDescriptor, data: Option<seq<bv8>>,
    fd: FramebufferDescriptor, complete: bool, rd: RenderPipelineDescriptor, link: Verdict,
    bd: BufferDescriptor, bytes: seq<bv8>, kind: ShaderKind, gl: GlCreation)
    requires StartRenderPass(dev, pd).Pass?
    requires ExtentIsU32(td.extent) && IsU32(bd.size)
    ensures var (open, pass) := StartRenderPass(dev, pd).value;
            && StartRenderPass(open, pd).Abort?
            && CreateTexture(open, td, data, gl).Panic?
            && CreateFramebuffer(open, fd, gl, complete).Panic?
            && CreateRenderPipeline(open, rd, gl, link).Panic?
            && CreateBufferWithData(open, bd, bytes, gl) == CreateBufferWithData(dev, bd, bytes, gl)
            && CreateShader(open, kind, gl, link) == CreateShader(dev, kind, gl, link)
            && StartRenderPass(EndRenderPass(open, pass), pd).Pass?
  {
  }

  /** Group creation reads only the limits, never the lock. */
  method GroupIgnoresLock(dev: Device, entries: seq<UniformGroupEntry>)
    returns (same: bool)
    requires Valid(dev)
    ensures same
  {
    var r1, n1 := CreateUniformBindGroup(dev.(locked := true), entries);
    var r2, n2 := CreateUniformBindGroup(dev.(locked := false), entries);
    assert LimitsOf(dev.(locked := true)) == LimitsOf(dev.(locked := false));
    if r1.Pass? {
      assert forall i :: 0 <= i < |entries| ==> r1.value.entries[i] == r2.value.entries[i];
      assert r1.value.entries == r2.value.entries;
    }
    same := r1.Pass? == r2.Pass? && (r1.Pass? ==> r1.value == r2.value);
  }
}

=== FILE: entity.dfy ===
/** The particle manager of the snow scene: classes of entities, each with
    a procedure run over all of its entities at every step, followed by a
    compaction that drops the entities the procedure killed.

    The parallel loop over classes is a sequential map here (classes share
    nothing), and a class's procedure is a function parameter: it may
    rewrite entities but, working on a slice, never changes their number.
    Durations are whole nanoseconds. */
module Entity {
  import opened Outcomes

  datatype Entity<T> = Entity(alive: bool, payload: T)

  /** `Entity::kill`. */
  function Kill<T>(e: Entity<T>): (r: Entity<T>)
    ensures !r.alive && r.payload == e.payload
  {
    e.(alive := false)
  }

  /** `Entity::revive`. */
  function Revive<T>(e: Entity<T>): (r: Entity<T>)
    ensures r.alive && r.payload == e.payload
  {
    e.(alive := true)
  }

  /** `Entity::alive`. */
  function IsAlive<T>(e: Entity<T>): bool {
    e.alive
  }

  /** Killing and reviving only move the flag; `alive()` reports it. */
  lemma KillReviveRoundTrip<T>(e: Entity<T>)
    ensures !IsAlive(Kill(e)) && IsAlive(Revive(e))
    ensures Revive(Kill(e)) == e.(alive := true) && Kill(Revive(e)) == e.(alive := false)
    ensures e.alive ==> Revive(Kill(e)) == e
    ensures !e.alive ==> Kill(Revive(e)) == e
  {
  }

  /** A class procedure: `Fn(Duration, &mut [Entity<T>])`. */
  type Procedure<!T(!new)> = f: (nat, seq<Entity<T>>) -> seq<Entity<T>> | forall d, s :: |f(d, s)| == |s|
    witness (d: nat, s: seq<Entity<T>>) => s

  datatype ClassBundle<!T(!new)> = ClassBundle(procedure: Procedure<T>, entities: seq<Entity<T>>)

  datatype Entities<!T(!new)> = Entities(bundles: seq<ClassBundle<T>>)

  /** A handle on a registered class: its position in the bundle list. */
  datatype Class = Class(index: nat)

  /** `Entities::new`. */
  function NewEntities<T(!new)>(): (r: Entities<T>)
    ensures |r.bundles| == 0 && Len(r) == 0
  {
    Entities([])
  }

  /** `register`: appends one empty bundle and names it by its position. */
  function Register<T(!new)>(es: Entities<T>, procedure: Procedure<T>): (r: (Entities<T>, Class))
    ensures r.1.index == |es.bundles|
    ensures |r.0.bundles| == |es.bundles| + 1 && r.0.bundles[..|es.bundles|] == es.bundles
    ensures r.0.bundles[r.1.index].entities == [] && r.0.bundles[r.1.index].procedure == procedure
    ensures Len(r.0) == Len(es)
  {
    var index := |es.bundles|;
    var bundles := es.bundles + [ClassBundle(procedure, [])];
    assert bundles[..index] == es.bundles;
    (Entities(bundles), Class(index))
  }

  /** The shared shape of `spawn` and `spawn_with`: the class must exist
      (indexing panics otherwise) and the new length must fit in a `usize`;
      the new entities, all alive, go at the end of that class only. */
  function SpawnEntities<T(!new)>(es: Entities<T>, c: Class, added: seq<Entity<T>>): (r: Checked<Entities<T>>)
    ensures r.Pass? <==> c.index < |es.bundles| && |es.bundles[c.index].entities| + |added| < USIZE_LIMIT
    ensures r.Pass? ==> |r.value.bundles| == |es.bundles|
    ensures r.Pass? ==> forall i :: 0 <= i < |es.bundles| && i != c.index ==> r.value.bundles[i] == es.bundles[i]
    ensures r.Pass? ==> r.value.bundles[c.index]
                        == es.bundles[c.index].(entities := es.bundles[c.index].entities + added)
  {
    if c.index >= |es.bundles| then Abort("index out of bounds")
    else
      var bundle := es.bundles[c.index];
      if |bundle.entities| + |added| >= USIZE_LIMIT then Abort("Adding this many particles would overflow usize!")
      else Pass(Entities(es.bundles[c.index := bundle.(entities := bundle.entities + added)]))
  }

  /** `spawn`: `particles` alive clones of `value`. */
  function Spawn<T(!new)>(es: Entities<T>, c: Class, particles: nat, value: T): (r: Checked<Entities<T>>)
    ensures r.Pass? <==> c.index < |es.bundles| && |es.bundles[c.index].entities| + particles < USIZE_LIMIT
    ensures r.Pass? ==> Len(r.value) == Len(es) + particles
    ensures r.Pass? ==> |r.value.bundles| == |es.bundles|
    ensures r.Pass? ==> forall i :: 0 <= i < |es.bundles| && i != c.index ==> r.value.bundles[i] == es.bundles[i]
    ensures r.Pass? ==> var before := es.bundles[c.index].entities;
                        var after := r.value.bundles[c.index].entities;
                        && |after| == |before| + particles && after[..|before|] == before
                        && forall i :: |before| <= i < |after| ==> after[i] == Entity(true, value)
  {
    var added := seq(particles, _ => Entity(true, value));
    var r := SpawnEntities(es, c, added);
    if r.Pass? then
      LenUpdate(es.bundles, c.index, r.value.bundles);
      r
    else r
  }

  /** `spawn_with`: the `i`-th new entity carries `make(i)`, the value of
      the generator's `i`-th call, in order. */
  function SpawnWith<T(!new)>(es: Entities<T>, c: Class, particles: nat, make: nat -> T): (r: Checked<Entities<T>>)
    ensures r.Pass? <==> c.index < |es.bundles| && |es.bundles[c.index].entities| + particles < USIZE_LIMIT
    ensures r.Pass? ==> Len(r.value) == Len(es) + particles
    ensures r.Pass? ==> |r.value.bundles| == |es.bundles|
    ensures r.Pass? ==> forall i :: 0 <= i < |es.bundles| && i != c.index ==> r.value.bundles[i] == es.bundles[i]
    ensures r.Pass? ==> var before := es.bundles[c.index].entities;
                        var after := r.value.bundles[c.index].entities;
                        && |after| == |before| + particles && after[..|before|] == before
                        && forall i :: 0 <= i < particles ==> after[|before| + i] == Entity(true, make(i))
  {
    var added := seq(particles, i requires 0 <= i < particles => Entity(true, make(i)));
    var r := SpawnEntities(es, c, added);
    if r.Pass? then
      LenUpdate(es.bundles, c.index, r.value.bundles);
      r
    else r
  }

  /** `classes`: one handle per registered class, in registration order. */
  function Classes<T(!new)>(es: Entities<T>): (r: seq<Class>)
    ensures |r| == |es.bundles|
    ensures forall i :: 0 <= i < |r| ==> r[i].index == i
  {
    seq(|es.bundles|, i requires 0 <= i < |es.bundles| => Class(i))
  }

  /** Every handle `classes` yields can be spawned into. */
  lemma ClassesAreSpawnable<T(!new)>(es: Entities<T>, i: nat, value: T)
    requires i < |Classes(es)|
    requires |es.bundles[i].entities| < USIZE_LIMIT - 1
    ensures Spawn(es, Classes(es)[i], 1, value).Pass?
  {
  }

  /** Total number of entities in the bundles. */
  function BundleSizes<T(!new)>(bundles: seq<ClassBundle<T>>): nat {
    if |bundles| == 0 then 0 else BundleSizes(bundles[..|bundles| - 1]) + |bundles[|bundles| - 1].entities|
  }

  /** `len`: the number of entities of all classes together. */
  function Len<T(!new)>(es: Entities<T>): nat {
    BundleSizes(es.bundles)
  }

  /** `entities`: the payloads class by class, each class in its order. */
  function Payloads<T(!new)>(bundles: seq<ClassBundle<T>>): (r: seq<T>)
    ensures |r| == BundleSizes(bundles)
  {
    if |bundles| == 0 then []
    else Payloads(bundles[..|bundles| - 1]) + seq(|bundles[|bundles| - 1].entities|, i requires 0 <= i < |bundles[|bundles| - 1].entities| => bundles[|bundles| - 1].entities[i].payload)
  }

  /** Where `entities()` yields an entity: entity `k` of class `c` comes
      after every entity of the earlier classes and after the first `k` of
      its own class, so `len()` places and counts exactly these payloads. */
  lemma {:induction false} PayloadsAt<T(!new)>(bundles: seq<ClassBundle<T>>, c: nat, k: nat)
    requires c < |bundles| && k < |bundles[c].entities|
    ensures BundleSizes(bundles[..c]) + k < |Payloads(bundles)|
    ensures Payloads(bundles)[BundleSizes(bundles[..c]) + k] == bundles[c].entities[k].payload
    decreases |bundles|
  {
    var n := |bundles| - 1;
    var prefix := bundles[..n];
    if c < n {
      PayloadsAt(prefix, c, k);
      assert prefix[..c] == bundles[..c];
      assert prefix[c] == bundles[c];
    } else {
      assert prefix == bundles[..c];
    }
  }

  lemma {:induction false} LenSplit<T(!new)>(bundles: seq<ClassBundle<T>>, k: nat)
    requires k < |bundles|
    ensures BundleSizes(bundles) == BundleSizes(bundles[..k]) + |bundles[k].entities| + BundleSizes(bundles[k + 1..])
    decreases |bundles|
  {
    if k + 1 < |bundles| {
      var n := |bundles| - 1;
      LenSplit(bundles[..n], k);
      assert bundles[..n][..k] == bundles[..k];
      assert bundles[..n][k + 1..] == bundles[k + 1..n];
      assert bundles[k + 1..][..|bundles[k + 1..]| - 1] == bundles[k + 1..n];
    } else {
      assert bundles[..|bundles| - 1] == bundles[..k];
      assert bundles[k + 1..] == [];
    }
  }

  /** Changing one bundle changes the total by that bundle's difference. */
  lemma LenUpdate<T(!new)>(bundles: seq<ClassBundle<T>>, k: nat, updated: seq<ClassBundle<T>>)
    requires k < |bundles| == |updated|
    requires forall i :: 0 <= i < |bundles| && i != k ==> updated[i] == bundles[i]
    ensures BundleSizes(updated) + |bundles[k].entities| == BundleSizes(bundles) + |updated[k].entities|
  {
    assert BundleSizes(updated[..k]) == BundleSizes(bundles[..k]) by {
      assert updated[..k] == bundles[..k];
    }
    assert BundleSizes(updated[k + 1..]) == BundleSizes(bundles[k + 1..]) by {
      assert updated[k + 1..] == bundles[k + 1..];
    }
    LenSplit(bundles, k);
    LenSplit(updated, k);
  }

  // ---------------------------------------------------------------------
  // Compaction
  // ---------------------------------------------------------------------

  /** The alive entities, in order. */
  function Survivors<T>(s: seq<Entity<T>>): (r: seq<Entity<T>>)
    ensures |r| <= |s|
    ensures forall i :: 0 <= i < |r| ==> r[i].alive
  {
    if |s| == 0 then []
    else if s[|s| - 1].alive then Survivors(s[..|s| - 1]) + [s[|s| - 1]]
    else Survivors(s[..|s| - 1])
  }

  /** The forward scan: from `i`, the first position that does not hold an
      alive entity (past the end if there is none). */
  function ScanUp<T>(s: seq<Entity<T>>, i: nat): (r: nat)
    requires i <= |s|
    ensures i <= r <= |s|
    ensures forall k :: i <= k < r ==> s[k].alive
    ensures r < |s| ==> !s[r].alive
    decreases |s| - i
  {
    if i < |s| && s[i].alive then ScanUp(s, i + 1) else i
  }

  /** `usize::saturating_sub(1)`. */
  function SaturatingDec(j: nat): nat {
    if j == 0 then 0 else j - 1
  }

  /** The backward scan as written: step down while the entity at `j` is
      dead, with a saturating decrement. `fuel` bounds the number of steps;
      `None` means the scan was still running when it ran out. */
  function ScanDownAsWritten<T>(s: seq<Entity<T>>, j: nat, fuel: nat): (r: Option<nat>)
    decreases fuel
  {
    if fuel == 0 then None
    else if j < |s| && !s[j].alive then ScanDownAsWritten(s, SaturatingDec(j), fuel - 1)
    else Some(j)
  }

  /** When every entity is dead the backward scan never stops: at position
      0 the decrement saturates and the same dead entity is examined again,
      however many steps are allowed. `simulate` therefore hangs on any
      non-empty class whose entities have all died. */
  lemma {:induction false} ScanDownAsWrittenHangs<T>(s: seq<Entity<T>>, j: nat, fuel: nat)
    requires |s| > 0 && j < |s|
    requires forall k :: 0 <= k < |s| ==> !s[k].alive
    ensures ScanDownAsWritten(s, j, fuel) == None
    decreases fuel
  {
    if fuel > 0 {
      ScanDownAsWrittenHangs(s, SaturatingDec(j), fuel - 1);
    }
  }

  /** The smallest example: a class holding one dead snowflake. */
  lemma OneDeadEntityHangs<T>(x: T, fuel: nat)
    ensures ScanDownAsWritten([Entity(false, x)], 0, fuel) == None
  {
    ScanDownAsWrittenHangs([Entity(false, x)], 0, fuel);
  }

  /** The backward scan with the missing guard: it stops at position 0. */
  function ScanDown<T>(s: seq<Entity<T>>, j: nat): (r: nat)
    requires j < |s|
    ensures r <= j
    ensures forall k :: r < k <= j ==> !s[k].alive
    ensures r > 0 ==> s[r].alive
  {
    if j > 0 && !s[j].alive then ScanDown(s, j - 1) else j
  }

  /** Whenever some entity at or below `j` is alive, the scan as written
      stops, and where the guarded scan does. */
  lemma {:induction false} ScanDownAgrees<T>(s: seq<Entity<T>>, j: nat, a: nat, fuel: nat)
    requires a <= j < |s| && s[a].alive
    requires fuel > j - a
    ensures ScanDownAsWritten(s, j, fuel) == Some(ScanDown(s, j))
    decreases j
  {
    if j > a && !s[j].alive {
      ScanDownAgrees(s, j - 1, a, fuel - 1);
    }
  }

  /** The entity cleanup of `simulate`, with the guarded backward scan:
      two indices move towards each other, every dead entity before the
      first one swapping places with the alive entity after the second, and
      the dead suffix is dropped. All survivors are alive and they are
      exactly the alive entities of the input, possibly reordered. */
  method Compact<T(!new)>(es: seq<Entity<T>>) returns (r: seq<Entity<T>>)
    ensures forall i :: 0 <= i < |r| ==> r[i].alive
    ensures multiset(r) == multiset(Survivors(es))
  {
    var s := es;
    if |s| == 0 {
      return [];
    }
    var firstDead: nat := ScanUp(s, 0);
    var lastAlive: nat := ScanDown(s, |s| - 1);
    while firstDead < lastAlive
      invariant |s| == |es| > 0 && multiset(s) == multiset(es)
      invariant firstDead <= |s| && lastAlive < |s|
      invariant forall k :: 0 <= k < firstDead ==> s[k].alive
      invariant forall k :: lastAlive < k < |s| ==> !s[k].alive
      invariant firstDead < |s| ==> !s[firstDead].alive
      invariant lastAlive > 0 ==> s[lastAlive].alive
      decreases lastAlive - firstDead
    {
      s := Swap(s, firstDead, lastAlive);
      firstDead := ScanUp(s, firstDead);
      lastAlive := ScanDown(s, lastAlive);
    }
    var alive := TakeWhileAlive(s);
    Partitioned(s, firstDead);
    assert alive == firstDead || (firstDead == |s| && alive == |s|) by {
      TakeWhileStops(s, firstDead);
    }
    r := s[..alive];
    SurvivorsOfPermutation(s, es);
  }

  /** `slice::swap`. */
  function Swap<T>(s: seq<Entity<T>>, i: nat, j: nat): (r: seq<Entity<T>>)
    requires i < |s| && j < |s|
    ensures |r| == |s| && multiset(r) == multiset(s)
    ensures r[i] == s[j] && r[j] == s[i]
    ensures forall k :: 0 <= k < |s| && k != i && k != j ==> r[k] == s[k]
  {
    s[i := s[j]][j := s[i]]
  }

  /** `iter().take_while(alive).count()`. */
  function TakeWhileAlive<T>(s: seq<Entity<T>>): (n: nat)
    ensures n <= |s|
    ensures forall k :: 0 <= k < n ==> s[k].alive
    ensures n < |s| ==> !s[n].alive
  {
    ScanUp(s, 0)
  }

  lemma TakeWhileStops<T>(s: seq<Entity<T>>, f: nat)
    requires f <= |s|
    requires forall k :: 0 <= k < f ==> s[k].alive
    requires f < |s| ==> !s[f].alive
    ensures TakeWhileAlive(s) == f
  {
  }

  /** At the end of the loop the alive entities form a prefix. */
  lemma Partitioned<T>(s: seq<Entity<T>>, f: nat)
    requires f <= |s|
    requires forall k :: 0 <= k < f ==> s[k].alive
    requires forall k :: f <= k < |s| ==> !s[k].alive
    ensures Survivors(s) == s[..f]
  {
    PrefixSurvivors(s, f, |s|);
    assert s[..|s|] == s;
  }

  lemma {:induction false} PrefixSurvivors<T>(s: seq<Entity<T>>, f: nat, n: nat)
    requires f <= n <= |s|
    requires forall k :: 0 <= k < f ==> s[k].alive
    requires forall k :: f <= k < |s| ==> !s[k].alive
    ensures Survivors(s[..n]) == s[..f]
    decreases n
  {
    if n > f {
      assert s[..n][..n - 1] == s[..n - 1];
      PrefixSurvivors(s, f, n - 1);
    } else {
      AliveSurvive(s[..f]);
    }
  }

  /** A sequence of alive entities survives whole. */
  lemma {:induction false} AliveSurvive<T>(s: seq<Entity<T>>)
    requires forall k :: 0 <= k < |s| ==> s[k].alive
    ensures Survivors(s) == s
  {
    if |s| > 0 {
      AliveSurvive(s[..|s| - 1]);
    }
  }

  /** An entity's multiplicity among the survivors is its multiplicity in
      the sequence when it is alive, and zero otherwise. */
  lemma {:induction false} SurvivorCount<T>(s: seq<Entity<T>>, x: Entity<T>)
    ensures multiset(Survivors(s))[x] == if x.alive then multiset(s)[x] else 0
  {
    if |s| > 0 {
      var n := |s| - 1;
      SurvivorCount(s[..n], x);
      assert s == s[..n] + [s[n]];
    }
  }

  lemma SurvivorsOfPermutation<T(!new)>(s: seq<Entity<T>>, t: seq<Entity<T>>)
    requires multiset(s) == multiset(t)
    ensures multiset(Survivors(s)) == multiset(Survivors(t))
  {
    var a, b := multiset(Survivors(s)), multiset(Survivors(t));
    forall x: Entity<T>
      ensures a[x] == b[x]
    {
      SurvivorCount(s, x);
      SurvivorCount(t, x);
    }
  }

  /** `simulate`: every class runs its procedure over its entities and is
      then compacted. The classes, their order and their procedures do not
      change. */
  method Simulate<T(!new)>(es: Entities<T>, delta: nat) returns (r: Entities<T>)
    ensures |r.bundles| == |es.bundles|
    ensures forall i :: 0 <= i < |es.bundles| ==> r.bundles[i].procedure == es.bundles[i].procedure
    ensures forall i :: 0 <= i < |es.bundles| ==>
              var stepped := es.bundles[i].procedure(delta, es.bundles[i].entities);
              && (forall k :: 0 <= k < |r.bundles[i].entities| ==> r.bundles[i].entities[k].alive)
              && multiset(r.bundles[i].entities) == multiset(Survivors(stepped))
  {
    var bundles: seq<ClassBundle<T>> := [];
    var i := 0;
    while i < |es.bundles|
      invariant i <= |es.bundles| && |bundles| == i
      invariant forall j :: 0 <= j < i ==> bundles[j].procedure == es.bundles[j].procedure
      invariant forall j :: 0 <= j < i ==>
                  var stepped := es.bundles[j].procedure(delta, es.bundles[j].entities);
                  && (forall k :: 0 <= k < |bundles[j].entities| ==> bundles[j].entities[k].alive)
                  && multiset(bundles[j].entities) == multiset(Survivors(stepped))
    {
      var bundle := es.bundles[i];
      var kept := Compact(bundle.procedure(delta, bundle.entities));
      bundles := bundles + [bundle.(entities := kept)];
      i := i + 1;
    }
    return Entities(bundles);
  }
}

=== FILE: exercise_one.dfy ===
/** The first example program: one triangle drawn through one of two
    pipelines that differ only in primitive topology, switching topology
    once per second of accumulated frame time.

    Durations are whole nanoseconds. GL object creation is an oracle
    parameter, as everywhere in the device model. */
module ExerciseOne {
  import opened Outcomes
  import opened Resources
  import opened Device
  import opened SupportVertex

  /** The topologies this program names; the device supports others, which
      are told apart only by an opaque number here. */
  datatype PrimitiveTopology = LineStrip | TriangleList | OtherTopology(id: nat)

  /** `ExamplePass::TOPOLOGIES`. */
  const TOPOLOGIES: seq<PrimitiveTopology> := [LineStrip, TriangleList]

  /** `Duration::from_secs(1)`. */
  const SECOND: nat := 1_000_000_000

  // ---------------------------------------------------------------------
  // The update tick
  // ---------------------------------------------------------------------

  /** One update of the main loop: the clock advances by `delta`, and for
      every whole second above one second the clock loses a second and the
      topology index advances cyclically. `periods` counts the seconds
      drained. */
  method Tick(clock: nat, topIndex: nat, delta: nat) returns (c: nat, top: nat, periods: nat)
    ensures c <= SECOND
    ensures c + periods * SECOND == clock + delta
    ensures periods > 0 ==> clock + delta - (periods - 1) * SECOND > SECOND
    ensures top == if periods == 0 then topIndex else (topIndex + periods) % |TOPOLOGIES|
    ensures topIndex < |TOPOLOGIES| ==> top < |TOPOLOGIES|
  {
    c, top, periods := clock + delta, topIndex, 0;
    while c > SECOND
      invariant c + periods * SECOND == clock + delta
      invariant periods > 0 ==> c > 0
      invariant top == if periods == 0 then topIndex else (topIndex + periods) % |TOPOLOGIES|
      invariant topIndex < |TOPOLOGIES| ==> top < |TOPOLOGIES|
      decreases c
    {
      c := c - SECOND;
      top := (top + 1) % |TOPOLOGIES|;
      periods := periods + 1;
    }
  }

  // ---------------------------------------------------------------------
  // The vertex type and its layout
  // ---------------------------------------------------------------------

  /** This program's own vertex: three `f32` triples. */
  datatype ExampleVertex = ExampleVertex(position: Vec3, normal: Vec3, texture: Vec3)

  /** The floats of field `k`, fields numbered in declaration order. */
  function ExampleField(v: ExampleVertex, k: nat): (r: seq<F32>)
    requires k < 3
    ensures |r| == 3
  {
    match k
    case 0 => Floats3(v.position)
    case 1 => Floats3(v.normal)
    case _ => Floats3(v.texture)
  }

  /** The in-memory image of a vertex (`repr(C)`, no padding). */
  function ExampleBytes(v: ExampleVertex): (r: seq<bv8>)
    ensures |r| == 36
  {
    F32sBytes(ExampleField(v, 0) + ExampleField(v, 1) + ExampleField(v, 2))
  }

  /** `Vertex::LAYOUT` of this program. */
  const EXAMPLE_LAYOUT: VertexBufferLayout := VertexBufferLayout(4 * 3 * 3, [
    VertexAttribute(F32Type, Three, 0, "tt_vert_position"),
    VertexAttribute(F32Type, Three, 12, "tt_vert_normal"),
    VertexAttribute(F32Type, Three, 24, "tt_vert_texture")
  ])

  /** The layout is packed, its stride is the size of a vertex, and
      attribute `k` covers exactly the bytes of field `k`. */
  lemma ExampleLayoutMatches(v: ExampleVertex, k: nat)
    requires k < 3
    ensures Packed(EXAMPLE_LAYOUT)
    ensures EXAMPLE_LAYOUT.arrayStride == TotalSize(EXAMPLE_LAYOUT.attributes) == |ExampleBytes(v)|
    ensures var a := EXAMPLE_LAYOUT.attributes[k];
            && AttributeSize(a) == 4 * |ExampleField(v, k)|
            && ExampleBytes(v)[a.offset..a.offset + AttributeSize(a)] == F32sBytes(ExampleField(v, k))
  {
    PackedStride(EXAMPLE_LAYOUT);
    var f0, f1, f2 := ExampleField(v, 0), ExampleField(v, 1), ExampleField(v, 2);
    F32sBytesAppend(f0 + f1, f2);
    F32sBytesAppend(f0, f1);
  }

  // ---------------------------------------------------------------------
  // The pass
  // ---------------------------------------------------------------------

  const HALF: F32 := F32(0x3F00_0000)
  const MINUS_HALF: F32 := F32(0xBF00_0000)
  const ONE: F32 := F32(0x3F80_0000)

  /** The triangle. */
  const EXAMPLE_VERTICES: seq<ExampleVertex> := [
    ExampleVertex(Vec3(MINUS_HALF, MINUS_HALF, F32_ZERO), Vec3(F32_ZERO, F32_ZERO, ONE), Vec3(F32_ZERO, ONE, F32_ZERO)),
    ExampleVertex(Vec3(HALF, MINUS_HALF, F32_ZERO), Vec3(F32_ZERO, F32_ZERO, ONE), Vec3(ONE, F32_ZERO, F32_ZERO)),
    ExampleVertex(Vec3(F32_ZERO, HALF, F32_ZERO), Vec3(F32_ZERO, F32_ZERO, ONE), Vec3(F32_ZERO, F32_ZERO, ONE))
  ]

  /** The triangle's outline, closed back on its first vertex. */
  const EXAMPLE_INDICES: seq<uint16> := [0, 1, 2, 0]

  function VerticesImage(): (r: seq<bv8>)
    ensures |r| == 36 * |EXAMPLE_VERTICES|
  {
    var pieces := seq(|EXAMPLE_VERTICES|, i requires 0 <= i < |EXAMPLE_VERTICES| => ExampleBytes(EXAMPLE_VERTICES[i]));
    ConcatUniform(pieces, 36);
    Concat(pieces)
  }

  datatype ExamplePass = ExamplePass(pipelines: map<PrimitiveTopology, RenderPipeline>, vertices: Buffer, indices: Buffer)

  /** The GL outcomes `ExamplePass::new` depends on, in call order. */
  datatype PassOracles = PassOracles(
    vertexBuffer: GlCreation, indexBuffer: GlCreation,
    vertexShader: GlCreation, vertexCompile: Verdict,
    fragmentShader: GlCreation, fragmentCompile: Verdict,
    programs: PrimitiveTopology -> (GlCreation, Verdict))

  /** `ExamplePass::new`: the two buffers hold exactly the triangle's and
      the outline's images, and there is one pipeline per listed topology,
      each the program created for it; every step unwraps, so any failure
      panics. */
  method NewExamplePass(dev: Device, gl: PassOracles) returns (r: Checked<ExamplePass>)
    ensures r.Pass? <==> && !dev.locked
                         && gl.vertexBuffer.Created? && gl.indexBuffer.Created?
                         && gl.vertexShader.Created? && gl.vertexCompile.Accepted?
                         && gl.fragmentShader.Created? && gl.fragmentCompile.Accepted?
                         && forall t :: t in TOPOLOGIES ==> gl.programs(t).0.Created? && gl.programs(t).1.Accepted?
    ensures r.Pass? ==> && r.value.pipelines.Keys == set t | t in TOPOLOGIES
                        && r.value.vertices.len == |VerticesImage()| == 108
                        && r.value.indices.len == |IndexData(EXAMPLE_INDICES)| == 8
                        && forall t :: t in TOPOLOGIES ==>
                             && t in r.value.pipelines
                             && r.value.pipelines[t].program == gl.programs(t).0.name
                             && r.value.pipelines[t].vertexLayout == EXAMPLE_LAYOUT
  {
    var vertices :- Unwrap(CreateBufferWithData(dev, BufferDescriptor(|VerticesImage()|, StaticUpload), VerticesImage(), gl.vertexBuffer));
    var indices :- Unwrap(CreateBufferWithData(dev, BufferDescriptor(|IndexData(EXAMPLE_INDICES)|, StaticUpload),
                                               IndexData(EXAMPLE_INDICES), gl.indexBuffer));
    var vertex :- Unwrap(CreateShader(dev, VertexShader, gl.vertexShader, gl.vertexCompile));
    var fragment :- Unwrap(CreateShader(dev, FragmentShader, gl.fragmentShader, gl.fragmentCompile));
    var desc := RenderPipelineDescriptor(vertex, EXAMPLE_LAYOUT, Some(fragment));
    var pipelines: map<PrimitiveTopology, RenderPipeline> := map[];
    var i := 0;
    while i < |TOPOLOGIES|
      invariant i <= |TOPOLOGIES|
      invariant i > 0 ==> !dev.locked
      invariant pipelines.Keys == set j | 0 <= j < i :: TOPOLOGIES[j]
      invariant forall j :: 0 <= j < i ==> gl.programs(TOPOLOGIES[j]).0.Created? && gl.programs(TOPOLOGIES[j]).1.Accepted?
      invariant forall j :: 0 <= j < i ==>
                  && pipelines[TOPOLOGIES[j]].program == gl.programs(TOPOLOGIES[j]).0.name
                  && pipelines[TOPOLOGIES[j]].vertexLayout == EXAMPLE_LAYOUT
    {
      var t := TOPOLOGIES[i];
      var (program, link) := gl.programs(t);
      var pipeline :- Unwrap(CreateRenderPipeline(dev, desc, program, link));
      pipelines := pipelines[t := pipeline];
      i := i + 1;
    }
    assert forall t :: t in TOPOLOGIES <==> t == TOPOLOGIES[0] || t == TOPOLOGIES[1];
    assert pipelines.Keys == {TOPOLOGIES[0], TOPOLOGIES[1]};
    return Pass(ExamplePass(pipelines, vertices, indices));
  }

  /** `ExamplePass::dispatch`: look the topology up, panicking when no
      pipeline was built for it, then open a pass with that pipeline (which
      takes the device lock), bind the outline and the triangle, and draw
      indices `0 .. 5` once. The result is the pass as the draw sees it and
      the draw. The range runs one past the four-index outline. */
  function Dispatch(p: ExamplePass, dev: Device, framebuffer: Framebuffer, topology: PrimitiveTopology)
    : (r: Checked<(RenderPass, DrawCall)>)
    ensures r.Pass? <==> topology in p.pipelines && !dev.locked
    ensures r.Pass? ==> var (pass, draw) := r.value;
              && topology in p.pipelines
              && pass.pipeline == p.pipelines[topology]
              && pass.framebuffer == framebuffer
              && pass.index == Some(p.indices) && pass.vertex == Some(p.vertices)
              && draw.first == 0 && draw.instances == 1
              && draw.end == |EXAMPLE_INDICES| + 1
  {
    if topology !in p.pipelines then
      Abort("tried to use invalid topology; supported topologies are LineStrip and TriangleList")
    else
      var (_, pass) :- StartRenderPass(dev, RenderPassDescriptor(p.pipelines[topology], framebuffer));
      var bound := pass.(index := Some(p.indices), vertex := Some(p.vertices));
      Pass((bound, DrawIndexed(0, 5, 1)))
  }

  /** The main loop only ever dispatches a listed topology, so on a pass
      built by `NewExamplePass` and a free device the lookup never panics. */
  lemma MainLoopDispatches(p: ExamplePass, dev: Device, framebuffer: Framebuffer, topIndex: nat)
    requires p.pipelines.Keys == set t | t in TOPOLOGIES
    requires topIndex < |TOPOLOGIES| && !dev.locked
    ensures Dispatch(p, dev, framebuffer, TOPOLOGIES[topIndex]).Pass?
  {
    assert TOPOLOGIES[topIndex] in TOPOLOGIES;
  }
}

=== FILE: exercise_three_a.dfy ===
/** Exercise three/a: a UV sphere built from quads.

    For every latitude band `height` in `1 ..= steps / 2` and every
    longitude step `angle` in `0 ..= steps`, four vertices are appended and
    the quad they span is split into two triangles. The vertices' positions
    and colors come from `sin` and `cos` and are not part of this model; the
    counts and the index list are. Indices are taken from the vertex count
    with an unchecked `as u16` cast, so they wrap modulo 2^16. */
module ExerciseThreeA {
  import opened Outcomes

  /** The program's resolution. */
  const STEPS: uint16 := 64

  /** `n as u16` on a vertex position. */
  function Wrap16(n: nat): (r: uint16)
    ensures r as int == n % U16_LIMIT
    ensures n < U16_LIMIT ==> r as int == n
  {
    (n % U16_LIMIT) as uint16
  }

  /** The six indices of quad `q`, whose vertices are `4q .. 4q + 3`:
      the triangles `(v0, v1, v2)` and `(v1, v2, v3)`. */
  function Quad(q: nat): (r: seq<uint16>)
    ensures |r| == 6
  {
    var v0, v1, v2, v3 := Wrap16(4 * q), Wrap16(4 * q + 1), Wrap16(4 * q + 2), Wrap16(4 * q + 3);
    [v0, v1, v2, v1, v2, v3]
  }

  /** The index list after `n` quads. */
  function Quads(n: nat): (r: seq<uint16>)
    ensures |r| == 6 * n
  {
    if n == 0 then [] else Quads(n - 1) + Quad(n - 1)
  }

  /** Quad `q` sits at positions `6q .. 6q + 5` of every longer list. */
  lemma {:induction false} QuadsHold(n: nat, q: nat)
    requires q < n
    ensures Quads(n)[6 * q .. 6 * q + 6] == Quad(q)
  {
    var prev := Quads(n - 1);
    assert Quads(n) == prev + Quad(n - 1);
    if q < n - 1 {
      QuadsHold(n - 1, q);
      assert 6 * q + 6 <= |prev|;
      assert (prev + Quad(n - 1))[6 * q .. 6 * q + 6] == prev[6 * q .. 6 * q + 6];
    } else {
      assert |prev| == 6 * q;
    }
  }

  /** While the vertex count fits in 16 bits, every index is a real vertex
      position and names one of the quad's own four vertices. */
  lemma QuadsInRange(n: nat, i: nat)
    requires 4 * n <= U16_LIMIT && i < 6 * n
    ensures Quads(n)[i] as int < 4 * n
    ensures 4 * (i / 6) <= Quads(n)[i] as int < 4 * (i / 6) + 4
  {
    var q := i / 6;
    QuadsHold(n, q);
    assert Quads(n)[i] == Quad(q)[i - 6 * q];
  }

  /** Every index of a list whose vertices fit in 16 bits is a vertex. */
  lemma QuadsAllInRange(n: nat)
    requires 4 * n <= U16_LIMIT
    ensures forall i :: 0 <= i < 6 * n ==> Quads(n)[i] as int < 4 * n
  {
    forall i | 0 <= i < 6 * n
      ensures Quads(n)[i] as int < 4 * n
    {
      QuadsInRange(n, i);
    }
  }

  /** `new`'s generation loops. `vertexCount` is the number of vertices
      pushed and, on success, `r` holds the index list and `indexCount` its
      length as a `u32`. The next longitude `(angle + 1) % steps` is
      computed in `u16`, so at `steps = 65535` the last step's `angle + 1`
      overflows, which a debug build reports as a panic before any vertex
      of that step is pushed. */
  method Sphere(steps: uint16) returns (r: Checked<seq<uint16>>, vertexCount: nat, indexCount: nat)
    ensures r.Abort? <==> steps as nat / 2 > 0 && steps as nat == U16_LIMIT - 1
    ensures r.Pass? ==>
              && vertexCount == 4 * ((steps as nat / 2) * (steps as nat + 1))
              && r.value == Quads((steps as nat / 2) * (steps as nat + 1))
              && |r.value| == 6 * ((steps as nat / 2) * (steps as nat + 1))
              && indexCount == |r.value| % U32_LIMIT
    ensures r.Pass? && vertexCount <= U16_LIMIT ==>
              forall i :: 0 <= i < |r.value| ==> r.value[i] as int < vertexCount
  {
    var bands := steps as nat / 2;
    var ring := steps as nat + 1;
    vertexCount := 0;
    var indices := [];
    var quads := 0;
    var height := 1;
    while height <= bands
      invariant 1 <= height <= bands + 1
      invariant quads == (height - 1) * ring
      invariant vertexCount == 4 * quads && indices == Quads(quads)
      invariant height > 1 ==> ring < U16_LIMIT
    {
      var angle := 0;
      while angle <= steps as nat
        invariant 0 <= angle <= ring
        invariant quads == (height - 1) * ring + angle
        invariant vertexCount == 4 * quads && indices == Quads(quads)
        invariant angle == ring ==> ring < U16_LIMIT
        invariant height > 1 ==> ring < U16_LIMIT
      {
        if angle + 1 >= U16_LIMIT {
          return Abort("attempt to add with overflow"), vertexCount, 0;
        }
        var v0 := Wrap16(vertexCount);
        var v1 := Wrap16(vertexCount + 1);
        var v2 := Wrap16(vertexCount + 2);
        var v3 := Wrap16(vertexCount + 3);
        vertexCount := vertexCount + 4;
        indices := indices + [v0, v1, v2, v1, v2, v3];
        quads := quads + 1;
        angle := angle + 1;
      }
      height := height + 1;
    }
    assert quads == bands * ring;
    indexCount := |indices| % U32_LIMIT;
    if vertexCount <= U16_LIMIT {
      QuadsAllInRange(quads);
    }
    return Pass(indices), vertexCount, indexCount;
  }

  /** At the program's resolution: 8320 vertices and 12480 indices, every
      index below the vertex count, so no `as u16` cast wraps, and the
      index count is the list's length. */
  lemma SphereAtSixtyFour(i: nat)
    requires i < 12480
    ensures (STEPS as nat / 2) * (STEPS as nat + 1) == 2080
    ensures 4 * 2080 == 8320 <= U16_LIMIT
    ensures Quads(2080)[i] as int < 8320
    ensures 6 * 2080 == 12480 < U32_LIMIT
  {
    QuadsInRange(2080, i);
  }
}

=== FILE: exercise_three_b.dfy ===
/** Exercise three/b: a cylinder made of two discs and a band of triangles
    woven between them.

    Vertices `0 .. steps` form the bottom disc and `steps .. 2 * steps` the
    top one; each disc is closed by a triangle fan on its first vertex, and
    for every rim step `t` the band holds one triangle pointing up and one
    pointing down. The vertices' positions come from `sin` and `cos` and
    are not part of this model; the counts and the index list are. Index
    arithmetic is in `u16` and is modelled as a debug build runs it, where
    an overflowing addition panics. */
module ExerciseThreeB {
  import opened Outcomes
  import opened Fans

  /** The program's resolution. */
  const STEPS: nat := 64

  /** The band triangles of rim step `t`: `(t, t + 1, t + steps)` with the
      rim wrapping around, then `(t + steps - 1, t + steps, t)` with the top
      rim wrapping around. Each has vertices on both discs. */
  function WeaveStep(steps: nat, t: nat): (r: seq<nat>)
    requires t < steps
    ensures |r| == 6
    ensures r[0] == t && r[1] == (if t + 1 == steps then 0 else t + 1) && r[2] == t + steps
    ensures r[3] == (if t == 0 then 2 * steps - 1 else t + steps - 1) && r[4] == t + steps && r[5] == t
    ensures r[0] < steps && r[1] < steps && steps <= r[2] < 2 * steps
    ensures steps <= r[3] < 2 * steps && steps <= r[4] < 2 * steps && r[5] < steps
  {
    var a1 := if t == 0 then t + steps + steps - 1 else t + steps - 1;
    NextOnRim(steps, t);
    [t, (t + 1) % steps, t + steps, a1, t + steps, t]
  }

  /** The rim successor wraps from the last vertex back to the first. */
  lemma NextOnRim(steps: nat, t: nat)
    requires t < steps
    ensures (t + 1) % steps == if t + 1 == steps then 0 else t + 1
  {
  }

  /** The band triangles of rim steps `0 .. n`. */
  function Weave(steps: nat, n: nat): (r: seq<nat>)
    requires n <= steps
    ensures |r| == 6 * n
  {
    if n == 0 then [] else Weave(steps, n - 1) + WeaveStep(steps, n - 1)
  }

  /** Step `t`'s triangles sit at positions `6t .. 6t + 5` of the band. */
  lemma {:induction false} WeaveHolds(steps: nat, n: nat, t: nat)
    requires t < n <= steps
    ensures Weave(steps, n)[6 * t .. 6 * t + 6] == WeaveStep(steps, t)
  {
    if t < n - 1 {
      WeaveHolds(steps, n - 1, t);
      assert Weave(steps, n)[..6 * (n - 1)] == Weave(steps, n - 1);
      assert Weave(steps, n)[6 * t .. 6 * t + 6] == Weave(steps, n - 1)[6 * t .. 6 * t + 6];
    } else {
      assert Weave(steps, n)[6 * t ..] == WeaveStep(steps, t);
    }
  }

  /** Every band index names a vertex of one of the two discs. */
  lemma WeaveInRange(steps: nat, n: nat, i: nat)
    requires n <= steps && i < 6 * n
    ensures Weave(steps, n)[i] < 2 * steps
  {
    var t := i / 6;
    WeaveHolds(steps, n, t);
    assert Weave(steps, n)[i] == WeaveStep(steps, t)[i - 6 * t];
  }

  /** The index list: both disc fans, then the band. */
  function CylinderIndices(n: nat): (r: seq<nat>)
    ensures |r| == 2 * (3 * FanTriangles(n)) + 6 * n
  {
    Fan(0, n) + Fan(n, n) + Weave(n, n)
  }

  /** What the index list is made of: the bottom fan, the top fan, then
      the band triangles step by step, every index naming one of the
      `2 * n` vertices. */
  predicate Cylindrical(n: nat, xs: seq<nat>) {
    var fan := 3 * FanTriangles(n);
    && |xs| == 2 * fan + 6 * n
    && xs[..fan] == Fan(0, n)
    && xs[fan .. 2 * fan] == Fan(n, n)
    && (forall t :: 0 <= t < n ==> xs[2 * fan + 6 * t .. 2 * fan + 6 * t + 6] == WeaveStep(n, t))
    && (forall i :: 0 <= i < |xs| ==> xs[i] < 2 * n)
  }

  lemma CylinderIndicesLayout(n: nat)
    ensures Cylindrical(n, CylinderIndices(n))
  {
    var xs := CylinderIndices(n);
    var fan := 3 * FanTriangles(n);
    CylinderPieces(n);
    forall t | 0 <= t < n
      ensures xs[2 * fan + 6 * t .. 2 * fan + 6 * t + 6] == WeaveStep(n, t)
    {
      CylinderWeaveAt(n, t);
    }
    forall i | 0 <= i < |xs|
      ensures xs[i] < 2 * n
    {
      CylinderInRange(n, i);
    }
  }

  lemma CylinderPieces(n: nat)
    ensures var xs := CylinderIndices(n); var fan := 3 * FanTriangles(n);
            && xs[..fan] == Fan(0, n) && xs[fan .. 2 * fan] == Fan(n, n) && xs[2 * fan ..] == Weave(n, n)
  {
    var xs := CylinderIndices(n);
    var fan := 3 * FanTriangles(n);
    assert xs[..fan] == Fan(0, n);
    assert xs[fan .. 2 * fan] == Fan(n, n);
    assert xs[2 * fan ..] == Weave(n, n);
  }

  lemma CylinderWeaveAt(n: nat, t: nat)
    requires t < n
    ensures var xs := CylinderIndices(n); var fan := 3 * FanTriangles(n);
            xs[2 * fan + 6 * t .. 2 * fan + 6 * t + 6] == WeaveStep(n, t)
  {
    var xs := CylinderIndices(n);
    var fan := 3 * FanTriangles(n);
    CylinderPieces(n);
    WeaveHolds(n, n, t);
    assert xs[2 * fan + 6 * t .. 2 * fan + 6 * t + 6] == xs[2 * fan ..][6 * t .. 6 * t + 6];
  }

  lemma CylinderInRange(n: nat, i: nat)
    requires i < |CylinderIndices(n)|
    ensures CylinderIndices(n)[i] < 2 * n
  {
    var fan := 3 * FanTriangles(n);
    var b, t, w := Fan(0, n), Fan(n, n), Weave(n, n);
    assert CylinderIndices(n) == b + t + w;
    if i >= 2 * fan {
      WeaveInRange(n, n, i - 2 * fan);
    } else if i >= fan {
      assert t[i - fan] < 2 * n;
    } else {
      assert b[i] < n;
    }
  }

  /** `new`'s generation loops. `vertexCount` is the number of vertices
      produced, `indexCount` the index list's length as a `u32`. The top
      disc's `base + steps` overflows `u16` once `2 * steps` does not fit,
      and then generation panics. */
  method Cylinder(steps: uint16) returns (r: Checked<seq<nat>>, vertexCount: nat, indexCount: nat)
    ensures r.Pass? <==> 2 * steps as nat < U16_LIMIT
    ensures r.Pass? ==> && vertexCount == 2 * steps as nat
                        && Cylindrical(steps as nat, r.value)
                        && indexCount == |r.value|
  {
    var n := steps as nat;
    var indices: seq<nat> := [];
    vertexCount := 0;
    var height := 0;
    while height <= 1
      invariant 0 <= height <= 2
      invariant vertexCount == if height == 0 then 0 else if height == 1 then n else 2 * n
      invariant height == 0 ==> indices == []
      invariant height == 1 ==> indices == Fan(0, n)
      invariant height == 2 ==> indices == Fan(0, n) + Fan(n, n) && 2 * n < U16_LIMIT
    {
      var base := if height == 0 then 0 else n;
      if base + n >= U16_LIMIT {
        return Abort("attempt to add with overflow"), vertexCount, 0;
      }
      vertexCount := vertexCount + n;
      indices := indices + Fan(base, n);
      height := height + 1;
    }
    assert 2 * n < U16_LIMIT;
    var discs := indices;
    var t := 0;
    while t < n
      invariant t <= n
      invariant indices == discs + Weave(n, t)
    {
      indices := indices + WeaveStep(n, t);
      t := t + 1;
    }
    assert indices == CylinderIndices(n);
    CylinderIndicesLayout(n);
    assert |indices| < U32_LIMIT by {
      assert FanTriangles(n) <= n && n < U16_LIMIT;
    }
    indexCount := |indices| % U32_LIMIT;
    FitsU32(|indices|);
    r := Pass(indices);
  }

  /** A length below 2^32 survives the `as u32` cast. */
  lemma FitsU32(x: nat)
    requires x < U32_LIMIT
    ensures x % U32_LIMIT == x
  {
  }

  /** At the program's resolution: 128 vertices and 756 indices. */
  lemma CylinderAtSixtyFour()
    ensures 2 * STEPS == 128 < U16_LIMIT
    ensures 2 * (3 * FanTriangles(STEPS)) + 6 * STEPS == 756
  {
  }
}

=== FILE: exercise_two_d.dfy ===
/** Exercise two/d: a circle moved by the keyboard and a triangle that
    follows the cursor, drawn in one render pass.

    The direction of the circle on each axis is driven by a small state
    machine over key events. The program stores the directions as `f32`,
    but only ever assigns them 0, 1 or -1 and only compares them against
    0, so they are integers here. The circle's trigonometric vertex
    positions and the per-frame float arithmetic are not part of this
    model; the index lists and the draws are. */
module ExerciseTwoD {
  import opened Outcomes
  import opened Device
  import opened Fans

  // ---------------------------------------------------------------------
  // Geometry
  // ---------------------------------------------------------------------

  /** The circle is built from this many rim vertices. */
  const STEPS: nat := 64

  /** The circle's index list: the rim pairs `(k + 1, k + 2)` for
      `0 <= k < STEPS - 2`, each closed into a triangle on vertex 0. */
  function CircleIndices(): (r: seq<nat>)
    ensures |r| == 3 * (STEPS - 2) == 186
    ensures forall k :: 0 <= k < STEPS - 2 ==> r[3 * k] == 0 && r[3 * k + 1] == k + 1 && r[3 * k + 2] == k + 2
    ensures forall i :: 0 <= i < |r| ==> r[i] < STEPS
  {
    Fan(0, STEPS)
  }

  /** The triangle's outline, closed back on its first vertex. */
  const TRIANGLE_INDICES: seq<uint16> := [0, 1, 2, 0]

  /** The triangle has three vertices. */
  const TRIANGLE_VERTEX_COUNT: nat := 3

  /** Every triangle index names one of its three vertices. */
  lemma TriangleIndicesInRange()
    ensures |TRIANGLE_INDICES| == 4
    ensures forall i :: 0 <= i < |TRIANGLE_INDICES| ==> TRIANGLE_INDICES[i] as nat < TRIANGLE_VERTEX_COUNT
  {
  }

  /** The circle's index list as the `u16` values handed to the GPU: every
      index fits, so the conversion keeps each one. */
  function CircleIndexData(): (r: seq<uint16>)
    ensures |r| == |CircleIndices()|
    ensures forall i :: 0 <= i < |r| ==> r[i] as nat == CircleIndices()[i]
  {
    var c := CircleIndices();
    seq(|c|, i requires 0 <= i < |c| => c[i] as uint16)
  }

  // ---------------------------------------------------------------------
  // Drawing
  // ---------------------------------------------------------------------

  /** The counts the visitor keeps next to its buffers. */
  datatype Visitor = Visitor(circleIndexCount: nat, triangleIndexCount: nat)

  /** The counts as `new` computes them: each is the length of its list. */
  function NewVisitor(): (v: Visitor)
    ensures v.circleIndexCount == |CircleIndexData()| == 186
    ensures v.triangleIndexCount == |TRIANGLE_INDICES| == 4
  {
    Visitor(|CircleIndexData()|, |TRIANGLE_INDICES|)
  }

  /** `visit`: one render pass, in which the circle and then the triangle
      are drawn once each over their whole index lists. Opening the pass
      panics when the device is already locked. */
  function Visit(v: Visitor, dev: Device, desc: RenderPassDescriptor): (r: Checked<seq<DrawCall>>)
    ensures r.Pass? <==> !dev.locked
    ensures r.Pass? ==> r.value == [DrawIndexed(0, v.circleIndexCount, 1), DrawIndexed(0, v.triangleIndexCount, 1)]
  {
    var _ :- StartRenderPass(dev, desc);
    Pass([DrawIndexed(0, v.circleIndexCount, 1), DrawIndexed(0, v.triangleIndexCount, 1)])
  }

  /** With the counts `new` computes, each draw covers exactly its index
      list, and every index it reads names a vertex of its mesh. */
  lemma DrawsStayInBuffers(dev: Device, desc: RenderPassDescriptor)
    requires !dev.locked
    ensures var draws := Visit(NewVisitor(), dev, desc).value;
            && draws[0].end == |CircleIndexData()| && draws[1].end == |TRIANGLE_INDICES|
            && (forall i :: draws[0].first <= i < draws[0].end ==> CircleIndexData()[i] as nat < STEPS)
            && (forall i :: draws[1].first <= i < draws[1].end ==> TRIANGLE_INDICES[i] as nat < TRIANGLE_VERTEX_COUNT)
  {
    TriangleIndicesInRange();
  }

  // ---------------------------------------------------------------------
  // Keyboard direction
  // ---------------------------------------------------------------------

  datatype ElementState = Pressed | Released

  /** A keyboard event: the key's scancode and whether it went down or up. */
  datatype KeyEvent = KeyEvent(scancode: nat, state: ElementState)

  /** An axis is steered by two keys: one pointing it to 1, one to -1. */
  datatype Axis = Axis(positive: nat, negative: nat)

  /** W (17) and S (31) steer the vertical axis, D (32) and A (30) the
      horizontal one. */
  const Y_AXIS: Axis := Axis(17, 31)
  const X_AXIS: Axis := Axis(32, 30)

  datatype Direction = Direction(x: int, y: int)

  /** One event on one axis. A press of either key points the axis its way;
      a release of a key zeroes the axis unless it points the opposite way,
      which means the other key was pressed since. Other events leave it. */
  function OnAxis(axis: Axis, v: int, e: KeyEvent): (r: int)
    requires axis.positive != axis.negative
  {
    if e.scancode == axis.positive then
      if e.state == Pressed then 1 else if v >= 0 then 0 else v
    else if e.scancode == axis.negative then
      if e.state == Pressed then -1 else if v <= 0 then 0 else v
    else v
  }

  /** The event handler: the two axes react independently, since no key
      steers both. */
  function OnKey(d: Direction, e: KeyEvent): (r: Direction)
    ensures e.scancode !in {17, 30, 31, 32} ==> r == d
    ensures e.scancode in {17, 31} ==> r.x == d.x
    ensures e.scancode in {30, 32} ==> r.y == d.y
  {
    Direction(OnAxis(X_AXIS, d.x, e), OnAxis(Y_AXIS, d.y, e))
  }

  predicate Unit(v: int) {
    -1 <= v <= 1
  }

  /** The directions after a run of events, starting from rest. */
  function Run(events: seq<KeyEvent>): Direction {
    if events == [] then Direction(0, 0)
    else OnKey(Run(events[..|events| - 1]), events[|events| - 1])
  }

  /** Whatever the events, both directions stay in {-1, 0, 1}. */
  lemma {:induction false} RunStaysUnit(events: seq<KeyEvent>)
    ensures Unit(Run(events).x) && Unit(Run(events).y)
  {
    if events != [] {
      RunStaysUnit(events[..|events| - 1]);
    }
  }

  /** The reference reading of an axis: it points the way of the last press
      of one of its keys, unless that same key has been released since; with
      no press at all it is at rest. */
  function LastPress(axis: Axis, events: seq<KeyEvent>): (r: Option<nat>)
    ensures r.Some? ==> r.value < |events|
                        && events[r.value].state == Pressed
                        && events[r.value].scancode in {axis.positive, axis.negative}
    ensures r.Some? ==> forall q :: r.value < q < |events| ==>
                          !(events[q].state == Pressed && events[q].scancode in {axis.positive, axis.negative})
    ensures r.None? ==> forall q :: 0 <= q < |events| ==>
                          !(events[q].state == Pressed && events[q].scancode in {axis.positive, axis.negative})
  {
    if events == [] then None
    else
      var e := events[|events| - 1];
      if e.state == Pressed && e.scancode in {axis.positive, axis.negative} then Some(|events| - 1)
      else LastPress(axis, events[..|events| - 1])
  }

  predicate ReleasedSince(events: seq<KeyEvent>, p: nat, key: nat)
    requires p < |events|
  {
    exists q :: p < q < |events| && events[q] == KeyEvent(key, Released)
  }

  function Held(axis: Axis, events: seq<KeyEvent>): int {
    match LastPress(axis, events)
    case None => 0
    case Some(p) =>
      var key := events[p].scancode;
      if ReleasedSince(events, p, key) then 0
      else if key == axis.positive then 1 else -1
  }

  /** The state machine computes the reference reading on both axes, for
      every sequence of events. */
  lemma {:induction false} RunIsHeld(events: seq<KeyEvent>)
    ensures Run(events).x == Held(X_AXIS, events)
    ensures Run(events).y == Held(Y_AXIS, events)
  {
    if events != [] {
      var prefix := events[..|events| - 1];
      RunIsHeld(prefix);
      AxisStep(X_AXIS, prefix, events[|events| - 1]);
      AxisStep(Y_AXIS, prefix, events[|events| - 1]);
      assert prefix + [events[|events| - 1]] == events;
    }
  }

  /** One event moves the reference reading exactly as `OnAxis` does. */
  lemma AxisStep(axis: Axis, prefix: seq<KeyEvent>, e: KeyEvent)
    requires axis.positive != axis.negative
    ensures Held(axis, prefix + [e]) == OnAxis(axis, Held(axis, prefix), e)
  {
    var events := prefix + [e];
    assert events[..|events| - 1] == prefix;
    var last := |events| - 1;
    if e.state == Pressed && e.scancode in {axis.positive, axis.negative} {
      assert LastPress(axis, events) == Some(last);
      assert !ReleasedSince(events, last, e.scancode);
    } else {
      assert LastPress(axis, events) == LastPress(axis, prefix);
      match LastPress(axis, prefix)
      case None =>
      case Some(p) =>
        var key := prefix[p].scancode;
        assert events[p] == prefix[p];
        if ReleasedSince(prefix, p, key) {
          var q :| p < q < |prefix| && prefix[q] == KeyEvent(key, Released);
          assert events[q] == prefix[q];
        } else if e == KeyEvent(key, Released) {
          assert ReleasedSince(events, p, key);
        } else {
          forall q | p < q < |events|
            ensures events[q] != KeyEvent(key, Released)
          {
            if q < |prefix| {
              assert events[q] == prefix[q];
            }
          }
        }
    }
  }

  /** `signum` with zero mapped to zero, as applied to the directions
      before they scale the circle's motion. */
  function Normalise(v: int): (r: int)
    ensures Unit(r)
    ensures v > 0 ==> r == 1
    ensures v < 0 ==> r == -1
    ensures v == 0 ==> r == 0
  {
    if v == 0 then 0 else if v > 0 then 1 else -1
  }

  /** On the values the state machine produces, normalising changes
      nothing. */
  lemma NormaliseKeepsUnit(events: seq<KeyEvent>)
    ensures Normalise(Run(events).x) == Run(events).x
    ensures Normalise(Run(events).y) == Run(events).y
  {
    RunStaysUnit(events);
  }
}

=== FILE: fan.dfy ===
/** Triangle fans, as the example programs generate them for discs: for a
    run of `n` consecutive vertices starting at `base`, the triangles
    `(base, a, a + 1)` for every `a` strictly between `base` and the last
    vertex of the run. */
module Fans {

  /** Number of triangles in a fan over `n` vertices: the pairs produced by
      zipping the run without its first vertex with the run without its
      first two. */
  function FanTriangles(n: nat): nat {
    if n >= 2 then n - 2 else 0
  }

  /** The flattened index list of the fan over `base .. base + n`. */
  function Fan(base: nat, n: nat): (r: seq<nat>)
    ensures |r| == 3 * FanTriangles(n)
    ensures forall k :: 0 <= k < FanTriangles(n) ==>
              r[3 * k] == base && r[3 * k + 1] == base + k + 1 && r[3 * k + 2] == base + k + 2
    ensures forall i :: 0 <= i < |r| ==> base <= r[i] < base + n
  {
    var r := seq(3 * FanTriangles(n), i requires 0 <= i < 3 * FanTriangles(n) =>
                   if i % 3 == 0 then base else base + i / 3 + i % 3);
    forall k | 0 <= k < FanTriangles(n)
      ensures r[3 * k] == base && r[3 * k + 1] == base + k + 1 && r[3 * k + 2] == base + k + 2
    {
      assert (3 * k + 1) / 3 == k && (3 * k + 2) / 3 == k;
    }
    r
  }
}

=== FILE: info.dfy ===
/** The capability prober of the GPU abstraction layer: parsing of the
    context's version string (the format of section 22.2 "String Queries" of
    the OpenGL 4.6 core specification and of the corresponding section of the
    OpenGL ES 3.0 specification), the total order on releases, the check
    against the dedicated MAJOR/MINOR queries, the per-profile minimum
    release, and the conversion of raw limit queries into `Limits`.

    The GL context is an oracle: the version string and the answer of every
    `glGet` query are inputs. */
module Info {
  import opened Outcomes

  // ---------------------------------------------------------------------
  // Characters and trimming
  // ---------------------------------------------------------------------

  /** Rust's `char::is_whitespace`: the Unicode White_Space property. */
  predicate IsWhitespace(c: char) {
    var n := c as int;
    || (0x09 <= n <= 0x0D) || n == 0x20 || n == 0x85 || n == 0xA0
    || n == 0x1680 || (0x2000 <= n <= 0x200A) || n == 0x2028 || n == 0x2029
    || n == 0x202F || n == 0x205F || n == 0x3000
  }

  /** `char::is_ascii() && char::is_numeric()`, which holds exactly of the
      ASCII decimal digits. */
  predicate IsDigit(c: char) {
    '0' <= c <= '9'
  }

  /** The characters a release's trailing revision is made of. */
  predicate IsReleaseChar(c: char) {
    IsDigit(c) || c == '.'
  }

  predicate AllDigits(s: string) {
    forall i :: 0 <= i < |s| ==> IsDigit(s[i])
  }

  /** The index of the first character at or after `i` that is not
      whitespace, or `|s|`. */
  function SkipFrom(s: string, i: nat): (j: nat)
    requires i <= |s|
    ensures i <= j <= |s|
    ensures forall k :: i <= k < j ==> IsWhitespace(s[k])
    ensures j < |s| ==> !IsWhitespace(s[j])
    decreases |s| - i
  {
    if i < |s| && IsWhitespace(s[i]) then SkipFrom(s, i + 1) else i
  }

  /** The index just past the last character before `j` that is not
      whitespace, or 0. */
  function SkipBackFrom(s: string, j: nat): (i: nat)
    requires j <= |s|
    ensures i <= j
    ensures forall k :: i <= k < j ==> IsWhitespace(s[k])
    ensures i > 0 ==> !IsWhitespace(s[i - 1])
  {
    if j > 0 && IsWhitespace(s[j - 1]) then SkipBackFrom(s, j - 1) else j
  }

  /** The length of the whitespace run a string starts with. */
  function LeadingWhitespace(s: string): (i: nat)
    ensures i <= |s|
    ensures forall k :: 0 <= k < i ==> IsWhitespace(s[k])
    ensures i < |s| ==> !IsWhitespace(s[i])
  {
    SkipFrom(s, 0)
  }

  /** `str::trim_start`: the input after its leading whitespace run. */
  function TrimStart(s: string): (r: string)
    ensures |r| <= |s| && r == s[|s| - |r|..]
    ensures forall i :: 0 <= i < |s| - |r| ==> IsWhitespace(s[i])
    ensures |r| > 0 ==> !IsWhitespace(r[0])
  {
    s[LeadingWhitespace(s)..]
  }

  /** `str::trim_end`: the input before its trailing whitespace run. */
  function TrimEnd(s: string): (r: string)
    ensures |r| <= |s| && r == s[..|r|]
    ensures forall i :: |r| <= i < |s| ==> IsWhitespace(s[i])
    ensures |r| > 0 ==> !IsWhitespace(r[|r| - 1])
  {
    s[..SkipBackFrom(s, |s|)]
  }

  /** `str::trim`: the run of the input that starts after its leading
      whitespace, has no whitespace at either end, and is followed by
      nothing but whitespace. When the input is all whitespace the result
      is empty. */
  function Trim(s: string): (r: string)
    ensures Trimmed(r)
    ensures LeadingWhitespace(s) + |r| <= |s|
    ensures forall k :: 0 <= k < |r| ==> r[k] == s[LeadingWhitespace(s) + k]
    ensures forall k :: LeadingWhitespace(s) + |r| <= k < |s| ==> IsWhitespace(s[k])
  {
    var i := LeadingWhitespace(s);
    var j := SkipBackFrom(s, |s|);
    if j <= i then "" else s[i..j]
  }

  /** A string with no whitespace at either end is its own trim. */
  predicate Trimmed(s: string) {
    |s| == 0 || (!IsWhitespace(s[0]) && !IsWhitespace(s[|s| - 1]))
  }

  // ---------------------------------------------------------------------
  // Decimal numbers
  // ---------------------------------------------------------------------

  function DigitValue(c: char): nat
    requires IsDigit(c)
  {
    c as nat - '0' as nat
  }

  function DigitChar(d: nat): (c: char)
    requires d < 10
    ensures IsDigit(c) && DigitValue(c) == d
  {
    ('0' as nat + d) as char
  }

  /** The value of a string of decimal digits, most significant first. */
  function DecimalValue(s: string): nat
    requires AllDigits(s)
  {
    if |s| == 0 then 0 else DecimalValue(s[..|s| - 1]) * 10 + DigitValue(s[|s| - 1])
  }

  /** The shortest decimal rendering of `n` (what `u32::to_string` prints). */
  function ToDecimal(n: nat): (s: string)
    ensures |s| > 0 && AllDigits(s)
  {
    if n < 10 then [DigitChar(n)] else ToDecimal(n / 10) + [DigitChar(n % 10)]
  }

  lemma {:induction false} DecimalRoundTrip(n: nat)
    ensures DecimalValue(ToDecimal(n)) == n
  {
    if n >= 10 {
      var s := ToDecimal(n);
      assert s[..|s| - 1] == ToDecimal(n / 10);
      DecimalRoundTrip(n / 10);
    }
  }

  /** `u32::from_str_radix(s, 10)`: one optional leading `+`, then a
      non-empty run of ASCII digits whose value fits in 32 bits. A lone sign
      and a leading `-` are rejected. */
  function ParseU32(s: string): (r: Option<nat>)
    ensures r.Some? ==> IsU32(r.value)
    ensures r.Some? ==> |s| > 0 && (IsDigit(s[0]) || s[0] == '+')
    ensures r.Some? ==> IsDigit(s[|s| - 1])
    ensures r.Some? ==> forall i :: 0 < i < |s| ==> IsDigit(s[i])
  {
    if |s| == 0 then None
    else if (s[0] == '+' || s[0] == '-') && |s| == 1 then None
    else
      var digits := if s[0] == '+' then s[1..] else s;
      if AllDigits(digits) && DecimalValue(digits) < U32_LIMIT then Some(DecimalValue(digits))
      else None
  }

  /** Every 32-bit value's decimal rendering parses back to it, with or
      without a leading `+`. */
  lemma ParseU32RoundTrip(n: nat)
    requires IsU32(n)
    ensures ParseU32(ToDecimal(n)) == Some(n)
    ensures ParseU32("+" + ToDecimal(n)) == Some(n)
  {
    DecimalRoundTrip(n);
    var s := "+" + ToDecimal(n);
    assert s[1..] == ToDecimal(n);
  }

  /** Any character other than a digit is rejected, except a `+` in
      front. */
  lemma ParseU32RejectsNonDigit(s: string, i: nat)
    requires i < |s| && !IsDigit(s[i])
    requires !(i == 0 && s[0] == '+')
    ensures ParseU32(s) == None
  {
  }

  /** Values that do not fit in 32 bits are rejected. */
  lemma ParseU32RejectsWide(n: nat)
    requires !IsU32(n)
    ensures ParseU32(ToDecimal(n)) == None
  {
    DecimalRoundTrip(n);
  }

  // ---------------------------------------------------------------------
  // Profiles
  // ---------------------------------------------------------------------

  datatype Profile = Core | Es | Web

  const WEB_SIGNATURE: string := "WebGL "
  const ES_SIGNATURE: string := "OpenGL ES "

  /** The text a version string of each profile starts with; desktop
      strings start directly with the release. */
  function Signature(p: Profile): string {
    match p
    case Core => ""
    case Es => ES_SIGNATURE
    case Web => WEB_SIGNATURE
  }

  /** `impl Display for Profile`. */
  function DisplayProfile(p: Profile): string {
    match p
    case Core => "OpenGL"
    case Es => "OpenGL ES"
    case Web => "WebGL"
  }

  /** The prefixes matched by the parser are the display names followed by
      one space, for the two profiles that carry one. */
  lemma SignatureIsDisplayName(p: Profile)
    requires p != Core
    ensures Signature(p) == DisplayProfile(p) + " "
  {
  }

  /** `Profile::parse`: after `trim_start`, a `"WebGL "` prefix is the web
      profile and an `"OpenGL ES "` prefix the embedded one, both returning
      the text after the prefix; a string starting with a digit is the
      desktop profile and is returned whole; anything else, including the
      empty string, is rejected with the trimmed string. */
  function ParseProfile(s: string): (r: Outcome<(Profile, string), string>)
    ensures !r.Panic?
    ensures r.Ok? ==> |TrimStart(s)| > 0
    ensures r.Ok? ==> TrimStart(s) == Signature(r.value.0) + r.value.1
    ensures r.Ok? && r.value.0 == Core ==> IsDigit(r.value.1[0])
    ensures r.Err? ==> r.error == TrimStart(s)
  {
    var t := TrimStart(s);
    if |t| == 0 then Err(t)
    else if StartsWith(t, WEB_SIGNATURE) then Ok((Web, After(t, WEB_SIGNATURE)))
    else if StartsWith(t, ES_SIGNATURE) then Ok((Es, After(t, ES_SIGNATURE)))
    else if IsDigit(t[0]) then Ok((Core, t))
    else Err(t)
  }

  /** `str::starts_with`. */
  predicate StartsWith(t: string, prefix: string) {
    |t| >= |prefix| && t[..|prefix|] == prefix
  }

  /** What follows a prefix `t` starts with. */
  function After(t: string, prefix: string): (rest: string)
    requires StartsWith(t, prefix)
    ensures t == prefix + rest
  {
    t[|prefix|..]
  }

  /** A profile's signature followed by a release is classified as that
      profile, and the release text is handed on unchanged. */
  lemma ParseProfileSignature(p: Profile, rest: string)
    requires |rest| > 0 && IsDigit(rest[0])
    ensures ParseProfile(Signature(p) + rest) == Ok((p, rest))
  {
    match p
    case Core => ParseProfileCore(rest);
    case Es => ParseProfileEs(rest);
    case Web => ParseProfileWeb(rest);
  }

  lemma ParseProfileCore(rest: string)
    requires |rest| > 0 && IsDigit(rest[0])
    ensures ParseProfile(rest) == Ok((Core, rest))
  {
    TrimStartNoop(rest);
    FirstDiffers(rest, WEB_SIGNATURE);
    FirstDiffers(rest, ES_SIGNATURE);
  }

  lemma ParseProfileEs(rest: string)
    ensures ParseProfile(ES_SIGNATURE + rest) == Ok((Es, rest))
  {
    var s := ES_SIGNATURE + rest;
    assert s[0] == 'O';
    TrimStartNoop(s);
    FirstDiffers(s, WEB_SIGNATURE);
    assert s[..|ES_SIGNATURE|] == ES_SIGNATURE;
    assert s[|ES_SIGNATURE|..] == rest;
  }

  lemma ParseProfileWeb(rest: string)
    ensures ParseProfile(WEB_SIGNATURE + rest) == Ok((Web, rest))
  {
    var s := WEB_SIGNATURE + rest;
    assert s[0] == 'W';
    TrimStartNoop(s);
    assert s[..|WEB_SIGNATURE|] == WEB_SIGNATURE;
    assert s[|WEB_SIGNATURE|..] == rest;
  }

  /** Strings whose first non-blank character is neither a digit nor the
      start of a known signature are rejected. */
  lemma ParseProfileRejects(s: string)
    requires var t := TrimStart(s); |t| == 0 || (!IsDigit(t[0]) && t[0] != 'W' && t[0] != 'O')
    ensures ParseProfile(s).Err?
  {
    var t := TrimStart(s);
    if |t| > 0 {
      FirstDiffers(t, WEB_SIGNATURE);
      FirstDiffers(t, ES_SIGNATURE);
    }
  }

  /** A string does not start with a prefix whose first character it lacks. */
  lemma FirstDiffers(t: string, prefix: string)
    requires |t| > 0 && |prefix| > 0 && t[0] != prefix[0]
    ensures !StartsWith(t, prefix)
  {
  }

  // ---------------------------------------------------------------------
  // Releases
  // ---------------------------------------------------------------------

  datatype Release = Release(major: nat, minor: nat)

  /** Index of the first `.`, as `str::split_once(".")` finds it. */
  function FindDot(s: string): (r: Option<nat>)
    ensures r.Some? ==> r.value < |s| && s[r.value] == '.'
    ensures r.Some? ==> forall i :: 0 <= i < r.value ==> s[i] != '.'
    ensures r.None? ==> forall i :: 0 <= i < |s| ==> s[i] != '.'
  {
    if |s| == 0 then None
    else if s[0] == '.' then Some(0)
    else match FindDot(s[1..])
      case None => None
      case Some(i) => Some(i + 1)
  }

  /** Length of the leading run of ASCII digits. */
  function DigitRun(s: string): (n: nat)
    ensures n <= |s| && AllDigits(s[..n])
    ensures n < |s| ==> !IsDigit(s[n])
  {
    if |s| > 0 && IsDigit(s[0]) then
      var k := DigitRun(s[1..]);
      assert s[..k + 1] == [s[0]] + s[1..][..k];
      k + 1
    else 0
  }

  /** Length of the leading run of digits and dots. */
  function ReleaseRun(s: string): (n: nat)
    ensures n <= |s|
    ensures forall i :: 0 <= i < n ==> IsReleaseChar(s[i])
    ensures n < |s| ==> !IsReleaseChar(s[n])
  {
    if |s| > 0 && IsReleaseChar(s[0]) then 1 + ReleaseRun(s[1..]) else 0
  }

  /** What follows the first `.`: the longest run of ASCII digits (the
      minor part), and the text left once a following run of digits and dots
      (the revision) is skipped. */
  function SplitMinor(after: string): (r: (string, string))
    ensures AllDigits(r.0)
    ensures |r.1| <= |after| && r.1 == after[|after| - |r.1|..]
    ensures |r.1| == 0 || !IsReleaseChar(r.1[0])
  {
    var n := DigitRun(after);
    var next := after[n..];
    (after[..n], next[ReleaseRun(next)..])
  }

  /** The three text parts `Release::parse` cuts a string into: the text
      before the first `.`, then the two parts of `SplitMinor`. `None` when
      there is no `.`. */
  function SplitRelease(s: string): (r: Option<(string, string, string)>)
    ensures r.None? <==> FindDot(s).None?
    ensures r.Some? ==> AllDigits(r.value.1)
    ensures r.Some? ==> |r.value.2| <= |s| && r.value.2 == s[|s| - |r.value.2|..]
    ensures r.Some? ==> |r.value.2| == 0 || !IsReleaseChar(r.value.2[0])
  {
    match FindDot(s)
    case None => None
    case Some(dot) =>
      var (minor, rest) := SplitMinor(s[dot + 1..]);
      Some((s[..dot], minor, rest))
  }

  /** `Release::parse`: major is the text before the first `.`, minor the
      longest run of ASCII digits after it; a following run of digits and
      dots (the revision) is skipped, and the remaining text is returned.
      On any failure the whole input is the error value. */
  function ParseRelease(s: string): (r: Outcome<(Release, string), string>)
    ensures !r.Panic?
    ensures r.Err? ==> r.error == s
    ensures FindDot(s).None? ==> r.Err?
    ensures r.Ok? ==> IsU32(r.value.0.major) && IsU32(r.value.0.minor)
    ensures r.Ok? ==> |r.value.1| <= |s| && r.value.1 == s[|s| - |r.value.1|..]
    ensures r.Ok? ==> |r.value.1| == 0 || !IsReleaseChar(r.value.1[0])
  {
    var parts := SplitRelease(s);
    if parts.None? then Err(s)
    else
      var major := ParseU32(parts.value.0);
      var minor := ParseU32(parts.value.1);
      if major.Some? && minor.Some? then Ok((Release(major.value, minor.value), parts.value.2))
      else Err(s)
  }

  /** The leading digit run of digits followed by a non-digit is exactly
      those digits. */
  lemma {:induction false} DigitRunOfDigits(a: string, b: string)
    requires AllDigits(a)
    requires |b| == 0 || !IsDigit(b[0])
    ensures DigitRun(a + b) == |a|
    decreases |a|
  {
    if |a| > 0 {
      assert (a + b)[1..] == a[1..] + b;
      DigitRunOfDigits(a[1..], b);
    } else {
      assert a + b == b;
    }
  }

  lemma {:induction false} ReleaseRunOf(a: string, b: string)
    requires forall i :: 0 <= i < |a| ==> IsReleaseChar(a[i])
    requires |b| == 0 || !IsReleaseChar(b[0])
    ensures ReleaseRun(a + b) == |a|
    decreases |a|
  {
    if |a| > 0 {
      assert (a + b)[1..] == a[1..] + b;
      ReleaseRunOf(a[1..], b);
    } else {
      assert a + b == b;
    }
  }

  lemma NoDotInDigits(a: string, b: string)
    requires AllDigits(a)
    ensures FindDot(a + "." + b) == Some(|a|)
  {
    var s := a + "." + b;
    assert s[|a|] == '.';
    assert forall i :: 0 <= i < |a| ==> s[i] == a[i];
    match FindDot(s)
    case None =>
    case Some(i) =>
  }

  /** The first `.` after a dot-free prefix is the one that follows it. */
  lemma DotAfter(a: string, b: string)
    requires forall i :: 0 <= i < |a| ==> a[i] != '.'
    ensures FindDot(a + "." + b) == Some(|a|)
  {
    var s := a + "." + b;
    assert s[|a|] == '.';
    assert forall i :: 0 <= i < |a| ==> s[i] == a[i];
    match FindDot(s)
    case None =>
    case Some(i) =>
  }

  /** A major part that `u32::from_str_radix` rejects (empty, not all
      digits, or too large) fails the whole release. */
  lemma ParseReleaseRejectsMajor(major: string, rest: string)
    requires forall i :: 0 <= i < |major| ==> major[i] != '.'
    requires ParseU32(major).None?
    ensures ParseRelease(major + "." + rest) == Err(major + "." + rest)
  {
    var s := major + "." + rest;
    DotAfter(major, rest);
    assert s[..|major|] == major;
  }

  /** A minor part too large for 32 bits fails the whole release. */
  lemma ParseReleaseRejectsMinor(major: string, n: nat, rest: string)
    requires forall i :: 0 <= i < |major| ==> major[i] != '.'
    requires !IsU32(n)
    requires |rest| == 0 || !IsDigit(rest[0])
    ensures ParseRelease(major + "." + ToDecimal(n) + rest) == Err(major + "." + ToDecimal(n) + rest)
  {
    var mi := ToDecimal(n);
    var s := major + "." + mi + rest;
    assert s == major + "." + (mi + rest);
    DotAfter(major, mi + rest);
    assert s[|major| + 1..] == mi + rest;
    DigitRunOfDigits(mi, rest);
    assert (mi + rest)[..|mi|] == mi;
    ParseU32RejectsWide(n);
  }

  /** A revision suffix: empty, or a dot followed by digits and dots. */
  predicate IsRevision(patch: string) {
    && (|patch| == 0 || patch[0] == '.')
    && forall i :: 0 <= i < |patch| ==> IsReleaseChar(patch[i])
  }

  /** Round trip: `<major>.<minor>[<revision>]<tail>` parses to the release
      and hands back `<tail>`, provided the tail does not itself continue
      the release. */
  lemma ParseReleaseRoundTrip(rel: Release, patch: string, tail: string)
    requires IsU32(rel.major) && IsU32(rel.minor)
    requires IsRevision(patch)
    requires |tail| == 0 || !IsReleaseChar(tail[0])
    ensures ParseRelease(ToDecimal(rel.major) + "." + ToDecimal(rel.minor) + patch + tail)
            == Ok((rel, tail))
  {
    var ma := ToDecimal(rel.major);
    var mi := ToDecimal(rel.minor);
    SplitReleaseOf(ma, mi, patch, tail);
    ParseU32RoundTrip(rel.major);
    ParseU32RoundTrip(rel.minor);
  }

  lemma SplitReleaseOf(ma: string, mi: string, patch: string, tail: string)
    requires AllDigits(ma) && AllDigits(mi)
    requires IsRevision(patch)
    requires |tail| == 0 || !IsReleaseChar(tail[0])
    ensures SplitRelease(ma + "." + mi + patch + tail) == Some((ma, mi, tail))
  {
    var s := ma + "." + mi + patch + tail;
    assert s == ma + "." + (mi + patch + tail);
    NoDotInDigits(ma, mi + patch + tail);
    assert s[..|ma|] == ma;
    assert s[|ma| + 1..] == mi + patch + tail;
    SplitMinorOf(mi, patch, tail);
  }

  lemma SplitMinorOf(mi: string, patch: string, tail: string)
    requires AllDigits(mi)
    requires IsRevision(patch)
    requires |tail| == 0 || !IsReleaseChar(tail[0])
    ensures SplitMinor(mi + patch + tail) == (mi, tail)
  {
    var after := mi + patch + tail;
    assert after == mi + (patch + tail);
    assert |patch + tail| == 0 || !IsDigit((patch + tail)[0]);
    DigitRunOfDigits(mi, patch + tail);
    assert after[..|mi|] == mi;
    assert after[|mi|..] == patch + tail;
    ReleaseRunOf(patch, tail);
    assert (patch + tail)[|patch|..] == tail;
  }

  /** A version string without any `.` has no release. */
  lemma ParseReleaseNeedsDot(s: string)
    requires forall i :: 0 <= i < |s| ==> s[i] != '.'
    ensures ParseRelease(s) == Err(s)
  {
  }

  /** A release whose minor part does not start with a digit is rejected. */
  lemma ParseReleaseNeedsMinor(major: string, rest: string)
    requires AllDigits(major)
    requires |rest| == 0 || !IsDigit(rest[0])
    ensures ParseRelease(major + "." + rest).Err?
  {
    var s := major + "." + rest;
    NoDotInDigits(major, rest);
    assert s[|major| + 1..] == rest;
    assert DigitRun(rest) == 0;
    assert SplitMinor(rest).0 == "";
    assert SplitRelease(s).value.1 == "";
  }

  // ---------------------------------------------------------------------
  // Ordering of releases
  // ---------------------------------------------------------------------

  datatype Ordering = Less | Equal | Greater

  /** `Ord for u32`. */
  function CmpNat(a: nat, b: nat): (r: Ordering)
    ensures r == Less <==> a < b
    ensures r == Equal <==> a == b
  {
    if a < b then Less else if a == b then Equal else Greater
  }

  /** `Ord for Release`: majors first, minors on a tie. */
  function ReleaseCmp(a: Release, b: Release): (r: Ordering)
    ensures r == Less <==> a.major < b.major || (a.major == b.major && a.minor < b.minor)
    ensures r == Equal <==> a == b
    ensures r == Greater <==> b.major < a.major || (a.major == b.major && b.minor < a.minor)
  {
    match CmpNat(a.major, b.major)
    case Equal => CmpNat(a.minor, b.minor)
    case other => other
  }

  /** `PartialOrd for Release`, written separately in the source. */
  function ReleasePartialCmp(a: Release, b: Release): Option<Ordering> {
    match PartialCmpNat(a.major, b.major)
    case None => PartialCmpNat(a.minor, b.minor)
    case Some(Equal) => PartialCmpNat(a.minor, b.minor)
    case Some(o) => Some(o)
  }

  /** `PartialOrd for u32`, which always answers. */
  function PartialCmpNat(a: nat, b: nat): Option<Ordering> {
    Some(CmpNat(a, b))
  }

  /** The partial comparison always answers, and agrees with `cmp`. */
  lemma PartialCmpAgrees(a: Release, b: Release)
    ensures ReleasePartialCmp(a, b) == Some(ReleaseCmp(a, b))
  {
  }

  /** `a <= b` on releases. */
  predicate ReleaseLe(a: Release, b: Release) {
    ReleaseCmp(a, b) != Greater
  }

  /** `cmp` is antisymmetric: swapping the arguments flips the answer. */
  lemma CmpAntisymmetric(a: Release, b: Release)
    ensures ReleaseCmp(a, b) == Less <==> ReleaseCmp(b, a) == Greater
  {
  }

  /** `<=` on releases is a total order. */
  lemma ReleaseTotalOrder()
    ensures forall a :: ReleaseLe(a, a)
    ensures forall a, b :: ReleaseLe(a, b) && ReleaseLe(b, a) ==> a == b
    ensures forall a, b, c :: ReleaseLe(a, b) && ReleaseLe(b, c) ==> ReleaseLe(a, c)
    ensures forall a, b :: ReleaseLe(a, b) || ReleaseLe(b, a)
  {
  }

  // ---------------------------------------------------------------------
  // Versions
  // ---------------------------------------------------------------------

  datatype Version = Version(profile: Profile, release: Release, vendor: string)

  /** `Version::parse`: the profile, then the release, then the trimmed
      remainder as the vendor text. */
  function ParseVersion(s: string): (r: Outcome<Version, string>)
    ensures !r.Panic?
    ensures r.Ok? ==> Trimmed(r.value.vendor)
    ensures r.Ok? ==> IsU32(r.value.release.major) && IsU32(r.value.release.minor)
  {
    var (profile, s1) :- ParseProfile(s);
    var (release, s2) :- ParseRelease(s1);
    Ok(Version(profile, release, Trim(s2)))
  }

  /** The string a context would report for a version: the profile's
      signature, the release, an optional revision, and the vendor text
      after one space. */
  function RenderVersion(v: Version, patch: string): string
    requires IsU32(v.release.major) && IsU32(v.release.minor)
  {
    Signature(v.profile) + ToDecimal(v.release.major) + "." + ToDecimal(v.release.minor)
      + patch + (if |v.vendor| == 0 then "" else " " + v.vendor)
  }

  lemma {:induction false} TrimStartNoop(s: string)
    requires |s| == 0 || !IsWhitespace(s[0])
    ensures TrimStart(s) == s
  {
  }

  lemma TrimOfSpaced(v: string)
    requires Trimmed(v)
    ensures Trim(if |v| == 0 then "" else " " + v) == v
  {
    if |v| > 0 {
      var s := " " + v;
      assert SkipFrom(s, 1) == 1 by {
        assert s[1] == v[0];
      }
      assert LeadingWhitespace(s) == 1;
      assert SkipBackFrom(s, |s|) == |s| by {
        assert s[|s| - 1] == v[|v| - 1];
      }
      assert s[1..|s|] == v;
    }
  }

  /** Round trip: rendering a version and parsing it back gives the same
      version, whatever revision suffix the implementation adds. */
  lemma ParseVersionRoundTrip(v: Version, patch: string)
    requires IsU32(v.release.major) && IsU32(v.release.minor)
    requires IsRevision(patch)
    requires Trimmed(v.vendor)
    ensures ParseVersion(RenderVersion(v, patch)) == Ok(v)
  {
    var tail := if |v.vendor| == 0 then "" else " " + v.vendor;
    var rel := ToDecimal(v.release.major) + "." + ToDecimal(v.release.minor) + patch + tail;
    assert ParseProfile(RenderVersion(v, patch)) == Ok((v.profile, rel)) by {
      assert RenderVersion(v, patch) == Signature(v.profile) + rel;
      assert rel[0] == ToDecimal(v.release.major)[0];
      ParseProfileSignature(v.profile, rel);
    }
    assert ParseRelease(rel) == Ok((v.release, tail)) by {
      ParseReleaseRoundTrip(v.release, patch, tail);
    }
    assert Trim(tail) == v.vendor by {
      TrimOfSpaced(v.vendor);
    }
  }

  // The version strings the unit tests use, rendered and parsed back.

  lemma RenderNvidia()
    ensures RenderVersion(Version(Core, Release(4, 6), "NVIDIA 457.51"), "") == "4.6 NVIDIA 457.51"
  {
    assert ToDecimal(4) == "4" && ToDecimal(6) == "6";
  }

  lemma ParseVersionExampleNvidia()
    ensures ParseVersion("4.6 NVIDIA 457.51") == Ok(Version(Core, Release(4, 6), "NVIDIA 457.51"))
  {
    RenderNvidia();
    ParseVersionRoundTrip(Version(Core, Release(4, 6), "NVIDIA 457.51"), "");
  }

  lemma RenderNvidiaRevision()
    ensures RenderVersion(Version(Core, Release(4, 6), "NVIDIA 457.51"), ".0") == "4.6.0 NVIDIA 457.51"
  {
    assert ToDecimal(4) == "4" && ToDecimal(6) == "6";
  }

  /** The revision after the minor number is skipped. */
  lemma ParseVersionExampleRevision()
    ensures ParseVersion("4.6.0 NVIDIA 457.51") == Ok(Version(Core, Release(4, 6), "NVIDIA 457.51"))
  {
    RenderNvidiaRevision();
    ParseVersionRoundTrip(Version(Core, Release(4, 6), "NVIDIA 457.51"), ".0");
  }

  lemma RenderEs()
    ensures RenderVersion(Version(Es, Release(3, 0), ""), "") == "OpenGL ES 3.0"
  {
    assert ToDecimal(3) == "3" && ToDecimal(0) == "0";
  }

  lemma ParseVersionExampleEs()
    ensures ParseVersion("OpenGL ES 3.0") == Ok(Version(Es, Release(3, 0), ""))
  {
    RenderEs();
    ParseVersionRoundTrip(Version(Es, Release(3, 0), ""), "");
  }

  lemma RenderWeb()
    ensures RenderVersion(Version(Web, Release(2, 0), ""), "") == "WebGL 2.0"
  {
    assert ToDecimal(2) == "2" && ToDecimal(0) == "0";
  }

  lemma ParseVersionExampleWeb()
    ensures ParseVersion("WebGL 2.0") == Ok(Version(Web, Release(2, 0), ""))
  {
    RenderWeb();
    ParseVersionRoundTrip(Version(Web, Release(2, 0), ""), "");
  }

  // ---------------------------------------------------------------------
  // The context oracle and the limits
  // ---------------------------------------------------------------------

  type I32 = v: int | IsI32(v)

  /** What `glGetIntegerv` followed by `glGetError` reports: a value with
      `NO_ERROR`, `INVALID_ENUM`, or some other error code. */
  datatype GlAnswer = Value(v: I32) | InvalidEnum | OtherError(code: nat)

  /** The `glGet` parameters the prober queries. */
  datatype GlParameter =
    | MaxCombinedTextureImageUnits | MaxTextureSize | Max3dTextureSize | MaxArrayTextureLayers
    | MaxUniformBufferBindings | MaxUniformBlockSize | MaxColorAttachments
    | MaxFramebufferWidth | MaxFramebufferHeight | MaxViewportDims
    | MajorVersion | MinorVersion

  datatype Query = Get(parameter: GlParameter) | GetIndexed(parameter: GlParameter, index: nat)

  /** The native context, seen through its answers. */
  datatype Context = Context(version: string, answer: Query -> GlAnswer)

  datatype Capabilities = Capabilities(bufferMapping: bool)

  datatype Limits = Limits(
    maxTextures: nat,
    maxTextureSize: nat,
    maxTextureSize3d: nat,
    maxTextureLayers: nat,
    maxUniformBlockBindings: nat,
    maxUniformBlockSize: nat,
    maxFramebufferColorAttachments: nat,
    maxFramebufferAttachmentWidth: Option<nat>,
    maxFramebufferAttachmentHeight: Option<nat>,
    maxViewportWidth: Option<nat>,
    maxViewportHeight: Option<nat>)

  datatype Information = Information(version: Version, capabilities: Capabilities, limits: Limits)

  datatype UnsupportedContext =
    | InvalidVersion(text: string)
    | InvalidRelease(major: Option<int>, minor: Option<int>)
    | MismatchedRelease(fromString: (nat, nat), dedicated: (nat, nat))
    | InvalidParameter(value: int, parameter: GlParameter)
    | UnsupportedParameter(parameter: GlParameter)
    | UnsupportedRelease(profile: Profile, release: (nat, nat))

  predicate OptionalFits(o: Option<nat>) {
    o.Some? ==> o.value <= I32_MAX
  }

  /** Every limit came out of a non-negative `i32`. */
  predicate FromI32(l: Limits) {
    && l.maxTextures <= I32_MAX && l.maxTextureSize <= I32_MAX
    && l.maxTextureSize3d <= I32_MAX && l.maxTextureLayers <= I32_MAX
    && l.maxUniformBlockBindings <= I32_MAX && l.maxUniformBlockSize <= I32_MAX
    && l.maxFramebufferColorAttachments <= I32_MAX
    && OptionalFits(l.maxFramebufferAttachmentWidth) && OptionalFits(l.maxFramebufferAttachmentHeight)
    && OptionalFits(l.maxViewportWidth) && OptionalFits(l.maxViewportHeight)
  }

  /** `checked_get_parameter_i32`: the value, `None` for `INVALID_ENUM`,
      a panic for any other error. */
  function CheckedGet(a: GlAnswer): (r: Checked<Option<int>>)
    ensures r.Pass? <==> !a.OtherError?
    ensures r.Pass? ==> (r.value.Some? <==> a.Value?)
    ensures r.Pass? && a.Value? ==> r.value == Some(a.v as int)
  {
    match a
    case Value(v) => Pass(Some(v as int))
    case InvalidEnum => Pass(None)
    case OtherError(_) => Abort("unexpected glGetError value after glGet")
  }

  /** `ensure_u32`: a required limit. */
  function RequiredLimit(a: GlAnswer, p: GlParameter): (r: Outcome<nat, UnsupportedContext>)
    ensures r.Ok? <==> a.Value? && a.v >= 0
    ensures r.Ok? ==> r.value == a.v && r.value <= I32_MAX
    ensures a.InvalidEnum? ==> r == Err(UnsupportedParameter(p))
    ensures a.Value? && a.v < 0 ==> r == Err(InvalidParameter(a.v, p))
    ensures r.Panic? <==> a.OtherError?
  {
    match a
    case InvalidEnum => Err(UnsupportedParameter(p))
    case OtherError(_) => Panic("glGet returned an error code")
    case Value(v) => if v >= 0 then Ok(v as nat) else Err(InvalidParameter(v, p))
  }

  /** `try_ensure_u32` and `try_ensure_u32_indexed`: an optional limit. */
  function OptionalLimit(a: GlAnswer, p: GlParameter): (r: Outcome<Option<nat>, UnsupportedContext>)
    ensures r.Ok? <==> a.InvalidEnum? || (a.Value? && a.v >= 0)
    ensures r.Ok? ==> (r.value.None? <==> a.InvalidEnum?)
    ensures r.Ok? && a.Value? ==> r.value == Some(a.v as nat) && a.v <= I32_MAX
    ensures a.Value? && a.v < 0 ==> r == Err(InvalidParameter(a.v, p))
    ensures r.Panic? <==> a.OtherError?
  {
    match a
    case InvalidEnum => Ok(None)
    case OtherError(_) => Panic("glGet returned an error code")
    case Value(v) => if v >= 0 then Ok(Some(v as nat)) else Err(InvalidParameter(v, p))
  }

  predicate RequiredAccepted(a: GlAnswer) {
    a.Value? && a.v >= 0
  }

  predicate OptionalAccepted(a: GlAnswer) {
    a.InvalidEnum? || (a.Value? && a.v >= 0)
  }

  /** The answer is the value `n`. */
  predicate Answered(a: GlAnswer, n: int) {
    a.Value? && a.v == n
  }

  /** The optional limit `o` is what the answer `a` says: absent exactly
      when the query was not understood. */
  predicate OptionalMatches(o: Option<nat>, a: GlAnswer) {
    if a.InvalidEnum? then o.None? else o.Some? && Answered(a, o.value)
  }

  /** Every query `Limits::collect` makes got an answer it accepts: a
      non-negative value for the seven required limits, a non-negative
      value or `INVALID_ENUM` for the four optional ones. */
  predicate AllAccepted(gl: Query -> GlAnswer) {
    && RequiredAccepted(gl(Get(MaxCombinedTextureImageUnits)))
    && RequiredAccepted(gl(Get(MaxTextureSize)))
    && RequiredAccepted(gl(Get(Max3dTextureSize)))
    && RequiredAccepted(gl(Get(MaxArrayTextureLayers)))
    && RequiredAccepted(gl(Get(MaxUniformBufferBindings)))
    && RequiredAccepted(gl(Get(MaxUniformBlockSize)))
    && RequiredAccepted(gl(Get(MaxColorAttachments)))
    && OptionalAccepted(gl(Get(MaxFramebufferWidth)))
    && OptionalAccepted(gl(Get(MaxFramebufferHeight)))
    && OptionalAccepted(gl(GetIndexed(MaxViewportDims, 0)))
    && OptionalAccepted(gl(GetIndexed(MaxViewportDims, 1)))
  }

  /** The limits record holds the queried values field by field. */
  predicate LimitsMatch(l: Limits, gl: Query -> GlAnswer) {
    && Answered(gl(Get(MaxCombinedTextureImageUnits)), l.maxTextures)
    && Answered(gl(Get(MaxTextureSize)), l.maxTextureSize)
    && Answered(gl(Get(Max3dTextureSize)), l.maxTextureSize3d)
    && Answered(gl(Get(MaxArrayTextureLayers)), l.maxTextureLayers)
    && Answered(gl(Get(MaxUniformBufferBindings)), l.maxUniformBlockBindings)
    && Answered(gl(Get(MaxUniformBlockSize)), l.maxUniformBlockSize)
    && Answered(gl(Get(MaxColorAttachments)), l.maxFramebufferColorAttachments)
    && OptionalMatches(l.maxFramebufferAttachmentWidth, gl(Get(MaxFramebufferWidth)))
    && OptionalMatches(l.maxFramebufferAttachmentHeight, gl(Get(MaxFramebufferHeight)))
    && OptionalMatches(l.maxViewportWidth, gl(GetIndexed(MaxViewportDims, 0)))
    && OptionalMatches(l.maxViewportHeight, gl(GetIndexed(MaxViewportDims, 1)))
  }

  /** The parameters whose answer must be a value. */
  predicate IsRequired(p: GlParameter) {
    || p == MaxCombinedTextureImageUnits || p == MaxTextureSize || p == Max3dTextureSize
    || p == MaxArrayTextureLayers || p == MaxUniformBufferBindings || p == MaxUniformBlockSize
    || p == MaxColorAttachments
  }

  /** `Limits::collect`: the queries are made in declaration order and the
      first one that is refused decides the error. */
  function CollectLimits(gl: Query -> GlAnswer): (r: Outcome<Limits, UnsupportedContext>)
    ensures r.Ok? <==> AllAccepted(gl)
    ensures r.Ok? ==> FromI32(r.value) && LimitsMatch(r.value, gl)
    ensures r.Err? && r.error.UnsupportedParameter? ==>
              IsRequired(r.error.parameter) && gl(Get(r.error.parameter)).InvalidEnum?
    ensures r.Err? ==> r.error.UnsupportedParameter? || r.error.InvalidParameter?
    ensures r.Err? && r.error.InvalidParameter? ==> r.error.value < 0
  {
    var maxTextures :- RequiredLimit(gl(Get(MaxCombinedTextureImageUnits)), MaxCombinedTextureImageUnits);
    var maxTextureSize :- RequiredLimit(gl(Get(MaxTextureSize)), MaxTextureSize);
    var maxTextureSize3d :- RequiredLimit(gl(Get(Max3dTextureSize)), Max3dTextureSize);
    var maxTextureLayers :- RequiredLimit(gl(Get(MaxArrayTextureLayers)), MaxArrayTextureLayers);
    var maxBindings :- RequiredLimit(gl(Get(MaxUniformBufferBindings)), MaxUniformBufferBindings);
    var maxBlockSize :- RequiredLimit(gl(Get(MaxUniformBlockSize)), MaxUniformBlockSize);
    var maxColor :- RequiredLimit(gl(Get(MaxColorAttachments)), MaxColorAttachments);
    var width :- OptionalLimit(gl(Get(MaxFramebufferWidth)), MaxFramebufferWidth);
    var height :- OptionalLimit(gl(Get(MaxFramebufferHeight)), MaxFramebufferHeight);
    var viewWidth :- OptionalLimit(gl(GetIndexed(MaxViewportDims, 0)), MaxViewportDims);
    var viewHeight :- OptionalLimit(gl(GetIndexed(MaxViewportDims, 1)), MaxViewportDims);
    Ok(Limits(maxTextures, maxTextureSize, maxTextureSize3d, maxTextureLayers,
              maxBindings, maxBlockSize, maxColor, width, height, viewWidth, viewHeight))
  }

  // ---------------------------------------------------------------------
  // Information::collect
  // ---------------------------------------------------------------------

  const MIN_CORE: Release := Release(4, 3)
  const MIN_ES: Release := Release(3, 0)
  const MIN_WEB: Release := Release(2, 0)

  function MinimumRelease(p: Profile): Release {
    match p
    case Core => MIN_CORE
    case Es => MIN_ES
    case Web => MIN_WEB
  }

  /** The comparison of the version string's release with the dedicated
      MAJOR/MINOR queries: both present and representable as `u32` must
      agree with the string; both absent is accepted; anything else is an
      invalid release. */
  function CheckDedicated(release: Release, major: Option<int>, minor: Option<int>)
    : (r: Outcome<(), UnsupportedContext>)
    ensures !r.Panic?
    ensures r.Ok? <==> ((major.None? && minor.None?)
                        || (major == Some(release.major as int) && minor == Some(release.minor as int)))
    ensures r.Err? && r.error.InvalidRelease? <==>
              (!((major.Some? && major.value >= 0) && (minor.Some? && minor.value >= 0))
               && !(major.None? && minor.None?))
  {
    match (major, minor)
    case (None, None) => Ok(())
    case (Some(a), Some(b)) =>
      if a >= 0 && b >= 0 then
        if Release(a, b) != release then
          Err(MismatchedRelease((release.major, release.minor), (a, b)))
        else Ok(())
      else Err(InvalidRelease(major, minor))
    case _ => Err(InvalidRelease(major, minor))
  }

  /** The answers to the dedicated MAJOR/MINOR queries as `collect` reads
      them, or `None` when either query raised an unexpected GL error. */
  function Dedicated(ctx: Context): Option<(Option<int>, Option<int>)> {
    var major := CheckedGet(ctx.answer(Get(MajorVersion)));
    var minor := CheckedGet(ctx.answer(Get(MinorVersion)));
    if major.Pass? && minor.Pass? then Some((major.value, minor.value)) else None
  }

  /** The version string parses and agrees with the dedicated queries. */
  predicate ReleaseAgreed(ctx: Context) {
    && Dedicated(ctx).Some?
    && ParseVersion(ctx.version).Ok?
    && CheckDedicated(ParseVersion(ctx.version).value.release, Dedicated(ctx).value.0, Dedicated(ctx).value.1).Ok?
  }

  /** `Information::collect`: the dedicated queries, the version string
      and their agreement are checked first; a context that passes them is
      decided by `Admit`. */
  function Collect(ctx: Context): (r: Outcome<Information, UnsupportedContext>)
    ensures r.Ok? ==> ParseVersion(ctx.version) == Ok(r.value.version)
    ensures r.Ok? ==> ReleaseAgreed(ctx)
    ensures r.Ok? ==> ReleaseLe(MinimumRelease(r.value.version.profile), r.value.version.release)
    ensures ReleaseAgreed(ctx) ==> r == Admit(ParseVersion(ctx.version).value, ctx.answer)
    ensures r.Err? && r.error.UnsupportedRelease? ==> ReleaseAgreed(ctx)
    ensures r.Ok? ==> (r.value.capabilities.bufferMapping <==> r.value.version.profile != Web)
    ensures r.Ok? ==> CollectLimits(ctx.answer) == Ok(r.value.limits) && FromI32(r.value.limits)
    ensures (&& ParseVersion(ctx.version).Err?
             && !ctx.answer(Get(MajorVersion)).OtherError?
             && !ctx.answer(Get(MinorVersion)).OtherError?)
            ==> r == Err(InvalidVersion(ctx.version))
  {
    var version :- Precheck(ctx);
    Admit(version, ctx.answer)
  }

  /** The checks `collect` makes before the release gate: the dedicated
      MAJOR/MINOR queries (an unexpected GL error panics), the version
      string, and their agreement. */
  function Precheck(ctx: Context): (r: Outcome<Version, UnsupportedContext>)
    ensures r.Ok? <==> ReleaseAgreed(ctx)
    ensures r.Ok? ==> r.value == ParseVersion(ctx.version).value
    ensures r.Err? ==> !r.error.UnsupportedRelease?
    ensures (&& ParseVersion(ctx.version).Err?
             && !ctx.answer(Get(MajorVersion)).OtherError?
             && !ctx.answer(Get(MinorVersion)).OtherError?)
            ==> r == Err(InvalidVersion(ctx.version))
  {
    var major :- Lift<Option<int>, UnsupportedContext>(CheckedGet(ctx.answer(Get(MajorVersion))));
    var minor :- Lift<Option<int>, UnsupportedContext>(CheckedGet(ctx.answer(Get(MinorVersion))));
    var version :- match ParseVersion(ctx.version)
      case Ok(v) => Ok(v)
      case _ => Err(InvalidVersion(ctx.version));
    var _ :- CheckDedicated(version.release, major, minor);
    Ok(version)
  }

  /** The tail of `collect`, once the version is known: the release gate,
      then the limits. Only a release below its profile's minimum is
      rejected as unsupported; one at the minimum or above is admitted
      when the limits can be collected. */
  function Admit(version: Version, gl: Query -> GlAnswer): (r: Outcome<Information, UnsupportedContext>)
    ensures r.Panic? ==> CollectLimits(gl).Panic?
    ensures (r.Err? && r.error.UnsupportedRelease?) <==> !ReleaseLe(MinimumRelease(version.profile), version.release)
    ensures r.Err? && r.error.UnsupportedRelease? ==>
              r.error == UnsupportedRelease(version.profile, (version.release.major, version.release.minor))
    ensures r.Ok? <==> ReleaseLe(MinimumRelease(version.profile), version.release) && CollectLimits(gl).Ok?
    ensures r.Ok? ==> && r.value.version == version
                      && (r.value.capabilities.bufferMapping <==> version.profile != Web)
                      && CollectLimits(gl) == Ok(r.value.limits) && FromI32(r.value.limits)
  {
    var _ :- if ReleaseLe(MinimumRelease(version.profile), version.release) then Ok(())
             else Err(UnsupportedRelease(version.profile, (version.release.major, version.release.minor)));
    var limits :- CollectLimits(gl);
    Ok(Information(version, Capabilities(version.profile != Web), limits))
  }

  /** The release gate of `collect`: once the version string is parsed and
      agrees with the dedicated queries, the context is rejected as
      unsupported exactly when its release is below its profile's minimum
      (4.3 for desktop, 3.0 for embedded, 2.0 for web), naming that profile
      and release, and accepted exactly when the release is at least the
      minimum and the limits can be collected. An unsupported release is
      never reported for a context that fails an earlier check. */
  lemma CollectMinimumRelease(ctx: Context)
    ensures ReleaseAgreed(ctx) ==>
              var r := Collect(ctx);
              var v := ParseVersion(ctx.version).value;
              && ((r.Err? && r.error.UnsupportedRelease?) <==> !ReleaseLe(MinimumRelease(v.profile), v.release))
              && (r.Err? && r.error.UnsupportedRelease? ==>
                    r.error == UnsupportedRelease(v.profile, (v.release.major, v.release.minor)))
              && (r.Ok? <==> ReleaseLe(MinimumRelease(v.profile), v.release) && CollectLimits(ctx.answer).Ok?)
    ensures !ReleaseAgreed(ctx) ==> !(Collect(ctx).Err? && Collect(ctx).error.UnsupportedRelease?)
  {
  }

  /** A context whose dedicated queries answer `major` and `minor`, and
      every limit query 16. */
  function AnswersRelease(major: I32, minor: I32): Query -> GlAnswer {
    (q: Query) => if q == Get(MajorVersion) then Value(major)
                  else if q == Get(MinorVersion) then Value(minor)
                  else Value(16)
  }

  lemma RenderEs29()
    ensures RenderVersion(Version(Es, Release(2, 9), ""), "") == "OpenGL ES 2.9"
  {
    assert ToDecimal(2) == "2" && ToDecimal(9) == "9";
  }

  /** OpenGL ES 2.9 is one minor release short of the minimum, and is
      rejected as unsupported. */
  lemma CollectRejectsEs29()
    ensures Collect(Context("OpenGL ES 2.9", AnswersRelease(2, 9)))
            == Err(UnsupportedRelease(Es, (2, 9)))
  {
    RenderEs29();
    ParseVersionRoundTrip(Version(Es, Release(2, 9), ""), "");
  }

  /** OpenGL ES 3.0, the minimum itself, is accepted. */
  lemma CollectAcceptsEs30()
    ensures var r := Collect(Context("OpenGL ES 3.0", AnswersRelease(3, 0)));
            r.Ok? && r.value.version == Version(Es, Release(3, 0), "")
  {
    var ctx := Context("OpenGL ES 3.0", AnswersRelease(3, 0));
    ParseVersionExampleEs();
    assert Dedicated(ctx) == Some((Some(3), Some(0)));
    assert ReleaseAgreed(ctx);
    LimitsOfSixteen(3, 0);
    CollectMinimumRelease(ctx);
  }

  lemma LimitsOfSixteen(major: I32, minor: I32)
    ensures CollectLimits(AnswersRelease(major, minor)).Ok?
  {
    assert AllAccepted(AnswersRelease(major, minor));
  }
}

=== FILE: mesh.dfy ===
/** Loading a mesh from a parsed OBJ model: the triangles are validated
    one by one, every distinct corner vertex is kept once in a sorted
    table, and each corner is replaced by its position in that table.

    A corner is identified by its key, the nine `OrderedFloat`s of its
    position, normal and texture coordinates compared lexicographically.
    The key is encoded here as one integer whose order is that
    lexicographic order. The geometric tests that can reject a triangle
    (a null surface normal, a degenerate triangle) are float computations
    and are parameters; so is the averaging and normalising of tangent
    frames, which decides the normal, tangent and bitangent of the output
    vertices. */
module Mesh {
  import opened Outcomes
  import opened SupportVertex

  /** A vertex of the OBJ model. */
  datatype ObjVertex = ObjVertex(position: Vec3, normal: Vec3, texture: Vec3)

  datatype Obj = Obj(vertices: seq<ObjVertex>, indices: seq<nat>)

  /** `InvalidMesh`, without the variant `from_obj` never returns. */
  datatype MeshError =
    | DegenerateTriangle(vertex0: ObjVertex, vertex1: ObjVertex, vertex2: ObjVertex,
                         edgeCross: F32, uvCross: F32)
    | NullSurfaceNormal
    | InnumerableVertices

  /** The float computations of `from_obj`, in the order they run:
      whether the mean normal of a triangle has length zero; for a
      degenerate triangle, its two cross-product lengths; and for every
      key, the normalised normal, mean tangent and mean bitangent of the
      output vertex, or nothing when one of their lengths is zero. */
  datatype Floats = Floats(
    nullNormal: (ObjVertex, ObjVertex, ObjVertex) -> bool,
    degenerate: (ObjVertex, ObjVertex, ObjVertex) -> Option<(F32, F32)>,
    frame: nat -> Option<(Vec3, Vec3, Vec3)>)

  // ---------------------------------------------------------------------
  // Keys
  // ---------------------------------------------------------------------

  /** Number of distinct ranks of an `OrderedFloat<f32>`, and thus the
      radix of the key encoding. */
  const RADIX: nat := 0x1_0000_0000

  /** The position of a float in `OrderedFloat`'s total order, shifted to
      be non-negative: negative values below positive ones, the two zeros
      equal, every NaN equal and above everything else. */
  function Rank(f: F32): (r: nat)
    ensures r < RADIX
  {
    if IsNaN(f) then RADIX - 1
    else if IsNegative(f) then 0x8000_0000 - Magnitude(f)
    else 0x8000_0000 + Magnitude(f)
  }

  /** Ranks order numbers as `f32`'s `<` does: for two non-NaN floats, a
      lower rank means a smaller number, and equal ranks mean neither is
      smaller (so the two zeros share a rank). */
  lemma RankOrder(a: F32, b: F32)
    requires !IsNaN(a) && !IsNaN(b)
    ensures Rank(a) < Rank(b) <==> F32Less(a, b)
    ensures Rank(a) == Rank(b) <==> !F32Less(a, b) && !F32Less(b, a)
  {
  }

  /** Every NaN takes the top rank, which no number reaches: NaNs are
      equal to each other and greater than everything else, as in
      `OrderedFloat`. */
  lemma RankNaN(f: F32)
    ensures IsNaN(f) <==> Rank(f) == RADIX - 1
  {
  }

  /** `-0.0` and `0.0` share a rank. */
  lemma RankZeros()
    ensures Rank(F32(0x8000_0000)) == Rank(F32_ZERO)
  {
    assert Magnitude(F32(0x8000_0000)) == 0 && Magnitude(F32_ZERO) == 0;
    assert !IsNaN(F32(0x8000_0000)) && !IsNaN(F32_ZERO);
  }

  /** The nine ranks of a key, in field order. */
  function Digits(v: ObjVertex): (ds: seq<nat>)
    ensures |ds| == 9 && forall i :: 0 <= i < 9 ==> ds[i] < RADIX
  {
    [ Rank(v.position.x), Rank(v.position.y), Rank(v.position.z),
      Rank(v.normal.x), Rank(v.normal.y), Rank(v.normal.z),
      Rank(v.texture.x), Rank(v.texture.y), Rank(v.texture.z) ]
  }

  /** Digits read as a number, most significant first. */
  function Encode(ds: seq<nat>): nat {
    if |ds| == 0 then 0 else Encode(ds[..|ds| - 1]) * RADIX + ds[|ds| - 1]
  }

  /** Lexicographic order on equally long digit strings. */
  predicate LexLess(ds: seq<nat>, es: seq<nat>)
    requires |ds| == |es|
  {
    |ds| > 0 && (LexLess(ds[..|ds| - 1], es[..|es| - 1])
                 || (ds[..|ds| - 1] == es[..|es| - 1] && ds[|ds| - 1] < es[|es| - 1]))
  }

  /** The key of a vertex. */
  function Key(v: ObjVertex): nat {
    Encode(Digits(v))
  }

  /** The encoding is faithful: it orders digit strings lexicographically
      and identifies exactly the equal ones. */
  lemma {:induction false} EncodeOrder(ds: seq<nat>, es: seq<nat>)
    requires |ds| == |es|
    requires forall i :: 0 <= i < |ds| ==> ds[i] < RADIX && es[i] < RADIX
    ensures Encode(ds) < Encode(es) <==> LexLess(ds, es)
    ensures Encode(ds) == Encode(es) <==> ds == es
  {
    if |ds| > 0 {
      var n := |ds| - 1;
      var a, c := Encode(ds[..n]), Encode(es[..n]);
      EncodeOrder(ds[..n], es[..n]);
      if a < c {
        assert a * RADIX + RADIX <= c * RADIX;
      } else if c < a {
        assert c * RADIX + RADIX <= a * RADIX;
        assert !LexLess(ds[..n], es[..n]) by {
          EncodeOrder(ds[..n], es[..n]);
        }
        assert ds != es by {
          assert ds[..n] != es[..n];
        }
      } else {
        assert ds[..n] == es[..n];
        if ds[n] == es[n] {
          assert ds == ds[..n] + [ds[n]] && es == es[..n] + [es[n]];
        }
      }
    }
  }

  /** Two vertices share a key exactly when all nine ranks agree, and keys
      compare as the derived lexicographic order does. */
  lemma KeyOrder(u: ObjVertex, v: ObjVertex)
    ensures Key(u) < Key(v) <==> LexLess(Digits(u), Digits(v))
    ensures Key(u) == Key(v) <==> Digits(u) == Digits(v)
  {
    EncodeOrder(Digits(u), Digits(v));
  }

  // ---------------------------------------------------------------------
  // The sorted vertex table
  // ---------------------------------------------------------------------

  /** An entry of the `BTreeMap` of distinct corners: the first vertex seen
      with a key, and that key. */
  datatype Entry = Entry(key: nat, vertex: ObjVertex)

  predicate StrictlySorted(es: seq<Entry>) {
    forall i, j :: 0 <= i < j < |es| ==> es[i].key < es[j].key
  }

  /** Some entry of the table has the key. */
  predicate Has(es: seq<Entry>, key: nat) {
    exists i :: 0 <= i < |es| && es[i].key == key
  }

  /** `BTreeMap::entry(..).or_insert_with(..)`: a new key is inserted in
      order, a key already present keeps its first vertex. */
  function Insert(es: seq<Entry>, e: Entry): (r: seq<Entry>)
    requires StrictlySorted(es)
    ensures StrictlySorted(r)
    ensures forall key :: Has(r, key) <==> Has(es, key) || key == e.key
    ensures forall x :: x in r ==> x in es || x == e
    ensures Has(es, e.key) ==> r == es
  {
    if |es| == 0 then
      assert [e][0] == e;
      [e]
    else if e.key < es[0].key then
      InsertFront(es, e);
      [e] + es
    else if e.key == es[0].key then es
    else
      var rest := Insert(es[1..], e);
      InsertLater(es, e, rest);
      [es[0]] + rest
  }

  lemma InsertFront(es: seq<Entry>, e: Entry)
    requires StrictlySorted(es) && |es| > 0 && e.key < es[0].key
    ensures StrictlySorted([e] + es)
    ensures forall key :: Has([e] + es, key) <==> Has(es, key) || key == e.key
    ensures !Has(es, e.key)
  {
    var r := [e] + es;
    forall key | Has(r, key)
      ensures Has(es, key) || key == e.key
    {
      var i :| 0 <= i < |r| && r[i].key == key;
      if i > 0 {
        assert r[i] == es[i - 1];
      }
    }
    forall key | Has(es, key)
      ensures Has(r, key)
    {
      var i :| 0 <= i < |es| && es[i].key == key;
      assert r[i + 1] == es[i];
    }
    assert r[0] == e;
  }

  lemma InsertLater(es: seq<Entry>, e: Entry, rest: seq<Entry>)
    requires StrictlySorted(es) && |es| > 0 && es[0].key < e.key
    requires StrictlySorted(rest)
    requires forall key :: Has(rest, key) <==> Has(es[1..], key) || key == e.key
    requires forall x :: x in rest ==> x in es[1..] || x == e
    requires Has(es[1..], e.key) ==> rest == es[1..]
    ensures StrictlySorted([es[0]] + rest)
    ensures forall key :: Has([es[0]] + rest, key) <==> Has(es, key) || key == e.key
    ensures forall x :: x in [es[0]] + rest ==> x in es || x == e
    ensures Has(es, e.key) ==> [es[0]] + rest == es
  {
    assert es == [es[0]] + es[1..];
    InsertLaterSorted(es, e, rest);
    forall key
      ensures Has([es[0]] + rest, key) <==> Has(es, key) || key == e.key
    {
      HasCons(es[0], rest, key);
      HasCons(es[0], es[1..], key);
    }
    if Has(es, e.key) {
      HasCons(es[0], es[1..], e.key);
    }
  }

  /** A key is in a table with a first entry exactly when it is that
      entry's key or in the rest. */
  lemma HasCons(head: Entry, tail: seq<Entry>, key: nat)
    ensures Has([head] + tail, key) <==> head.key == key || Has(tail, key)
  {
    var r := [head] + tail;
    if Has(r, key) {
      var i :| 0 <= i < |r| && r[i].key == key;
      if i > 0 {
        assert r[i] == tail[i - 1];
      }
    }
    if Has(tail, key) {
      var i :| 0 <= i < |tail| && tail[i].key == key;
      assert r[i + 1] == tail[i];
    }
    assert r[0] == head;
  }

  lemma InsertLaterSorted(es: seq<Entry>, e: Entry, rest: seq<Entry>)
    requires StrictlySorted(es) && |es| > 0 && es[0].key < e.key
    requires StrictlySorted(rest)
    requires forall x :: x in rest ==> x in es[1..] || x == e
    ensures StrictlySorted([es[0]] + rest)
  {
    var r := [es[0]] + rest;
    forall j | 0 < j < |r|
      ensures es[0].key < r[j].key
    {
      assert r[j] == rest[j - 1];
      if r[j] != e {
        assert r[j] in es[1..];
        var m :| 0 <= m < |es[1..]| && es[1..][m] == r[j];
        assert es[m + 1] == r[j];
      }
    }
  }

  /** `slice::binary_search` over a strictly sorted table: the position of
      the entry with the given key, if there is one. */
  method BinarySearch(es: seq<Entry>, key: nat) returns (r: Option<nat>)
    requires StrictlySorted(es)
    ensures r.Some? ==> r.value < |es| && es[r.value].key == key
    ensures r.None? <==> !Has(es, key)
  {
    var lo, hi := 0, |es|;
    while lo < hi
      invariant 0 <= lo <= hi <= |es|
      invariant forall i :: 0 <= i < lo ==> es[i].key < key
      invariant forall i :: hi <= i < |es| ==> key < es[i].key
    {
      var mid := lo + (hi - lo) / 2;
      if es[mid].key < key {
        lo := mid + 1;
      } else if key < es[mid].key {
        hi := mid;
      } else {
        return Some(mid);
      }
    }
    return None;
  }

  /** The position of a key present in a strictly sorted table. */
  function IndexOf(es: seq<Entry>, key: nat): (i: nat)
    requires StrictlySorted(es) && Has(es, key)
    ensures i < |es| && es[i].key == key
    ensures forall j :: 0 <= j < |es| && es[j].key == key ==> j == i
  {
    var i :| 0 <= i < |es| && es[i].key == key;
    i
  }

  // ---------------------------------------------------------------------
  // Loading
  // ---------------------------------------------------------------------

  /** Number of complete triangles; a trailing partial triplet is ignored. */
  function FaceCount(model: Obj): nat {
    |model.indices| / 3
  }

  /** Index entry `i` names a vertex the model has. */
  predicate Named(model: Obj, i: nat)
    requires i < |model.indices|
  {
    model.indices[i] < |model.vertices|
  }

  /** The vertex index entry `i` names; entry `3 * t + c` is corner `c` of
      triangle `t`. */
  function CornerAt(model: Obj, i: nat): ObjVertex
    requires i < |model.indices| && Named(model, i)
  {
    model.vertices[model.indices[i]]
  }

  /** Triangle `t` only names vertices the model has. */
  predicate InRange(model: Obj, t: nat)
    requires t < FaceCount(model)
  {
    Named(model, 3 * t) && Named(model, 3 * t + 1) && Named(model, 3 * t + 2)
  }

  /** Triangle `t` names existing vertices and passes both tests. */
  predicate Accepted(model: Obj, fl: Floats, t: nat)
    requires t < FaceCount(model)
  {
    && InRange(model, t)
    && var (v0, v1, v2) := (CornerAt(model, 3 * t), CornerAt(model, 3 * t + 1), CornerAt(model, 3 * t + 2));
       !fl.nullNormal(v0, v1, v2) && fl.degenerate(v0, v1, v2).None?
  }

  /** The outcome of validating triangle `t`: a panic when it names a
      missing vertex, else the first test it fails. */
  function Rejection(model: Obj, fl: Floats, t: nat): (r: Outcome<(), MeshError>)
    requires t < FaceCount(model) && !Accepted(model, fl, t)
    ensures !r.Ok?
    ensures r.Panic? <==> !InRange(model, t)
    ensures r.Err? ==> r.error.NullSurfaceNormal? || r.error.DegenerateTriangle?
    ensures r.Err? && r.error.DegenerateTriangle? ==>
              !fl.nullNormal(r.error.vertex0, r.error.vertex1, r.error.vertex2)
              && r.error.vertex0 == CornerAt(model, 3 * t)
              && r.error.vertex1 == CornerAt(model, 3 * t + 1)
              && r.error.vertex2 == CornerAt(model, 3 * t + 2)
  {
    if !InRange(model, t) then Panic("index out of bounds")
    else
      var v0, v1, v2 := CornerAt(model, 3 * t), CornerAt(model, 3 * t + 1), CornerAt(model, 3 * t + 2);
      if fl.nullNormal(v0, v1, v2) then Err(NullSurfaceNormal)
      else
        var (edgeCross, uvCross) := fl.degenerate(v0, v1, v2).value;
        Err(DegenerateTriangle(v0, v1, v2, edgeCross, uvCross))
  }

  /** The entry for the vertex index entry `i` names. */
  function EntryAt(model: Obj, key: ObjVertex -> nat, i: nat): (e: Entry)
    requires i < |model.indices| && Named(model, i)
    ensures e.vertex == CornerAt(model, i) && e.key == key(e.vertex)
  {
    Entry(key(CornerAt(model, i)), CornerAt(model, i))
  }

  /** Entry `x` records a vertex named by one of the first `n` index
      entries, under that vertex's key. */
  predicate RecordsCorner(model: Obj, key: ObjVertex -> nat, n: nat, x: Entry) {
    && x.key == key(x.vertex)
    && exists i :: 0 <= i < n && Names(model, i, x.vertex)
  }

  /** Index entry `i` names the vertex `v`. */
  predicate Names(model: Obj, i: nat, v: ObjVertex) {
    i < |model.indices| && model.indices[i] < |model.vertices| && model.vertices[model.indices[i]] == v
  }

  /** The table is sorted, holds the key of every vertex the first `n`
      index entries name, and holds nothing else. */
  predicate Collected(model: Obj, key: ObjVertex -> nat, n: nat, es: seq<Entry>)
    requires n <= |model.indices|
  {
    && StrictlySorted(es)
    && (forall i :: 0 <= i < n ==> Named(model, i))
    && (forall i :: 0 <= i < n ==> Has(es, key(CornerAt(model, i))))
    && (forall x :: x in es ==> RecordsCorner(model, key, n, x))
  }

  /** The first loop of `Mesh::from_obj`: validate the triangles in order,
      stopping at the first rejected one, and collect the distinct corners
      in the order of `key`. `stop` is the number of triangles accepted.
      Corners are only recorded in a table the loop returns on success, so
      validating first and collecting afterwards gives the same outcome. */
  method CollectFaces(model: Obj, fl: Floats, key: ObjVertex -> nat) returns (r: Outcome<seq<Entry>, MeshError>, stop: nat)
    ensures stop <= FaceCount(model)
    ensures forall t :: 0 <= t < stop ==> Accepted(model, fl, t)
    ensures r.Ok? <==> stop == FaceCount(model)
    ensures !r.Ok? ==> !Accepted(model, fl, stop) && r == Rejection(model, fl, stop).PropagateFailure()
    ensures r.Ok? ==> Collected(model, key, 3 * stop, r.value)
  {
    stop := FirstRejected(model, fl);
    if stop < FaceCount(model) {
      return Rejection(model, fl, stop).PropagateFailure(), stop;
    }
    var es, n := CollectCorners(model, key);
    assert n < FaceCount(model) ==> Accepted(model, fl, n);
    return Ok(es), stop;
  }

  /** The number of triangles accepted before the first rejected one. */
  method FirstRejected(model: Obj, fl: Floats) returns (stop: nat)
    ensures stop <= FaceCount(model)
    ensures forall t :: 0 <= t < stop ==> Accepted(model, fl, t)
    ensures stop < FaceCount(model) ==> !Accepted(model, fl, stop)
  {
    stop := 0;
    while stop < FaceCount(model) && Accepted(model, fl, stop)
      invariant stop <= FaceCount(model)
      invariant forall s :: 0 <= s < stop ==> Accepted(model, fl, s)
    {
      stop := stop + 1;
    }
  }

  /** Record the corners of the triangles in order, up to the first one
      naming a missing vertex. */
  method CollectCorners(model: Obj, key: ObjVertex -> nat) returns (es: seq<Entry>, n: nat)
    ensures n <= FaceCount(model) && Collected(model, key, 3 * n, es)
    ensures n < FaceCount(model) ==> !InRange(model, n)
  {
    es := [];
    n := 0;
    while n < FaceCount(model) && InRange(model, n)
      invariant n <= FaceCount(model) && Collected(model, key, 3 * n, es)
    {
      es := InsertTriangle(model, key, n, es);
      n := n + 1;
    }
  }

  /** Record the three corners of triangle `t`, whose indices are in
      range: the table then holds every corner of the first `t + 1`
      triangles and nothing else. */
  function InsertTriangle(model: Obj, key: ObjVertex -> nat, t: nat, es: seq<Entry>): (next: seq<Entry>)
    requires t < FaceCount(model) && InRange(model, t) && Collected(model, key, 3 * t, es)
    ensures Collected(model, key, 3 * (t + 1), next)
  {
    var n := 3 * t;
    var n1 := Record(model, key, n, es);
    var n2 := Record(model, key, n + 1, n1);
    assert n + 2 + 1 == 3 * (t + 1);
    Record(model, key, n + 2, n2)
  }

  /** `vertices.entry(..)` for index entry `n`: insert the vertex it names
      under its key. */
  function Record(model: Obj, key: ObjVertex -> nat, n: nat, es: seq<Entry>): (next: seq<Entry>)
    requires n < |model.indices| && Named(model, n) && Collected(model, key, n, es)
    ensures Collected(model, key, n + 1, next)
  {
    CollectOne(model, key, n, es);
    Insert(es, EntryAt(model, key, n))
  }

  /** Recording the vertex of index entry `n` extends a table collected
      over the first `n` entries to one collected over `n + 1`. */
  lemma CollectOne(model: Obj, key: ObjVertex -> nat, n: nat, es: seq<Entry>)
    requires n < |model.indices| && Named(model, n) && Collected(model, key, n, es)
    ensures Collected(model, key, n + 1, Insert(es, EntryAt(model, key, n)))
  {
    var e := EntryAt(model, key, n);
    var next := Insert(es, e);
    forall i | 0 <= i < n + 1
      ensures Named(model, i) && Has(next, key(CornerAt(model, i)))
    {
      if i < n {
        assert Has(es, key(CornerAt(model, i)));
      }
    }
    forall x | x in next
      ensures RecordsCorner(model, key, n + 1, x)
    {
      if x == e {
        assert Names(model, n, x.vertex);
      } else {
        assert RecordsCorner(model, key, n, x);
        var i :| 0 <= i < n && Names(model, i, x.vertex);
        assert 0 <= i < n + 1;
      }
    }
  }

  /** The second loop: each of the first `n` index entries, in order,
      becomes the position of its vertex's key in the table, which must
      fit in a `u32`. */
  method IndexCorners(model: Obj, key: ObjVertex -> nat, n: nat, es: seq<Entry>) returns (r: Outcome<seq<nat>, MeshError>)
    requires n <= |model.indices| && Collected(model, key, n, es)
    ensures !r.Panic?
    ensures r.Err? ==> r.error == InnumerableVertices
    ensures r.Ok? <==> forall i :: 0 <= i < n ==> IndexOf(es, key(CornerAt(model, i))) < U32_LIMIT
    ensures r.Ok? ==> |r.value| == n
    ensures r.Ok? ==> forall i :: 0 <= i < n ==> r.value[i] < |es| && es[r.value[i]].key == key(CornerAt(model, i))
  {
    var indices: seq<nat> := [];
    var i := 0;
    while i < n
      invariant i <= n && |indices| == i
      invariant forall j :: 0 <= j < i ==> indices[j] < |es| && es[indices[j]].key == key(CornerAt(model, j))
      invariant forall j :: 0 <= j < i ==> IndexOf(es, key(CornerAt(model, j))) < U32_LIMIT
    {
      var found := BinarySearch(es, key(CornerAt(model, i)));
      if found.None? {
        assert false;
      }
      if found.value >= U32_LIMIT {
        return Err(InnumerableVertices);
      }
      indices := indices + [found.value];
      i := i + 1;
    }
    return Ok(indices);
  }

  /** The third step: every entry, in key order, becomes a support vertex
      with the key's position, the first two texture coordinates and the
      computed tangent frame; a zero-length frame vector panics. */
  method BuildVertices(es: seq<Entry>, fl: Floats) returns (r: Outcome<seq<Vertex>, MeshError>)
    ensures !r.Err?
    ensures r.Ok? <==> forall j :: 0 <= j < |es| ==> fl.frame(es[j].key).Some?
    ensures r.Ok? ==> |r.value| == |es|
    ensures r.Ok? ==> forall j :: 0 <= j < |es| ==>
                        var v := es[j].vertex;
                        var (n, t, b) := fl.frame(es[j].key).value;
                        r.value[j] == NewUnchecked(v.position, Vec2(v.texture.x, v.texture.y), n, t, b)
  {
    var vs: seq<Vertex> := [];
    var j := 0;
    while j < |es|
      invariant j <= |es| && |vs| == j
      invariant forall k :: 0 <= k < j ==> fl.frame(es[k].key).Some?
      invariant forall k :: 0 <= k < j ==>
                  var v := es[k].vertex;
                  var (n, t, b) := fl.frame(es[k].key).value;
                  vs[k] == NewUnchecked(v.position, Vec2(v.texture.x, v.texture.y), n, t, b)
    {
      var frame := fl.frame(es[j].key);
      if frame.None? {
        return Panic("NTB vector length must not be zero at this point");
      }
      var v := es[j].vertex;
      var (n, t, b) := frame.value;
      vs := vs + [NewUnchecked(v.position, Vec2(v.texture.x, v.texture.y), n, t, b)];
      j := j + 1;
    }
    return Ok(vs);
  }

  /** The mesh: the support vertices, one per distinct key, and three
      indices per triangle into them. */
  datatype Mesh = Mesh(vertices: seq<Vertex>, indices: seq<nat>)

  /** `Mesh::from_obj`, also returning the table of distinct corners behind
      the output vertices. On success:
      - every triangle of the model is accepted, and there are three
        indices per complete triangle;
      - index `i` names the output vertex built from a corner with the same
        key as the vertex index entry `i` names: the same position, normal
        and texture coordinates up to `OrderedFloat` equality;
      - the table is strictly increasing in key order and holds only
        corners, so there is one output vertex per distinct key.
      A rejected triangle decides the outcome before anything else; after
      that a table position past `u32`, and only then a tangent frame. When
      every triangle is accepted, the table fits in `u32` and every key has
      a frame, the mesh is built. */
  method FromObj(model: Obj, fl: Floats) returns (r: Outcome<Mesh, MeshError>, table: seq<Entry>)
    ensures r.Ok? ==> |r.value.indices| == 3 * FaceCount(model)
    ensures r.Ok? ==> forall t :: 0 <= t < FaceCount(model) ==> Accepted(model, fl, t)
    ensures r.Ok? ==> && StrictlySorted(table)
                      && |r.value.vertices| == |table|
                      && (forall x :: x in table ==> RecordsCorner(model, Key, 3 * FaceCount(model), x))
    ensures r.Ok? ==> forall j :: 0 <= j < |table| ==>
                        Position(r.value.vertices[j]) == table[j].vertex.position
                        && Texture(r.value.vertices[j]) == Vec2(table[j].vertex.texture.x, table[j].vertex.texture.y)
    ensures r.Ok? ==> forall i :: 0 <= i < |r.value.indices| ==>
                        r.value.indices[i] < |table| && Named(model, i)
                        && table[r.value.indices[i]].key == Key(CornerAt(model, i))
    ensures (exists t :: 0 <= t < FaceCount(model) && !Accepted(model, fl, t)) ==>
              exists t :: 0 <= t < FaceCount(model) && !Accepted(model, fl, t)
                          && (forall s :: 0 <= s < t ==> Accepted(model, fl, s))
                          && r == Rejection(model, fl, t).PropagateFailure()
    ensures r.Err? && r.error.InnumerableVertices? ==> |table| > U32_LIMIT
    ensures r.Panic? && (forall t :: 0 <= t < FaceCount(model) ==> Accepted(model, fl, t)) ==>
              exists j :: 0 <= j < |table| && fl.frame(table[j].key).None?
    ensures (forall t :: 0 <= t < FaceCount(model) ==> Accepted(model, fl, t)) ==>
              && (r.Err? ==> r.error.InnumerableVertices?)
              && (|table| <= U32_LIMIT && (forall j :: 0 <= j < |table| ==> fl.frame(table[j].key).Some?) ==> r.Ok?)
  {
    var collected, stop := CollectFaces(model, fl, Key);
    if !collected.Ok? {
      return collected.PropagateFailure(), [];
    }
    table := collected.value;
    var indices := IndexCorners(model, Key, 3 * stop, table);
    if indices.Err? {
      return indices.PropagateFailure(), table;
    }
    var vertices :- BuildVertices(table, fl);
    return Ok(Mesh(vertices, indices.value)), table;
  }
}

=== FILE: outcomes.dfy ===
/** Shared result types and integer widths.

    The Rust code distinguishes three ways a call can end: it returns a
    value, it returns a recoverable error (`Err`), or it panics. The model
    keeps the three apart so that contracts can say which inputs reach
    which ending. */
module Outcomes {

  /** The result of an operation that can fail recoverably or panic. */
  datatype Outcome<+T, +E> = Ok(value: T) | Err(error: E) | Panic(reason: string) {

    predicate IsFailure() {
      !Ok?
    }

    function PropagateFailure<U>(): Outcome<U, E>
      requires !Ok?
    {
      match this
      case Err(e) => Err(e)
      case Panic(why) => Panic(why)
    }

    function Extract(): T
      requires Ok?
    {
      value
    }
  }

  /** The result of an operation whose only failure is a panic. */
  datatype Checked<+T> = Pass(value: T) | Abort(reason: string) {

    predicate IsFailure() {
      Abort?
    }

    function PropagateFailure<U>(): Checked<U>
      requires Abort?
    {
      Abort(reason)
    }

    function Extract(): T
      requires Pass?
    {
      value
    }
  }

  /** A panic-or-value result seen as an outcome with no recoverable error. */
  function Lift<T, E>(c: Checked<T>): (r: Outcome<T, E>)
    ensures r.Ok? <==> c.Pass?
    ensures r.Ok? ==> r.value == c.value
    ensures !r.Err?
  {
    match c
    case Pass(v) => Ok(v)
    case Abort(why) => Panic(why)
  }

  /** `Result::unwrap`: an error becomes a panic. */
  function Unwrap<T, E>(o: Outcome<T, E>): (r: Checked<T>)
    ensures r.Pass? <==> o.Ok?
    ensures r.Pass? ==> r.value == o.value
  {
    match o
    case Ok(v) => Pass(v)
    case Err(_) => Abort("called `Result::unwrap()` on an `Err` value")
    case Panic(why) => Abort(why)
  }

  datatype Option<+T> = None | Some(value: T)

  /** Number of values of a `u16`, `u32` and (on the 64-bit targets the
      programs run on) `usize`. */
  const U16_LIMIT: nat := 0x1_0000
  const U32_LIMIT: nat := 0x1_0000_0000
  const USIZE_LIMIT: nat := 0x1_0000_0000_0000_0000

  const U32_MAX: nat := U32_LIMIT - 1
  const I32_MAX: nat := 0x7fff_ffff
  const I32_MIN: int := -0x8000_0000

  predicate IsU32(n: int) {
    0 <= n < U32_LIMIT
  }

  predicate IsI32(n: int) {
    I32_MIN <= n <= I32_MAX
  }

  /** Rust's `u32::try_from(i32)`: defined exactly on the non-negative values. */
  function U32FromI32(v: int): (r: Option<nat>)
    requires IsI32(v)
    ensures r.Some? <==> v >= 0
    ensures r.Some? ==> r.value == v && IsU32(r.value)
  {
    if v >= 0 then Some(v) else None
  }

  /** An `f32`, kept as its IEEE 754 bit pattern: the modelled code stores,
      copies and compares floats, and every computation with them is left
      to a parameter. */
  datatype F32 = F32(bits: bv32)

  const F32_ZERO: F32 := F32(0)
  /** `f32::INFINITY`. */
  const F32_INFINITY: F32 := F32(0x7F80_0000)

  // IEEE 754 ordering of binary32 values.

  /** The sign bit is set. */
  predicate IsNegative(a: F32) {
    a.bits as int >= 0x8000_0000
  }

  /** The pattern without its sign bit: exponent then fraction. */
  function Magnitude(a: F32): (m: nat)
    ensures m < 0x8000_0000
  {
    a.bits as int % 0x8000_0000
  }

  /** All exponent bits set and a non-zero fraction: exactly the
      magnitudes above that of infinity. */
  predicate IsNaN(a: F32) {
    Magnitude(a) > 0x7F80_0000
  }

  /** `a < b` on `f32`: false when either side is NaN, and the two zeros
      are equal. */
  predicate F32Less(a: F32, b: F32) {
    && !IsNaN(a) && !IsNaN(b)
    && !(Magnitude(a) == 0 && Magnitude(b) == 0)
    && if IsNegative(a) && !IsNegative(b) then true
       else if !IsNegative(a) && IsNegative(b) then false
       else if !IsNegative(a) then Magnitude(a) < Magnitude(b)
       else Magnitude(b) < Magnitude(a)
  }

  /** `<` on `f32` is a strict order: never both ways, never reflexive. */
  lemma F32LessStrict(a: F32, b: F32)
    ensures !F32Less(a, a)
    ensures !(F32Less(a, b) && F32Less(b, a))
    ensures IsNaN(a) ==> !F32Less(a, b) && !F32Less(b, a)
  {
  }

  function Min(a: int, b: int): (r: int)
    ensures r <= a && r <= b
    ensures r == a || r == b
  {
    if a <= b then a else b
  }

  // ---------------------------------------------------------------------
  // In-memory byte images (little-endian targets)
  // ---------------------------------------------------------------------

  /** The four bytes of a 32-bit pattern, least significant first. */
  function Le32(x: bv32): (r: seq<bv8>)
    ensures |r| == 4
  {
    [(x & 0xFF) as bv8, ((x >> 8) & 0xFF) as bv8, ((x >> 16) & 0xFF) as bv8, ((x >> 24) & 0xFF) as bv8]
  }

  /** Reads back the pattern `Le32` laid out. */
  function FromLe32(b: seq<bv8>): (x: bv32)
    requires |b| == 4
  {
    (b[0] as bv32) | ((b[1] as bv32) << 8) | ((b[2] as bv32) << 16) | ((b[3] as bv32) << 24)
  }

  lemma Le32RoundTrip(x: bv32)
    ensures FromLe32(Le32(x)) == x
  {
  }

  /** The in-memory image of an `f32`. */
  function F32Bytes(f: F32): (r: seq<bv8>)
    ensures |r| == 4 && FromLe32(r) == f.bits
  {
    Le32RoundTrip(f.bits);
    Le32(f.bits)
  }

  /** The in-memory image of a sequence of `f32`s, back to back. */
  function F32sBytes(fs: seq<F32>): (r: seq<bv8>)
    ensures |r| == 4 * |fs|
  {
    if |fs| == 0 then [] else F32sBytes(fs[..|fs| - 1]) + F32Bytes(fs[|fs| - 1])
  }

  /** The `i`-th float of a sequence occupies bytes `4i .. 4i + 4`. */
  lemma {:induction false} F32sBytesAt(fs: seq<F32>, i: nat)
    requires i < |fs|
    ensures F32sBytes(fs)[4 * i..4 * i + 4] == F32Bytes(fs[i])
  {
    var n := |fs| - 1;
    if i < n {
      F32sBytesAt(fs[..n], i);
    }
  }

  lemma {:induction false} F32sBytesAppend(a: seq<F32>, b: seq<F32>)
    ensures F32sBytes(a + b) == F32sBytes(a) + F32sBytes(b)
    decreases |b|
  {
    if |b| == 0 {
      assert a + b == a;
    } else {
      var n := |b| - 1;
      assert (a + b)[..|a + b| - 1] == a + b[..n];
      F32sBytesAppend(a, b[..n]);
      assert b[..n] + [b[n]] == b;
    }
  }

  /** `u16`. */
  newtype uint16 = x: int | 0 <= x < 0x1_0000

  /** The two bytes of a `u16`, least significant first: read back
      little-endian they give the index's 16-bit pattern. */
  function Le16(x: uint16): (r: seq<bv8>)
    ensures |r| == 2 && FromLe16(r) == x as bv16
  {
    var b := x as bv16;
    [(b & 0xFF) as bv8, (b >> 8) as bv8]
  }

  /** Reads back the pattern `Le16` laid out. */
  function FromLe16(b: seq<bv8>): (x: bv16)
    requires |b| == 2
  {
    (b[0] as bv16) | ((b[1] as bv16) << 8)
  }

  /** The image of a `u16` index list. */
  function IndexData(indices: seq<uint16>): (r: seq<bv8>)
    ensures |r| == 2 * |indices|
  {
    var pieces := seq(|indices|, i requires 0 <= i < |indices| => Le16(indices[i]));
    ConcatUniform(pieces, 2);
    Concat(pieces)
  }

  /** The elements of `xs` back to back. */
  function Concat<T>(xs: seq<seq<T>>): (r: seq<T>) {
    if |xs| == 0 then [] else Concat(xs[..|xs| - 1]) + xs[|xs| - 1]
  }

  /** When every piece has `size` elements, piece `i` sits at
      `i * size .. (i + 1) * size` and the whole is `|xs| * size` long. */
  lemma ConcatUniform<T>(xs: seq<seq<T>>, size: nat)
    requires forall i :: 0 <= i < |xs| ==> |xs[i]| == size
    ensures |Concat(xs)| == |xs| * size
    ensures forall i :: 0 <= i < |xs| ==> (i + 1) * size <= |Concat(xs)| && Concat(xs)[i * size..(i + 1) * size] == xs[i]
  {
    ConcatLength(xs, size);
    forall i | 0 <= i < |xs|
      ensures (i + 1) * size <= |Concat(xs)| && Concat(xs)[i * size..(i + 1) * size] == xs[i]
    {
      ConcatPiece(xs, size, i);
    }
  }

  lemma {:induction false} ConcatLength<T>(xs: seq<seq<T>>, size: nat)
    requires forall i :: 0 <= i < |xs| ==> |xs[i]| == size
    ensures |Concat(xs)| == |xs| * size
  {
    if |xs| > 0 {
      ConcatLength(xs[..|xs| - 1], size);
    }
  }

  lemma {:induction false} ConcatPiece<T>(xs: seq<seq<T>>, size: nat, i: nat)
    requires forall k :: 0 <= k < |xs| ==> |xs[k]| == size
    requires i < |xs|
    ensures (i + 1) * size <= |Concat(xs)| && Concat(xs)[i * size..(i + 1) * size] == xs[i]
  {
    var n := |xs| - 1;
    var front, last := Concat(xs[..n]), xs[n];
    var lo, hi := i * size, (i + 1) * size;
    assert hi == lo + size;
    ConcatLength(xs[..n], size);
    assert Concat(xs) == front + last;
    if i < n {
      ConcatPiece(xs[..n], size, i);
      assert xs[..n][i] == xs[i];
      assert hi <= |front|;
      assert (front + last)[lo..hi] == front[lo..hi];
    } else {
      assert |front| == lo;
      assert (front + last)[lo..hi] == last;
    }
  }

  lemma {:induction false} MulLe(a: nat, b: nat, s: nat)
    requires a <= b
    ensures a * s <= b * s
  {
    assert b * s == a * s + (b - a) * s;
  }
}

=== FILE: render.dfy ===
/** The snow scene's renderer: vectors of uniform items stored in uniform
    buffers, the upload of static geometry, and the per-frame refresh and
    draw calls.

    Shader compilation and pipeline creation for the two meshes go
    through the device's oracles and are not repeated here; the vertex
    coordinates of the two static meshes are floats that only their count
    matters for. Mapping a buffer for writing always succeeds here. */
module Render {
  import opened Outcomes
  import opened Info
  import opened Resources
  import opened Binding
  import opened Device
  import opened Entity
  import opened Scene
  import opened SupportVertex

  // ---------------------------------------------------------------------
  // UniformVec
  // ---------------------------------------------------------------------

  /** A vector of fixed-size items kept in a uniform buffer: `maxItems`
      items fit, the first `items` of them are populated. `contents` is
      what the buffer holds. */
  datatype UniformVec = UniformVec(buffer: Buffer, itemSize: nat, maxItems: nat, items: nat, contents: seq<bv8>)

  /** What every vector built by `WithCapacity` satisfies: the buffer holds
      exactly `maxItems` items and fits in one uniform block. */
  predicate VecValid(limits: Limits, v: UniformVec) {
    && 0 < v.itemSize < U32_LIMIT
    && v.items <= v.maxItems
    && v.buffer.len == v.maxItems * v.itemSize == |v.contents|
    && v.buffer.len <= limits.maxUniformBlockSize
  }

  /** `UniformVec::capacity`. */
  function Capacity(v: UniformVec): nat {
    v.maxItems
  }

  /** `UniformVec::len`. */
  function Length(v: UniformVec): nat {
    v.items
  }

  /** How many items of `size` bytes `with_capacity` keeps room for: the
      requested capacity, or fewer when a uniform block cannot hold that
      many. */
  function ClippedCount(block: nat, size: nat, capacity: nat): (m: nat)
    requires size > 0
    ensures m <= capacity && m * size <= block
    ensures m == capacity || (m + 1) * size > block
  {
    var fit := block / size;
    assert fit * size <= block < (fit + 1) * size;
    if fit <= capacity then fit
    else
      MulLe(capacity, fit, size);
      capacity
  }

  /** `UniformVec::with_capacity`: room for as many items as the caller asks
      for, clipped to what one uniform block can hold. Panics when the item
      size does not fit a `u32`, when it is zero (the division), and when
      the buffer cannot be created. */
  function WithCapacity(dev: Device, itemSize: nat, capacity: nat, gl: GlCreation): (r: Checked<UniformVec>)
    requires Valid(dev) && IsU32(capacity)
    ensures r.Pass? <==> 0 < itemSize < U32_LIMIT && gl.Created?
    ensures r.Pass? ==> var v := r.value;
                        && VecValid(LimitsOf(dev), v)
                        && v.itemSize == itemSize && v.items == 0
                        && v.maxItems == ClippedCount(LimitsOf(dev).maxUniformBlockSize, itemSize, capacity)
                        && v.buffer.name == gl.name
  {
    if itemSize >= U32_LIMIT then Abort("The size of one element in this buffer does not fit into an unsigned 32-bit integer.")
    else if itemSize == 0 then Abort("attempt to divide by zero")
    else
      var maxItems := ClippedCount(LimitsOf(dev).maxUniformBlockSize, itemSize, capacity);
      var size := maxItems * itemSize;
      match CreateBuffer(dev, BufferDescriptor(size, DynamicUpload), gl)
      case Ok(buffer) => Pass(UniformVec(buffer, itemSize, maxItems, 0, Zeros(size)))
      case _ => Abort("called `Result::unwrap()` on an `Err` value")
  }

  /** The copy loop of `resize_with`: the first `k` generator values are
      written back to back from the start of `contents`, the rest of which
      is left alone. Fails when the generator runs dry. */
  method WriteItems(contents: seq<bv8>, gen: seq<seq<bv8>>, k: nat, s: nat) returns (r: Checked<seq<bv8>>)
    requires k * s <= |contents|
    requires forall i :: 0 <= i < |gen| ==> |gen[i]| == s
    ensures r.Pass? <==> k <= |gen|
    ensures r.Pass? ==> |Concat(gen[..k])| == k * s && r.value == Concat(gen[..k]) + contents[k * s..]
  {
    var written := contents;
    var offset := 0;
    var i := 0;
    while i < k
      invariant 0 <= i <= k && i <= |gen|
      invariant offset == |Concat(gen[..i])| <= k * s
      invariant written == Concat(gen[..i]) + contents[offset..]
    {
      if i >= |gen| {
        return Abort("called `Option::unwrap()` on a `None` value");
      }
      assert gen[..i + 1][..i] == gen[..i];
      ConcatUniform(gen[..i + 1], s);
      MulLe(i + 1, k, s);
      written := written[..offset] + gen[i] + written[offset + s..];
      offset := offset + s;
      i := i + 1;
    }
    if k > |gen| {
      return Abort("called `Option::unwrap()` on a `None` value");
    }
    ConcatUniform(gen[..k], s);
    return Pass(written);
  }

  /** After writing, item `i` sits at bytes `i * s .. (i + 1) * s`. */
  lemma ItemsAt(gen: seq<seq<bv8>>, k: nat, s: nat, rest: seq<bv8>, i: nat)
    requires k <= |gen| && i < k
    requires forall j :: 0 <= j < |gen| ==> |gen[j]| == s
    ensures (i + 1) * s <= |Concat(gen[..k]) + rest|
    ensures (Concat(gen[..k]) + rest)[i * s..(i + 1) * s] == gen[i]
  {
    ConcatUniform(gen[..k], s);
    assert gen[..k][i] == gen[i];
  }

  /** `UniformVec::resize_with`: the requested count is clipped to the
      capacity, and item `i` (the generator's `i`-th value) is written to
      bytes `i * itemSize .. (i + 1) * itemSize`; bytes past the populated
      prefix are not touched. The generator is given as the values it
      yields before it would panic. */
  method ResizeWith(v: UniformVec, n: nat, gen: seq<seq<bv8>>) returns (r: Checked<UniformVec>)
    requires 0 < v.itemSize && |v.contents| == v.maxItems * v.itemSize
    requires forall i :: 0 <= i < |gen| ==> |gen[i]| == v.itemSize
    ensures r.Pass? <==> Min(n, v.maxItems) <= |gen|
    ensures r.Pass? ==> var k := Min(n, v.maxItems);
                        && k * v.itemSize <= |v.contents|
                        && r.value == v.(items := k, contents := Concat(gen[..k]) + v.contents[k * v.itemSize..])
                        && |r.value.contents| == |v.contents|
    ensures r.Pass? ==> Length(r.value) <= Capacity(r.value)
  {
    var k := if n > v.maxItems then v.maxItems else n;
    MulLe(k, v.maxItems, v.itemSize);
    var written := WriteItems(v.contents, gen, k, v.itemSize);
    if written.Abort? {
      return Abort(written.reason);
    }
    r := Pass(v.(items := k, contents := written.value));
  }

  /** `UniformVec::with_items`: a vector sized for `n` items and filled with
      the first `n` values of the generator; exactly `n` items whenever `n`
      of them fit in one uniform block. */
  method WithItems(dev: Device, itemSize: nat, n: nat, gen: seq<seq<bv8>>, gl: GlCreation) returns (r: Checked<UniformVec>)
    requires Valid(dev) && IsU32(n)
    requires forall i :: 0 <= i < |gen| ==> |gen[i]| == itemSize
    ensures r.Pass? ==> 0 < itemSize < U32_LIMIT && gl.Created?
    ensures r.Pass? ==> var v := r.value;
                        && VecValid(LimitsOf(dev), v) && v.itemSize == itemSize
                        && v.items == v.maxItems <= n && v.items <= |gen|
                        && (n * itemSize <= LimitsOf(dev).maxUniformBlockSize ==> v.items == n)
                        && v.items * itemSize <= |v.contents|
                        && v.contents == Concat(gen[..v.items]) + Zeros(|v.contents| - v.items * itemSize)
    ensures 0 < itemSize < U32_LIMIT && gl.Created? && n <= |gen| ==> r.Pass?
  {
    var empty := WithCapacity(dev, itemSize, n, gl);
    if empty.Abort? {
      return Abort(empty.reason);
    }
    r := ResizeWith(empty.value, n, gen);
    if r.Pass? {
      var k := r.value.items;
      assert Zeros(|empty.value.contents|)[k * itemSize..] == Zeros(|empty.value.contents| - k * itemSize);
    }
    if r.Pass? && n * itemSize <= LimitsOf(dev).maxUniformBlockSize && empty.value.maxItems < n {
      MulLe(empty.value.maxItems + 1, n, itemSize);
    }
  }

  // ---------------------------------------------------------------------
  // Uniforms
  // ---------------------------------------------------------------------

  /** Byte sizes of the `repr(C)` uniform items: an instance is a padded
      vec3 and a padded vec2; the globals are three 4x4 matrices, a vec2
      and a float padded to 16 bytes, and two padded vec3s. */
  const INSTANCE_SIZE: nat := 32
  const GLOBALS_SIZE: nat := 3 * 64 + 16 + 16 + 16

  const MAX_SNOWFLAKES: nat := 4096
  const MOUNTAIN_INSTANCES: nat := 5

  const F32_ONE: F32 := F32(0x3F80_0000)
  /** The depth every snowflake instance is drawn at, `1.2f32`. */
  const SNOW_DEPTH: F32 := F32(0x3F99_999A)

  /** `Instance::new`: the position, a word of padding, the scaling, and
      two words of padding, all padding zero. */
  function InstanceBytes(position: Vec3, scaling: Vec2): (r: seq<bv8>)
    ensures |r| == INSTANCE_SIZE
    ensures r[..12] == F32sBytes(Floats3(position)) && r[16..24] == F32sBytes(Floats2(scaling))
    ensures forall i :: 12 <= i < 16 || 24 <= i < 32 ==> r[i] == 0
  {
    F32sBytes(Floats3(position)) + Zeros(4) + F32sBytes(Floats2(scaling)) + Zeros(8)
  }

  /** The five mountain positions of `Uniforms::new`, in call order. */
  const MOUNTAIN_POSITIONS: seq<Vec3> := [
    Vec3(F32(0xBF80_0000), F32(0xBDCC_CCCD), F32(0x4040_0000)),
    Vec3(F32(0xBF00_0000), F32(0xBDCC_CCCD), F32(0x4000_0000)),
    Vec3(F32(0x0000_0000), F32(0xBDCC_CCCD), F32(0x4040_0000)),
    Vec3(F32(0x3F00_0000), F32(0xBDCC_CCCD), F32(0x4000_0000)),
    Vec3(F32(0x3F80_0000), F32(0xBDCC_CCCD), F32(0x4040_0000))
  ]

  /** What the mountain generator yields before its sixth call would reach
      `unreachable!()`. */
  function MountainGenerator(): (r: seq<seq<bv8>>)
    ensures |r| == MOUNTAIN_INSTANCES
    ensures forall i :: 0 <= i < |r| ==> r[i] == InstanceBytes(MOUNTAIN_POSITIONS[i], Vec2(F32_ONE, F32_ONE))
  {
    seq(MOUNTAIN_INSTANCES, i requires 0 <= i < MOUNTAIN_INSTANCES => InstanceBytes(MOUNTAIN_POSITIONS[i], Vec2(F32_ONE, F32_ONE)))
  }

  datatype Uniforms = Uniforms(global: UniformVec, mountains: UniformVec, snowflakes: UniformVec, group: UniformGroup)

  predicate UniformsValid(limits: Limits, u: Uniforms) {
    && VecValid(limits, u.global) && u.global.itemSize == GLOBALS_SIZE
    && VecValid(limits, u.mountains) && u.mountains.itemSize == INSTANCE_SIZE
    && VecValid(limits, u.snowflakes) && u.snowflakes.itemSize == INSTANCE_SIZE
  }

  /** The group's three buffer entries, in order. */
  function GroupEntries(global: Buffer, mountains: Buffer, snowflakes: Buffer): (r: seq<UniformGroupEntry>)
    ensures |r| == 3 && forall i :: 0 <= i < 3 ==> r[i].kind.BufferBind?
  {
    [ UniformGroupEntry("rc_global", BufferBind(global)),
      UniformGroupEntry("rc_mountains", BufferBind(mountains)),
      UniformGroupEntry("rc_snowflakes", BufferBind(snowflakes)) ]
  }

  /** A list of buffer entries counts one buffer per entry and no texture. */
  lemma {:induction false} CountAllBuffers(entries: seq<UniformGroupEntry>)
    requires forall k :: 0 <= k < |entries| ==> entries[k].kind.BufferBind?
    ensures CountBuffers(entries) == |entries| && CountTextures(entries) == 0
  {
    if |entries| > 0 {
      CountAllBuffers(entries[..|entries| - 1]);
    }
  }

  /** With buffers no larger than a uniform block, an entry of the group
      offends exactly when it is one binding too many. */
  lemma GroupOffendsOnlyByCount(limits: Limits, entries: seq<UniformGroupEntry>, i: nat)
    requires i < |entries|
    requires forall k :: 0 <= k < |entries| ==> entries[k].kind.BufferBind? && entries[k].kind.buffer.len <= limits.maxUniformBlockSize
    ensures Offends(limits, entries, i) <==> i + 1 > limits.maxUniformBlockBindings
  {
    CountAllBuffers(entries[..i + 1]);
  }

  /** `Uniforms::new`: one zeroed globals item, the five mountain instances,
      room for up to 4096 snowflakes, and one group binding the three
      buffers. Because every buffer fits in a uniform block, the only way
      the group can fail is a device allowing fewer than three uniform
      block bindings. */
  method NewUniforms(dev: Device, glGlobal: GlCreation, glMountains: GlCreation, glSnowflakes: GlCreation)
    returns (r: Checked<Uniforms>)
    requires Valid(dev)
    ensures r.Pass? <==> glGlobal.Created? && glMountains.Created? && glSnowflakes.Created?
                         && LimitsOf(dev).maxUniformBlockBindings >= 3
    ensures r.Pass? ==> var u := r.value;
                        && UniformsValid(LimitsOf(dev), u)
                        && u.global.items == u.global.maxItems <= 1
                        && u.mountains.items == u.mountains.maxItems <= MOUNTAIN_INSTANCES
                        && u.mountains.items * INSTANCE_SIZE <= |u.mountains.contents|
                        && u.mountains.contents == Concat(MountainGenerator()[..u.mountains.items])
                                                   + Zeros(|u.mountains.contents| - u.mountains.items * INSTANCE_SIZE)
                        && u.snowflakes.items == 0 && u.snowflakes.maxItems <= MAX_SNOWFLAKES
                        && |u.group.entries| == 3
                        && u.group.entries[0] == ("rc_global", BufferBind(u.global.buffer))
                        && u.group.entries[1] == ("rc_mountains", BufferBind(u.mountains.buffer))
                        && u.group.entries[2] == ("rc_snowflakes", BufferBind(u.snowflakes.buffer))
  {
    var global := WithItems(dev, GLOBALS_SIZE, 1, [Zeros(GLOBALS_SIZE)], glGlobal);
    if global.Abort? {
      return Abort(global.reason);
    }
    var mountains := WithItems(dev, INSTANCE_SIZE, MOUNTAIN_INSTANCES, MountainGenerator(), glMountains);
    if mountains.Abort? {
      return Abort(mountains.reason);
    }
    var snowflakes := WithCapacity(dev, INSTANCE_SIZE, MAX_SNOWFLAKES, glSnowflakes);
    if snowflakes.Abort? {
      return Abort(snowflakes.reason);
    }
    var entries := GroupEntries(global.value.buffer, mountains.value.buffer, snowflakes.value.buffer);
    forall i | 0 <= i < 3
      ensures Offends(LimitsOf(dev), entries, i) <==> i + 1 > LimitsOf(dev).maxUniformBlockBindings
    {
      GroupOffendsOnlyByCount(LimitsOf(dev), entries, i);
    }
    var group, _ := CreateUniformBindGroup(dev, entries);
    if group.Abort? {
      assert LimitsOf(dev).maxUniformBlockBindings < 3 by {
        var k :| 0 <= k < 3 && Offends(LimitsOf(dev), entries, k);
      }
      return Abort(group.reason);
    }
    assert !Offends(LimitsOf(dev), entries, 2);
    return Pass(Uniforms(global.value, mountains.value, snowflakes.value, group.value));
  }

  // ---------------------------------------------------------------------
  // Per-frame refresh and draw
  // ---------------------------------------------------------------------

  /** The instance a snowflake is drawn as: its position at the snow
      depth, unscaled. */
  function FlakeInstance(f: Snowflake): (r: seq<bv8>)
    ensures |r| == INSTANCE_SIZE
  {
    InstanceBytes(Vec3(f.position.0, f.position.1, SNOW_DEPTH), Vec2(F32_ONE, F32_ONE))
  }

  /** `Renderer::update`: the snowflake vector is refilled from the scene's
      flakes in iteration order, with the entity count truncated to a
      `u32` and clipped to the capacity, so the iterator is never asked for
      more flakes than it has; the globals vector gets its one item. */
  method UpdateUniforms(u: Uniforms, limits: Limits, flakes: Entities<Snowflake>, globals: seq<bv8>)
    returns (r: Checked<Uniforms>)
    requires UniformsValid(limits, u)
    requires |globals| == GLOBALS_SIZE
    ensures r.Pass?
    ensures var v := r.value.snowflakes;
            && UniformsValid(limits, r.value) && r.value.group == u.group && r.value.mountains == u.mountains
            && v.items == Min(Len(flakes) % U32_LIMIT, Capacity(u.snowflakes)) <= Len(flakes)
            && forall i :: 0 <= i < v.items ==>
                 (i + 1) * INSTANCE_SIZE <= |v.contents|
                 && v.contents[i * INSTANCE_SIZE..(i + 1) * INSTANCE_SIZE] == FlakeInstance(Payloads(flakes.bundles)[i])
    ensures r.value.global.items == Min(1, Capacity(u.global))
  {
    var payloads := Payloads(flakes.bundles);
    var gen := seq(|payloads|, i requires 0 <= i < |payloads| => FlakeInstance(payloads[i]));
    var snowflakes := ResizeWith(u.snowflakes, Len(flakes) % U32_LIMIT, gen);
    var global := ResizeWith(u.global, 1, [globals]);
    var v := snowflakes.value;
    forall i | 0 <= i < v.items
      ensures (i + 1) * INSTANCE_SIZE <= |v.contents|
              && v.contents[i * INSTANCE_SIZE..(i + 1) * INSTANCE_SIZE] == FlakeInstance(payloads[i])
    {
      ItemsAt(gen, v.items, INSTANCE_SIZE, u.snowflakes.contents[v.items * INSTANCE_SIZE..], i);
    }
    return Pass(u.(snowflakes := v, global := global.value));
  }

  /** One `draw_indexed` call: an index range and an instance count. */
  /** `Renderer::draw`: a pass over the target, then the snow and the
      mountains, each drawn over its whole index list once per populated
      instance. Starting the pass takes the device lock. */
  function Draw(dev: Device, u: Uniforms, snowfall: RenderPipeline, target: Framebuffer): (r: Checked<seq<DrawCall>>)
    ensures r.Pass? <==> !dev.locked
    ensures r.Pass? ==> |r.value| == 2
    ensures r.Pass? ==> r.value[0] == DrawIndexed(0, |SNOWFALL_INDICES|, Length(u.snowflakes))
    ensures r.Pass? ==> r.value[1] == DrawIndexed(0, |MOUNTAIN_INDICES|, Length(u.mountains))
  {
    var _ :- StartRenderPass(dev, RenderPassDescriptor(snowfall, target));
    Pass([DrawIndexed(0, 3, u.snowflakes.items), DrawIndexed(0, 27, u.mountains.items)])
  }

  // ---------------------------------------------------------------------
  // Static geometry
  // ---------------------------------------------------------------------

  const SNOWFALL_VERTICES: nat := 3
  const SNOWFALL_INDICES: seq<nat> := [0, 1, 2]

  const MOUNTAIN_VERTICES: nat := 13
  const MOUNTAIN_INDICES: seq<nat> := [8, 0, 10, 9, 11, 1, 12, 0, 1, 3, 5, 7, 7, 6, 4, 2, 3, 7, 2, 7, 4, 10, 0, 12, 12, 1, 11]

  predicate IndicesWithin(indices: seq<nat>, vertices: nat) {
    forall i :: 0 <= i < |indices| ==> indices[i] < vertices
  }

  /** Every draw call's range covers exactly its mesh's index list, and
      every index names one of that mesh's vertices. */
  lemma DrawsStayInBounds(dev: Device, u: Uniforms, snowfall: RenderPipeline, target: Framebuffer)
    requires !dev.locked
    ensures var calls := Draw(dev, u, snowfall, target).value;
            && calls[0].end == |SNOWFALL_INDICES| && calls[1].end == |MOUNTAIN_INDICES|
            && IndicesWithin(SNOWFALL_INDICES, SNOWFALL_VERTICES)
            && IndicesWithin(MOUNTAIN_INDICES, MOUNTAIN_VERTICES)
  {
  }

  /** The image of a vertex list, as `cast_slice` hands it over. */
  function VertexData(vertices: seq<Vertex>): (r: seq<bv8>)
    ensures |r| == SIZE * |vertices|
  {
    var pieces := seq(|vertices|, i requires 0 <= i < |vertices| => Bytes(vertices[i]));
    ConcatUniform(pieces, SIZE);
    Concat(pieces)
  }

  /** One `create_*_buffer_with_data(..).expect(..)` of `upload_geometry`:
      the descriptor size is `count * unit`, computed in `u32` with an
      overflow check, and the data is the list's image. */
  function UploadBuffer(dev: Device, count: nat, unit: nat, data: seq<bv8>, gl: GlCreation): (r: Checked<Buffer>)
    requires unit > 0 && |data| == unit * count
    ensures r.Pass? <==> unit * count < U32_LIMIT && gl.Created?
    ensures r.Pass? ==> r.value == Buffer(gl.name, unit * count)
  {
    MulLe(1, unit, count);
    if count >= U32_LIMIT then Abort("The number of elements to be uploaded does not fit into an unsigned 32-bit integer.")
    else if unit * count >= U32_LIMIT then Abort("The number of bytes that would be taken up by the elements does not fit into an unsigned 32-bit integer.")
    else match CreateBufferWithData(dev, BufferDescriptor(unit * count, StaticUpload), data, gl)
      case Ok(buffer) => Pass(buffer)
      case _ => Abort("Could not upload buffer data.")
  }

  /** `upload_geometry`: a vertex and an index buffer whose descriptor sizes
      are the byte lengths of the data, computed with overflow checks; the
      vertex buffer is created first. */
  function UploadGeometry(dev: Device, vertices: seq<Vertex>, indices: seq<uint16>, glVertices: GlCreation, glIndices: GlCreation)
    : (r: Checked<(Buffer, Buffer)>)
    ensures r.Pass? <==> SIZE * |vertices| < U32_LIMIT && 2 * |indices| < U32_LIMIT
                         && glVertices.Created? && glIndices.Created?
    ensures r.Pass? ==> r.value.0 == Buffer(glVertices.name, SIZE * |vertices|)
                        && r.value.1 == Buffer(glIndices.name, 2 * |indices|)
  {
    var vertexBuffer :- UploadBuffer(dev, |vertices|, SIZE, VertexData(vertices), glVertices);
    var indexBuffer :- UploadBuffer(dev, |indices|, 2, IndexData(indices), glIndices);
    Pass((vertexBuffer, indexBuffer))
  }

  /** The descriptor sizes `upload_geometry` computes are the lengths of the
      data it passes, so the buffer factory's length panic cannot fire. */
  lemma UploadNeverMismatches(dev: Device, vertices: seq<Vertex>, indices: seq<uint16>, gl: GlCreation)
    requires SIZE * |vertices| < U32_LIMIT && 2 * |indices| < U32_LIMIT
    ensures !CreateBufferWithData(dev, BufferDescriptor(SIZE * |vertices|, StaticUpload), VertexData(vertices), gl).Panic?
    ensures !CreateBufferWithData(dev, BufferDescriptor(2 * |indices|, StaticUpload), IndexData(indices), gl).Panic?
  {
  }
}

=== FILE: resources.dfy ===
/** The resource and descriptor types the GPU layer hands around.

    Their definitions live in the layer's buffer, texture, framebuffer and
    pipeline files, which are not part of this model; only the fields the
    device-level checks read are kept. GL object names are plain numbers
    handed out by the context. */
module Resources {
  import opened Outcomes

  /** What a `glCreate*` call reports: a fresh object name or an error text. */
  datatype GlCreation = Created(name: nat) | Failed(what: string)

  /** The usage hint passed along with buffer data. */
  datatype BufferProfile = StaticUpload | DynamicUpload

  datatype BufferDescriptor = BufferDescriptor(size: nat, profile: BufferProfile)

  /** A vertex, index or uniform buffer: its GL name and its length in bytes. */
  datatype Buffer = Buffer(name: nat, len: nat)

  datatype TextureFormat = Rgba8Unorm | Rgba32Float | Depth24Stencil8

  /** The dimensions of a texture, every axis a `u32`. */
  datatype TextureExtent =
    | D1(length: nat)
    | D2(width: nat, height: nat)
    | D2Array(width: nat, height: nat, layers: nat)
    | D3(width: nat, height: nat, depth: nat)

  /** `Mipmap::None` is written `NoMipmaps` here to keep it apart from
      `Option.None`. */
  datatype Mipmap = NoMipmaps | Manual(levels: nat) | Automatic

  datatype TextureDescriptor = TextureDescriptor(extent: TextureExtent, format: TextureFormat, mip: Mipmap)

  datatype Texture = Texture(name: nat, format: TextureFormat, extent: TextureExtent)

  datatype TextureFilter = Nearest | Linear

  /** The (width, height, depth) triple of an extent, padding missing axes
      with 1. */
  function Axes(e: TextureExtent): (r: (nat, nat, nat))
    ensures e.D1? ==> r == (e.length, 1, 1)
    ensures e.D2? ==> r == (e.width, e.height, 1)
    ensures e.D2Array? ==> r == (e.width, e.height, e.layers)
    ensures e.D3? ==> r == (e.width, e.height, e.depth)
  {
    match e
    case D1(l) => (l, 1, 1)
    case D2(w, h) => (w, h, 1)
    case D2Array(w, h, l) => (w, h, l)
    case D3(w, h, d) => (w, h, d)
  }

  /** What a render pass does to an attachment before the first draw. */
  datatype LoadOp<+T> = Load | Clear(value: T)

  datatype Color = Color(r: F32, g: F32, b: F32, a: F32)

  // Vertex buffer layouts.

  datatype VertexType = F32Type

  datatype VertexComponents = One | Two | Three | Four

  function ComponentCount(c: VertexComponents): (n: nat)
    ensures 1 <= n <= 4
  {
    match c
    case One => 1
    case Two => 2
    case Three => 3
    case Four => 4
  }

  /** Size in bytes of one component of the given type. */
  function TypeSize(t: VertexType): nat {
    match t
    case F32Type => 4
  }

  datatype VertexAttribute = VertexAttribute(kind: VertexType, components: VertexComponents, offset: nat, binding: string)

  datatype VertexBufferLayout = VertexBufferLayout(arrayStride: nat, attributes: seq<VertexAttribute>)

  /** Size in bytes of one attribute. */
  function AttributeSize(a: VertexAttribute): nat {
    ComponentCount(a.components) * TypeSize(a.kind)
  }

  /** The attributes are laid out back to back from offset 0, each one
      starting where the previous one ends, and the last one ends exactly at
      the stride: no gaps, no overlap, nothing past the vertex. */
  predicate Packed(l: VertexBufferLayout) {
    && (|l.attributes| == 0 ==> l.arrayStride == 0)
    && (|l.attributes| > 0 ==>
          && l.attributes[0].offset == 0
          && (forall i :: 0 < i < |l.attributes| ==>
                l.attributes[i].offset == l.attributes[i - 1].offset + AttributeSize(l.attributes[i - 1]))
          && Last(l.attributes).offset + AttributeSize(Last(l.attributes)) == l.arrayStride)
  }

  function Last<T>(s: seq<T>): T
    requires |s| > 0
  {
    s[|s| - 1]
  }

  /** Total size of a sequence of attributes. */
  function TotalSize(attrs: seq<VertexAttribute>): nat {
    if |attrs| == 0 then 0 else TotalSize(attrs[..|attrs| - 1]) + AttributeSize(Last(attrs))
  }

  /** In a packed layout two distinct attributes never share a byte. */
  lemma {:induction false} PackedDisjoint(l: VertexBufferLayout, i: nat, j: nat)
    requires Packed(l)
    requires i < j < |l.attributes|
    ensures l.attributes[i].offset + AttributeSize(l.attributes[i]) <= l.attributes[j].offset
    decreases j - i
  {
    if i + 1 < j {
      PackedDisjoint(l, i + 1, j);
    }
  }

  /** In a packed layout every attribute lies inside the vertex. */
  lemma {:induction false} PackedInside(l: VertexBufferLayout, j: nat)
    requires Packed(l)
    requires j < |l.attributes|
    ensures l.attributes[j].offset + AttributeSize(l.attributes[j]) <= l.arrayStride
    decreases |l.attributes| - j
  {
    if j + 1 < |l.attributes| {
      PackedInside(l, j + 1);
    }
  }

  /** In a packed layout the stride is the total size of the attributes. */
  lemma PackedStride(l: VertexBufferLayout)
    requires Packed(l)
    ensures l.arrayStride == TotalSize(l.attributes)
  {
    var a := l.attributes;
    if |a| > 0 {
      PackedOffsets(a, |a| - 1);
    }
  }

  lemma {:induction false} PackedOffsets(a: seq<VertexAttribute>, k: nat)
    requires k < |a|
    requires a[0].offset == 0
    requires forall i :: 0 < i < |a| ==> a[i].offset == a[i - 1].offset + AttributeSize(a[i - 1])
    ensures a[k].offset == TotalSize(a[..k])
  {
    if k > 0 {
      PackedOffsets(a, k - 1);
      assert a[..k][..k - 1] == a[..k - 1];
    } else {
      assert a[..0] == [];
    }
  }
}

=== FILE: scene.dfy ===
/** The snow scene: one class of snowflake particles stepped every frame,
    and a spawn timer that emits a row of 24 new flakes for every full
    quarter second that has passed.

    Durations are whole nanoseconds. Snowflake coordinates are `f32` bit
    patterns; the comparison that culls flakes is modelled exactly, while
    the drift arithmetic (a product and a difference of floats) is a
    function parameter. */
module Scene {
  import opened Outcomes
  import opened Entity

  /** The spawn period, `Duration::from_millis(250)`. */
  const SPAWN_PERIOD: nat := 250_000_000

  /** Flakes emitted per spawn period. */
  const FLAKES_PER_ROW: nat := 24

  /** `1.2f32` and `-1.2f32`. */
  const TOP: F32 := F32(0x3F99_999A)
  const BOTTOM: F32 := F32(0xBF99_999A)

  datatype Snowflake = Snowflake(position: (F32, F32), speed: (F32, F32))

  /** A flake is culled once it has fallen below the bottom of the view. */
  predicate Offscreen(f: Snowflake) {
    F32Less(f.position.1, BOTTOM)
  }

  /** The body of `Snowflakes::simulate` for one entity: an offscreen flake
      is killed and left where it is; any other flake drifts. */
  function StepFlake(drift: (nat, Snowflake) -> Snowflake, delta: nat, e: Entity<Snowflake>): (r: Entity<Snowflake>)
    ensures r.alive <==> e.alive && !Offscreen(e.payload)
    ensures Offscreen(e.payload) ==> r.payload == e.payload
    ensures !Offscreen(e.payload) ==> r.payload == drift(delta, e.payload)
  {
    if Offscreen(e.payload) then Kill(e) else e.(payload := drift(delta, e.payload))
  }

  /** `Snowflakes::simulate`, the class procedure of the snowflakes. */
  function FlakeProcedure(drift: (nat, Snowflake) -> Snowflake): (p: Procedure<Snowflake>)
    ensures forall delta, s, i :: 0 <= i < |s| ==> p(delta, s)[i] == StepFlake(drift, delta, s[i])
  {
    (delta: nat, s: seq<Entity<Snowflake>>) =>
      seq(|s|, i requires 0 <= i < |s| => StepFlake(drift, delta, s[i]))
  }

  /** The flakes a step keeps are exactly those that were alive and not yet
      offscreen. */
  lemma FlakeProcedureCulls(drift: (nat, Snowflake) -> Snowflake, delta: nat, s: seq<Entity<Snowflake>>, i: nat)
    requires i < |s|
    ensures FlakeProcedure(drift)(delta, s)[i].alive <==> s[i].alive && !Offscreen(s[i].payload)
  {
  }

  /** Flakes are born at the top of the view, so their first step never
      culls them. */
  lemma NewFlakeSurvives(x: F32)
    ensures !Offscreen(NewFlake(x))
  {
  }

  /** The `i`-th flake of a row is born at height 1.2, motionless, at the
      `i`-th abscissa of the row. The abscissas come from adding 0.4 to -1.2
      again and again in `f32`, which is a parameter here. */
  function NewFlake(x: F32): (r: Snowflake)
    ensures r.position.1 == TOP && r.speed == (F32_ZERO, F32_ZERO)
  {
    Snowflake((x, TOP), (F32_ZERO, F32_ZERO))
  }

  datatype Snowflakes = Snowflakes(entities: Entities<Snowflake>, handle: Class, spawnTimer: nat)

  /** `Snowflakes::new`: one registered class, no flakes, a zero timer. */
  function NewSnowflakes(drift: (nat, Snowflake) -> Snowflake): (r: Snowflakes)
    ensures r.handle.index == 0 && |r.entities.bundles| == 1
    ensures r.entities.bundles[0].entities == [] && Len(r.entities) == 0
    ensures r.entities.bundles[0].procedure == FlakeProcedure(drift)
    ensures r.spawnTimer == 0
  {
    var (entities, handle) := Register(NewEntities(), FlakeProcedure(drift));
    Snowflakes(entities, handle, 0)
  }

  /** The number of rows due once the timer reads `t`: the timer is
      decremented while it is strictly above the period. */
  function RowsDue(t: nat): (k: nat)
    ensures k * SPAWN_PERIOD <= t
    ensures t - k * SPAWN_PERIOD <= SPAWN_PERIOD
    ensures k > 0 ==> t - (k - 1) * SPAWN_PERIOD > SPAWN_PERIOD
  {
    if t <= SPAWN_PERIOD then 0 else (t - 1) / SPAWN_PERIOD
  }

  /** `k` rows, each the flakes `xs(0) .. xs(23)` in order. */
  function Rows(xs: nat -> F32, k: nat): (r: seq<Entity<Snowflake>>)
    ensures |r| == FLAKES_PER_ROW * k
    ensures forall i :: 0 <= i < |r| ==> r[i] == Entity(true, NewFlake(xs(i % FLAKES_PER_ROW)))
  {
    seq(FLAKES_PER_ROW * k, i requires 0 <= i < FLAKES_PER_ROW * k => Entity(true, NewFlake(xs(i % FLAKES_PER_ROW))))
  }

  /** The spawn loop of `Scene::update`, from a timer reading `timer`: one
      row per full period above the timer, all into the class `handle`,
      each spawn panicking as `spawn_with` does. `left` is the final
      timer reading. */
  method SpawnRows(es: Entities<Snowflake>, handle: Class, timer: nat, xs: nat -> F32)
    returns (r: Checked<Entities<Snowflake>>, left: nat)
    ensures var due := RowsDue(timer);
            r.Pass? <==> due == 0
                         || (handle.index < |es.bundles|
                             && |es.bundles[handle.index].entities| + FLAKES_PER_ROW * due < USIZE_LIMIT)
    ensures r.Pass? ==> var due := RowsDue(timer);
                        && left <= SPAWN_PERIOD
                        && left + due * SPAWN_PERIOD == timer
                        && Len(r.value) == Len(es) + FLAKES_PER_ROW * due
                        && |r.value.bundles| == |es.bundles|
                        && (forall i :: 0 <= i < |es.bundles| && i != handle.index ==> r.value.bundles[i] == es.bundles[i])
                        && (due == 0 ==> r.value == es)
                        && (due > 0 ==> r.value.bundles[handle.index].entities
                                        == es.bundles[handle.index].entities + Rows(xs, due))
  {
    var entities := es;
    left := timer;
    ghost var due := RowsDue(timer);
    var rows: nat := 0;
    while left > SPAWN_PERIOD
      invariant RowsDue(left) + rows == due
      invariant left + rows * SPAWN_PERIOD == timer
      invariant rows > 0 ==> handle.index < |es.bundles|
      invariant rows > 0 ==> |es.bundles[handle.index].entities| + FLAKES_PER_ROW * rows < USIZE_LIMIT
      invariant Len(entities) == Len(es) + FLAKES_PER_ROW * rows
      invariant |entities.bundles| == |es.bundles|
      invariant forall i :: 0 <= i < |es.bundles| && i != handle.index ==> entities.bundles[i] == es.bundles[i]
      invariant rows > 0 ==> entities.bundles[handle.index].entities == es.bundles[handle.index].entities + Rows(xs, rows)
      invariant rows == 0 ==> entities == es
      decreases left
    {
      RowsDueStep(left);
      var spawned := SpawnWith(entities, handle, FLAKES_PER_ROW, RowGenerator(xs));
      if spawned.Abort? {
        return Abort(spawned.reason), left;
      }
      RowsGrow(xs, rows);
      entities := spawned.value;
      rows := rows + 1;
      left := left - SPAWN_PERIOD;
    }
    return Pass(entities), left;
  }

  /** One period less on a timer above the period is one row less due. */
  lemma RowsDueStep(t: nat)
    requires t > SPAWN_PERIOD
    ensures RowsDue(t - SPAWN_PERIOD) + 1 == RowsDue(t)
  {
  }

  /** `Scene::update`: the flakes are stepped first, then the timer advances
      by `delta` and one row is spawned per full period above it. Newly
      spawned flakes are appended after the survivors and are not stepped
      in the frame they appear. `stepped` is the state after the step. */
  method Update(sc: Snowflakes, delta: nat, xs: nat -> F32) returns (r: Checked<Snowflakes>, stepped: Entities<Snowflake>)
    ensures |stepped.bundles| == |sc.entities.bundles|
    ensures forall i :: 0 <= i < |sc.entities.bundles| ==>
              var after := stepped.bundles[i].entities;
              && (forall k :: 0 <= k < |after| ==> after[k].alive)
              && multiset(after)
                 == multiset(Survivors(sc.entities.bundles[i].procedure(delta, sc.entities.bundles[i].entities)))
    ensures var due := RowsDue(sc.spawnTimer + delta);
            r.Pass? <==> due == 0
                         || (sc.handle.index < |stepped.bundles|
                             && |stepped.bundles[sc.handle.index].entities| + FLAKES_PER_ROW * due < USIZE_LIMIT)
    ensures r.Pass? ==> var due := RowsDue(sc.spawnTimer + delta);
                        && r.value.handle == sc.handle
                        && r.value.spawnTimer <= SPAWN_PERIOD
                        && r.value.spawnTimer + due * SPAWN_PERIOD == sc.spawnTimer + delta
                        && Len(r.value.entities) == Len(stepped) + FLAKES_PER_ROW * due
                        && |r.value.entities.bundles| == |stepped.bundles|
                        && (forall i :: 0 <= i < |stepped.bundles| && i != sc.handle.index
                              ==> r.value.entities.bundles[i] == stepped.bundles[i])
                        && (due == 0 ==> r.value.entities == stepped)
                        && (due > 0 ==> r.value.entities.bundles[sc.handle.index].entities
                                        == stepped.bundles[sc.handle.index].entities + Rows(xs, due))
  {
    stepped := Simulate(sc.entities, delta);
    var spawned, left := SpawnRows(stepped, sc.handle, sc.spawnTimer + delta, xs);
    if spawned.Abort? {
      return Abort(spawned.reason), stepped;
    }
    return Pass(Snowflakes(spawned.value, sc.handle, left)), stepped;
  }

  /** The generator of one row: a fresh closure per row, so every row
      starts again from the first abscissa. */
  function RowGenerator(xs: nat -> F32): (make: nat -> Snowflake)
    ensures forall i :: make(i) == NewFlake(xs(i))
  {
    (i: nat) => NewFlake(xs(i))
  }

  lemma RowsGrow(xs: nat -> F32, k: nat)
    ensures Rows(xs, k + 1) == Rows(xs, k) + seq(FLAKES_PER_ROW, i requires 0 <= i < FLAKES_PER_ROW => Entity(true, NewFlake(xs(i))))
  {
    var a := Rows(xs, k + 1);
    var b := Rows(xs, k) + seq(FLAKES_PER_ROW, i requires 0 <= i < FLAKES_PER_ROW => Entity(true, NewFlake(xs(i))));
    assert |a| == |b|;
    forall i | 0 <= i < |a|
      ensures a[i] == b[i]
    {
      if i >= FLAKES_PER_ROW * k {
        assert i % FLAKES_PER_ROW == i - FLAKES_PER_ROW * k;
      }
    }
  }
}

=== FILE: vertex.dfy ===
/** The support library's vertex: six `f32` vectors laid out back to back,
    and the buffer layout that tells the GPU where each of them sits.

    The checked constructors compare a floating-point determinant against a
    tolerance and are not part of this model; the unchecked ones store
    their arguments. */
module SupportVertex {
  import opened Outcomes
  import opened Resources

  datatype Vec2 = Vec2(x: F32, y: F32)
  datatype Vec3 = Vec3(x: F32, y: F32, z: F32)

  const ZERO3: Vec3 := Vec3(F32_ZERO, F32_ZERO, F32_ZERO)

  datatype Vertex = Vertex(position: Vec3, texture: Vec2, color: Vec3, normal: Vec3, tangent: Vec3, bitangent: Vec3)

  function Position(v: Vertex): Vec3 { v.position }
  function Texture(v: Vertex): Vec2 { v.texture }
  function Color(v: Vertex): Vec3 { v.color }
  function Normal(v: Vertex): Vec3 { v.normal }
  function Tangent(v: Vertex): Vec3 { v.tangent }
  function Bitangent(v: Vertex): Vec3 { v.bitangent }

  /** `Vertex::new_unchecked_with_color`: every accessor returns the
      argument given for its field. */
  function NewUncheckedWithColor(position: Vec3, texture: Vec2, color: Vec3, normal: Vec3, tangent: Vec3, bitangent: Vec3): (v: Vertex)
    ensures Position(v) == position && Texture(v) == texture && Color(v) == color
    ensures Normal(v) == normal && Tangent(v) == tangent && Bitangent(v) == bitangent
  {
    Vertex(position, texture, color, normal, tangent, bitangent)
  }

  /** `Vertex::new_unchecked`: the colored constructor with a black color. */
  function NewUnchecked(position: Vec3, texture: Vec2, normal: Vec3, tangent: Vec3, bitangent: Vec3): (v: Vertex)
    ensures Position(v) == position && Texture(v) == texture && Color(v) == ZERO3
    ensures Normal(v) == normal && Tangent(v) == tangent && Bitangent(v) == bitangent
  {
    Vertex(position, texture, ZERO3, normal, tangent, bitangent)
  }

  function Floats2(a: Vec2): (r: seq<F32>)
    ensures |r| == 2
  {
    [a.x, a.y]
  }

  function Floats3(a: Vec3): (r: seq<F32>)
    ensures |r| == 3
  {
    [a.x, a.y, a.z]
  }

  /** The floats of field `k`, fields numbered in declaration order. */
  function Field(v: Vertex, k: nat): (r: seq<F32>)
    requires k < 6
  {
    match k
    case 0 => Floats3(v.position)
    case 1 => Floats2(v.texture)
    case 2 => Floats3(v.color)
    case 3 => Floats3(v.normal)
    case 4 => Floats3(v.tangent)
    case _ => Floats3(v.bitangent)
  }

  /** The seventeen floats of a vertex in memory order (`repr(C)`, no
      padding since every field is a run of `f32`s). */
  function Floats(v: Vertex): (r: seq<F32>)
    ensures |r| == 17
  {
    Field(v, 0) + Field(v, 1) + Field(v, 2) + Field(v, 3) + Field(v, 4) + Field(v, 5)
  }

  /** The in-memory image of a vertex, as `bytemuck` hands it to a buffer. */
  function Bytes(v: Vertex): (r: seq<bv8>)
    ensures |r| == SIZE
  {
    F32sBytes(Floats(v))
  }

  /** The size of one vertex in bytes. */
  const SIZE: nat := 68

  /** `Vertex::LAYOUT`. */
  const LAYOUT: VertexBufferLayout := VertexBufferLayout(68, [
    VertexAttribute(F32Type, Three, 0, "tt_vert_position"),
    VertexAttribute(F32Type, Two, 12, "tt_vert_texture"),
    VertexAttribute(F32Type, Three, 20, "tt_vert_color"),
    VertexAttribute(F32Type, Three, 32, "tt_vert_normal"),
    VertexAttribute(F32Type, Three, 44, "tt_vert_tangent"),
    VertexAttribute(F32Type, Three, 56, "tt_vert_bitangent")
  ])

  /** The layout is packed: offsets 0, 12, 20, 32, 44, 56 follow each other
      with no gap and no overlap, the last attribute ends at the stride, and
      the stride is the size of a vertex. */
  lemma LayoutPacked()
    ensures Packed(LAYOUT)
    ensures LAYOUT.arrayStride == TotalSize(LAYOUT.attributes) == SIZE
  {
    PackedStride(LAYOUT);
  }

  /** Attribute `k` of the layout describes field `k` of the vertex: the
      bytes at its offset, as many as it spans, are exactly that field's
      floats. */
  lemma LayoutMatchesFields(v: Vertex, k: nat)
    requires k < |LAYOUT.attributes|
    ensures var a := LAYOUT.attributes[k];
            && AttributeSize(a) == 4 * |Field(v, k)|
            && Bytes(v)[a.offset..a.offset + AttributeSize(a)] == F32sBytes(Field(v, k))
  {
    var a := LAYOUT.attributes[k];
    var before := FieldsBefore(v, k);
    var after := FieldsFrom(v, k + 1);
    assert Floats(v) == before + Field(v, k) + after by {
      FieldsSplit(v, k);
    }
    F32sBytesAppend(before + Field(v, k), after);
    F32sBytesAppend(before, Field(v, k));
    assert |F32sBytes(before)| == a.offset;
  }

  /** The floats of the fields before field `k`. */
  function FieldsBefore(v: Vertex, k: nat): (r: seq<F32>)
    requires k <= 6
    ensures |r| == [0, 3, 5, 8, 11, 14, 17][k]
  {
    if k == 0 then [] else FieldsBefore(v, k - 1) + Field(v, k - 1)
  }

  /** The floats of the fields from field `k` on. */
  function FieldsFrom(v: Vertex, k: nat): (r: seq<F32>)
    requires k <= 6
    decreases 6 - k
  {
    if k == 6 then [] else Field(v, k) + FieldsFrom(v, k + 1)
  }

  lemma FieldsSplit(v: Vertex, k: nat)
    requires k < 6
    ensures Floats(v) == FieldsBefore(v, k) + Field(v, k) + FieldsFrom(v, k + 1)
  {
  }
}
